=== FILE: README.md ===
# RipRaven acquisition core in Dafny

RipRaven downloads web comics chapter by chapter and serves them to a
browser reader and a terminal reader. This project models its acquisition
and bookkeeping logic as pure Dafny functions, methods and lemmas:

- **Pattern resolution** (`PatternFinder`): picking a page-URL base and start
  index from the image matches scraped off a chapter page (CDN form before
  manga.pics form), probing start indices 0..2 with jpg before png, turning
  chapter slugs (`1-5`) into chapter numbers (`1.5`), routing a URL to a
  resolver, and building the de-duplicated, numerically sorted chapter list.
- **Chapter-list cache** (`ChapterCache`): series-key normalisation, get/set,
  the next-N slice after the current chapter, and the refresh predicate.
- **Probe downloader** (`Downloader`, `Store`): the `find_all_images` loop
  that probes page indices with extensions jpg, png, jpeg, webp in order,
  stops after five consecutive misses or at the start+1000 safety bound,
  names pages `page_NNN.ext`, and writes the `completed` marker only when
  something was saved; the per-request status classification; the
  per-chapter skip-if-complete policy of `download_chapters`; and the
  chapter status query over a modelled library of directory listings.
- **Reader bookkeeping** (`NaturalSort`, `WebReader`, `Recent`, `Prefetch`):
  the natural-sort key, image listing and image URLs, the infinite-scroll
  window status, the recent-chapters file (newest first, one per series, at
  most ten), and the background-download status map with its check-then-mark
  step, settle step and error path.
- **Small helpers** (`Terminal`, `Scraper`): page-cursor navigation, the
  numeric menu choice and the ASCII shade index of the terminal reader; URL
  validation, the page-shape test, order-preserving URL de-duplication, the
  page file name and extension choice, and the combine-images layout of the
  Selenium scraper.

Shared vocabulary lives in `Text` (ASCII lower-casing, decimal rendering and
parsing, Python string ordering), `Seqs` (order-preserving de-duplication by
key, a stable insertion sort standing for Python's `list.sort`, stability and
permutation lemmas), `Dicts` (an insertion-ordered dictionary as a sequence
of pairs, as Python `dict` iteration order is observable) and `Wrappers`
(`Option`, `Result`).

Everything the program gets from outside is a parameter: an HTTP response
becomes a `Response` value or a `string -> Response` oracle, a page fetch a
`string -> bool` oracle, the file system a `Library` map from chapter
directories to listings, a parsed HTML page a `Document` of pre-parsed
regular-expression matches, Python's `.title()` an uninterpreted
`string -> string`, and the downloader call in the background trigger a
`seq<int> -> Reply` oracle.

A few behaviours of the code are worth stating up front:

- `_detect_start_number` returns 0 when none of its six probes answers
  (`PatternFinder.DetectStartNumberDefault`).
- `get_image_files` sorts file names as plain strings, so `page_1000.jpg`
  lands between `page_100.jpg` and `page_101.jpg`
  (`WebReader.ThousandthPageOutOfOrder`).
- With pages 0-4 and 6 present and nothing after 6, the hit at index 6
  resets the miss counter, so the run stops after probing index 11
  (`Downloader.ExampleStops`).

## Model

| member | source | states |
|---|---|---|
| `PatternFinder.BaseUrl` | ripraven/pattern_finder.py:44-48 | The base pattern is an https URL on the match's host and ends in `/`. |
| `PatternFinder.MinIndex` | ripraven/pattern_finder.py:45-46 | The start number is one of the matched indices and no larger than any of them. |
| `PatternFinder.ProbeFrom` | ripraven/pattern_finder.py:121-142 | Probing stops at the first probe that answers, in the fixed order; every earlier probe failed. |
| `PatternFinder.DetectStartNumber` | ripraven/pattern_finder.py:114-145 | The detected start is in {0,1,2}; it is the number of the first successful probe, all jpg probes come before png, and with no success the result is 0. |
| `PatternFinder.JpgBeforePng` | ripraven/pattern_finder.py:121-131 | If some jpg probe succeeds, no png probe is sent and the start is at most that jpg's number. |
| `PatternFinder.DetectStartNumberDefault` | ripraven/pattern_finder.py:145 | When all six probes fail the start is 0 after six probes, never "no result". |
| `PatternFinder.ExtractFromRavenscans` | ripraven/pattern_finder.py:26-112 | No page gives no template; any CDN match makes the first CDN match's base and the minimum CDN index the template; otherwise the manga.pics matches do; otherwise the first CDN, else manga.pics, reference gives the base and the start the probe finds for that base. |
| `PatternFinder.CdnWins` | ripraven/pattern_finder.py:40-54 | Once a CDN match exists, the manga.pics matches and references do not affect the result. |
| `PatternFinder.CdnRefShadowsPicsRefs` | ripraven/pattern_finder.py:78-105 | A CDN reference fallback shadows the manga.pics reference fallback. |
| `PatternFinder.ParseDirect` | ripraven/pattern_finder.py:186-221 | A direct image URL yields a template iff it matches, with its own base and a probed start in 0..2. |
| `PatternFinder.ParseDirectIgnoresIndex` | ripraven/pattern_finder.py:186-221 | The page index in a direct URL does not influence the template: the start is probed. |
| `PatternFinder.ChapterNumber` | ripraven/pattern_finder.py:160-162 | A chapter slug becomes a chapter number of the same length with no hyphen. |
| `PatternFinder.ChapterNumberOfSlug` | ripraven/pattern_finder.py:155-178 | Slug `N-M` maps to `N.M`, bare `N` to `N`, and the two conversions are inverse. |
| `PatternFinder.ChapterNumberOfValidSlug` | ripraven/pattern_finder.py:155-178 | Any slug that is well formed converts to its dotted chapter number. |
| `PatternFinder.ChapterNumberInjective` | ripraven/pattern_finder.py:155-178 | Distinct well-formed slugs give distinct chapter numbers. |
| `PatternFinder.DottedParts` | ripraven/pattern_finder.py:305-315 | A dotted chapter number splits at its only dot into the slug's integer and fractional parts. |
| `PatternFinder.ExtractChapterInfo` | ripraven/pattern_finder.py:147-184 | The path match wins over the manga.pics match; series is the title-cased slug with hyphens as spaces; with no match the info is `Unknown Series`, chapter `1`. |
| `PatternFinder.SeriesUrl` | ripraven/pattern_finder.py:258-269 | A series slug gives `https://ravenscans.org/manga/<slug>/`; no slug gives nothing. |
| `PatternFinder.RouteOf` | ripraven/pattern_finder.py:229-237 | A URL is routed to the CDN resolver iff it has a CDN host, else to the page resolver iff it mentions ravenscans.org, else to manga.pics iff it mentions it; otherwise it is unsupported. |
| `PatternFinder.FindPattern` | ripraven/pattern_finder.py:223-256 | Unsupported URLs give nothing; direct routes succeed iff the URL parses; the page route succeeds iff extraction does; a payload carries exactly the base and start of the route's template and the chapter info. |
| `PatternFinder.DotComUnsupported` | ripraven/pattern_finder.py:229-237 | A `ravenscans.com` chapter URL (series without a dot) is routed nowhere. |
| `PatternFinder.PageUrlDots` | ripraven/pattern_finder.py:229-237 | A chapter-page URL on `ravenscans.com` or `ravenscans.org` (series without a dot) has exactly one dot, the one before the top-level domain. |
| `PatternFinder.DotOrgRoutesToPage` | ripraven/pattern_finder.py:229-232 | The same URL on `ravenscans.org` is routed to the page scraper. |
| `PatternFinder.NoCdnHost` | ripraven/pattern_finder.py:229-230 | Such a URL, on either host, has no CDN host. |
| `PatternFinder.NoRavenOrg` | ripraven/pattern_finder.py:231-232 | Such a URL does not contain `ravenscans.org`. |
| `PatternFinder.NoMangaPics` | ripraven/pattern_finder.py:233-234 | Such a URL does not contain `manga.pics`. |
| `PatternFinder.SortKeyOfSlug` | ripraven/pattern_finder.py:305-315 | The sort key of a chapter number is its (integer part, fractional part), the fraction 0 when absent. |
| `PatternFinder.PairLeTotal` | ripraven/pattern_finder.py:315 | The lexicographic pair order used to sort chapters is a total preorder. |
| `PatternFinder.ToRefs` | ripraven/pattern_finder.py:290-302 | Each link match becomes a chapter reference with its number and URL, in page order. |
| `PatternFinder.ScrapeChapterList` | ripraven/pattern_finder.py:271-322 | The chapter list has distinct numbers, is sorted by (integer, fraction), holds exactly the numbers found on the page, and keeps each number's first URL. |
| `PatternFinder.ScrapeStable` | ripraven/pattern_finder.py:305-315 | Chapters with equal sort keys keep their first-seen order. |
| `PatternFinder.ExampleRefs` | ripraven/pattern_finder.py:290-302 | A page listing 10, 2, 1.1, 1, 2 gives those five references in order. |
| `PatternFinder.ExampleDistinct` | ripraven/pattern_finder.py:293-302 | The first four example references have distinct numbers. |
| `PatternFinder.DedupRepeat` | ripraven/pattern_finder.py:293-302 | A repeated chapter number is dropped, keeping the first URL. |
| `PatternFinder.ExampleKeys` | ripraven/pattern_finder.py:305-315 | The example numbers have sort keys (10,0), (2,0), (1,1), (1,0). |
| `PatternFinder.ScrapeDescending` | ripraven/pattern_finder.py:271-322 | Four distinct chapters listed newest first, plus a repeat, come out oldest first without the repeat. |
| `PatternFinder.ScrapeExample` | ripraven/pattern_finder.py:271-322 | The example page gives chapters 1, 1.1, 2, 10 with their first URLs. |
| `ChapterCache.NormalizeKey` | ripraven/pattern_finder.py:353-355 | The cache key keeps the length, has no space, hyphen or upper case, and maps spaces and hyphens to `_`. |
| `ChapterCache.NormalizeKeyIdempotent` | ripraven/pattern_finder.py:353-355 | Normalising a key twice is the same as once. |
| `ChapterCache.NormalizeKeyMerges` | ripraven/pattern_finder.py:353-355 | `Solo Leveling` and `solo-leveling` share the key `solo_leveling`. |
| `ChapterCache.GetChapters` | ripraven/pattern_finder.py:357-363 | A lookup finds the chapters iff the normalised key is cached. |
| `ChapterCache.GetSeriesUrl` | ripraven/pattern_finder.py:375-381 | The series URL is the cached one for the normalised key, none when absent. |
| `ChapterCache.SetChapters` | ripraven/pattern_finder.py:365-373 | After a set, every name with the same normalised key reads the new chapters and URL; other keys are unchanged. |
| `ChapterCache.SetChaptersOthers` | ripraven/pattern_finder.py:365-373 | A set leaves lookups under every other normalised key as they were. |
| `ChapterCache.RefreshChapters` | ripraven/pattern_finder.py:383-393 | With no known URL nothing is scraped and the cache is unchanged; otherwise the list is scraped and stored only when non-empty. |
| `ChapterCache.IndexOfNumber` | ripraven/pattern_finder.py:406 | The index of the first chapter with the given number, none iff absent. |
| `ChapterCache.GetNextChapters` | ripraven/pattern_finder.py:395-415 | At most `count` numbers, exactly those right after the first occurrence of the current chapter; empty when nothing is cached or it is absent. |
| `ChapterCache.GetChapterUrl` | ripraven/pattern_finder.py:417-426 | The URL of the first chapter with that number, found iff the number is listed. |
| `ChapterCache.NeedsRefresh` | ripraven/pattern_finder.py:428-443 | True when nothing is cached or the current chapter is absent; otherwise true iff fewer than `lookahead` chapters follow it. |
| `ChapterCache.NoRefreshFullWindow` | ripraven/pattern_finder.py:428-443 | When no refresh is needed, the next-chapters window is full. |
| `ChapterCache.RefreshWhenShort` | ripraven/pattern_finder.py:428-443 | For a listed chapter, a refresh is needed iff the next-chapters window is short. |
| `ChapterCache.NextExample` | ripraven/pattern_finder.py:395-443 | In the list 1, 1.1, 1.2, 2 the two chapters after 1.1 are 1.2 and 2; a look-ahead of 3 needs a refresh. |
| `Downloader.DownloadImage` | ripraven/async_downloader.py:32-58 | A download reports success iff the status is 200 and the whole body is written; 404, other statuses, timeouts and exceptions report their messages. |
| `Downloader.DownloadImageFailures` | ripraven/async_downloader.py:37-58 | Non-200 statuses, a failed write and a timeout all fail; a clean 200 succeeds. |
| `Downloader.FirstExtFrom` | ripraven/async_downloader.py:94-124 | Trying extensions from a position finds the first that answers, every earlier one having failed. |
| `Downloader.FirstExt` | ripraven/async_downloader.py:94-124 | The saved extension of an index is the first of jpg, png, jpeg, webp that answers. |
| `Downloader.SavedPagesShape` | ripraven/async_downloader.py:92-134 | Saved pages lie in the probed range, in strictly increasing index order, each with its first answering extension. |
| `Downloader.SavedPagesFit` | ripraven/async_downloader.py:94-109 | Every saved page is at a probed index and carries the first extension that answered there. |
| `Downloader.SavedPagesIncreasing` | ripraven/async_downloader.py:92-134 | Saved page indices strictly increase. |
| `Downloader.SavedPagesComplete` | ripraven/async_downloader.py:92-134 | Every probed index that answered is saved. |
| `Downloader.TrailingMissesFive` | ripraven/async_downloader.py:106-127 | The counter reaches five iff the last five probed indices all missed. |
| `Downloader.TrailingMissesAtLeast` | ripraven/async_downloader.py:106-127 | The counter is at least n iff the last n probed indices all missed. |
| `Downloader.StoppedUnique` | ripraven/async_downloader.py:92-134 | The probe loop has a single stopping point. |
| `Downloader.StoppedByMisses` | ripraven/async_downloader.py:124-127 | A run that stops before the safety bound ends on five consecutive misses. |
| `Downloader.SavedIffEarlyHit` | ripraven/async_downloader.py:92-134 | A run saves something iff one of the first five indices answers. |
| `Downloader.NothingSaved` | ripraven/async_downloader.py:92-134 | A stretch of misses saves nothing. |
| `Downloader.Requests` | ripraven/async_downloader.py:92-134 | Probing k indices costs between k and 4k requests. |
| `Downloader.FolderName` | ripraven/async_downloader.py:72-74 | The series folder replaces each space and hyphen by `_` and keeps every other character. |
| `Downloader.PageFileNameInjective` | ripraven/async_downloader.py:101-102 | Distinct (index, extension) pairs get distinct page file names. |
| `Downloader.PageNamesDistinct` | ripraven/async_downloader.py:101-102 | Pages with increasing indices get pairwise distinct names. |
| `Downloader.PageNames` | ripraven/async_downloader.py:101-102 | Each saved page is named from its index and extension, in order. |
| `Downloader.PageIsImage` | ripraven/async_downloader.py:101-102 | A page file name has an image suffix. |
| `Downloader.PageNamesAreImages` | ripraven/async_downloader.py:101-102 | Every saved page name counts as an image in the status query. |
| `Downloader.RunDir` | ripraven/async_downloader.py:68-75 | Without chapter info the run writes to `Unknown/chapter_1`; otherwise to the folder-named series and `chapter_<n>`. |
| `Downloader.ProbeStep` | ripraven/async_downloader.py:92-134 | One more probe appends a page iff the index answers, resets or bumps the miss counter, and adds that index's requests. |
| `Downloader.ProbeIndex` | ripraven/async_downloader.py:94-124 | The inner extension loop finds the first answering extension and counts its requests. |
| `Downloader.ProbeStart` | ripraven/async_downloader.py:79-82 | Before probing, nothing is saved, the counter is zero and no request is sent. |
| `Downloader.ProbeNext` | ripraven/async_downloader.py:92-134 | One iteration of the probe loop keeps the loop state in step with the pure definitions. |
| `Downloader.ProbeAdvance` | ripraven/async_downloader.py:92-134 | The loop state after one iteration, for a hit and for a miss. |
| `Downloader.FindAllImages` | ripraven/async_downloader.py:60-157 | The run terminates at its stopping point, returns exactly the saved pages' paths in index order, writes the marker iff something was saved, and counts its requests. |
| `Downloader.ProbeFinished` | ripraven/async_downloader.py:124-157 | Leaving the loop by the miss threshold or the safety bound is the stopping point. |
| `Downloader.WriteFiles` | ripraven/async_downloader.py:104-109 | Writing files keeps existing entries and adds each written name. |
| `Downloader.Files` | ripraven/async_downloader.py:104-109 | A fresh directory listing holds exactly the written files in order. |
| `Downloader.WriteFilesFresh` | ripraven/async_downloader.py:75-109 | Distinct names written into an empty directory give exactly those files. |
| `Downloader.ImageNamesOfFiles` | ripraven/async_downloader.py:392-396 | The image count of a listing of image files is the listing itself. |
| `Downloader.FilesSnoc` | ripraven/async_downloader.py:104-109 | Writing one more file appends it. |
| `Downloader.RunFiles` | ripraven/async_downloader.py:101-155 | A run writes one file per saved page, then the marker iff it saved anything. |
| `Downloader.AfterRun` | ripraven/async_downloader.py:75-155 | A run creates its directory even when nothing is saved, adds its files and marker, and leaves other directories alone. |
| `Downloader.RunFilesDistinct` | ripraven/async_downloader.py:101-155 | A run's files are pairwise distinct and its page files are images. |
| `Downloader.FilesHasEntry` | ripraven/async_downloader.py:104-109 | A fresh listing has an entry iff that name was written. |
| `Downloader.ImageNamesNonImage` | ripraven/async_downloader.py:392-396 | Writing the marker does not change the image count. |
| `Downloader.FreshListing` | ripraven/async_downloader.py:149-155 | A fresh chapter directory lists exactly the saved pages as images and holds the marker iff something was saved. |
| `Downloader.FreshRunStatus` | ripraven/async_downloader.py:382-402 | After a fresh run the status query reports the directory, completeness iff pages were saved, and the page count. |
| `Downloader.SeriesSlug` | ripraven/async_downloader.py:362 | The slug has no underscore or space, keeps the length, and has a dot iff the series name does. |
| `Downloader.DetectSeriesPattern` | ripraven/async_downloader.py:347-380 | A pattern is found only from an earlier existing chapter directory and only for a routable URL. |
| `Downloader.DetectNeverFires` | ripraven/async_downloader.py:363-371 | For a series without a dot the built `ravenscans.com` URL is unsupported, so detection always fails. |
| `Downloader.DetectSeriesPatternCorrected` | ripraven/async_downloader.py:347-371 | Detection with the URL on `ravenscans.org`: any answer is a non-empty base, and nothing is tried before an earlier chapter is on disk. |
| `Downloader.DetectCorrectedScrapesPage` | ripraven/async_downloader.py:347-371 | With that URL, once an earlier chapter is on disk, detection answers exactly the non-empty base scraped from the page. |
| `Downloader.BasePattern` | ripraven/async_downloader.py:311-316 | With no detected pattern the manga.pics fallback for the slug is used. |
| `Downloader.ResultsLast` | ripraven/async_downloader.py:327-339 | A chapter's result is that of its last request. |
| `Downloader.ResultsOnlyRequested` | ripraven/async_downloader.py:327-339 | Only requested chapters have results. |
| `Downloader.StepsFitSnoc` | ripraven/async_downloader.py:296-345 | Extending the per-chapter outcome record by one fitting step keeps it fitting. |
| `Downloader.ApplyOutcomesSnoc` | ripraven/async_downloader.py:325 | A skipped or failed chapter leaves the library; a run adds its files. |
| `Downloader.ResultsSnoc` | ripraven/async_downloader.py:327-339 | One more chapter sets its result in the result map. |
| `Downloader.DownloadChapter` | ripraven/async_downloader.py:296-343 | A chapter with its marker is skipped as a success; otherwise a chapter whose directory cannot be created raises and reports False, and any other is probed from the chapter's base and succeeds iff pages were saved. |
| `Downloader.RaisedReportsFalse` | ripraven/async_downloader.py:341-343 | A chapter that raises reports False and changes no directory. |
| `Downloader.DownloadChapters` | ripraven/async_downloader.py:283-345 | One outcome per requested chapter in order, each fitting the library as left by the previous ones, and the result map built from them. |
| `Downloader.DownloadNext` | ripraven/async_downloader.py:296-345 | One iteration of the chapter loop keeps the results, outcomes and library in step. |
| `Downloader.NextDone` | ripraven/async_downloader.py:296-345 | The chapter-loop state after one fitting outcome. |
| `Downloader.NextResults` | ripraven/async_downloader.py:327-339 | The result map over a prefix grows by one entry per chapter. |
| `Downloader.MarkerSeenWhenNamesAgree` | ripraven/async_downloader.py:299-305 | When the series name is already a folder name, a finished run's marker is seen by the next skip check. |
| `Downloader.MarkerMissedWhenNamesDiffer` | ripraven/async_downloader.py:299-305 | When the name has spaces or hyphens, the skip check looks in another directory and never sees the run's marker. |
| `Downloader.MarkerSeenUnderFolderName` | ripraven/async_downloader.py:299-305 | A skip check under the series' folder name sees the marker of every run that wrote one, whatever the name. |
| `Downloader.ExampleMisses` | ripraven/async_downloader.py:94-127 | With jpg pages at 0-4 and 6 only, exactly the other indices miss. |
| `Downloader.ExamplePages` | ripraven/async_downloader.py:92-134 | Probing 0..11 saves pages 0-4 and 6 as jpg. |
| `Downloader.ExampleSavedValue` | ripraven/async_downloader.py:92-134 | The reference page list for the example. |
| `Downloader.ExamplePagesUpTo` | ripraven/async_downloader.py:92-134 | Each prefix of the example run saves the reference pages. |
| `Downloader.ExampleStops` | ripraven/async_downloader.py:92-134 | The example run stops after probing index 11 with pages 0-4 and 6. |
| `Store.LastIndexOf` | ripraven/async_downloader.py:394 | The last occurrence of a character, none iff absent. |
| `Store.Suffix` | ripraven/async_downloader.py:394 | A file's suffix is empty or a dot plus a dot-free tail of the name, as `Path.suffix` computes it. |
| `Store.SuffixOf` | ripraven/async_downloader.py:394 | `stem.ext` has suffix `.ext`. |
| `Store.NoSuffix` | ripraven/async_downloader.py:394 | A name without a dot has no suffix. |
| `Store.ImageFileName` | ripraven/async_downloader.py:392-394 | A lower-case image extension makes a file an image. |
| `Store.MarkerIsNotImage` | ripraven/async_downloader.py:392-394 | The `completed` marker is never counted as an image. |
| `Store.ImageNames` | ripraven/async_downloader.py:392-396 | The image names are exactly the files with an image suffix. |
| `Store.ImageNamesSnoc` | ripraven/async_downloader.py:392-396 | Adding an entry adds its name iff it is an image. |
| `Store.AddFile` | ripraven/async_downloader.py:149-155 | Adding a file makes it present, keeps every entry, and is idempotent. |
| `Store.ChapterFolder` | ripraven/async_downloader.py:74 | A chapter folder is `chapter_` followed by the chapter. |
| `Store.GetChapterStatus` | ripraven/async_downloader.py:382-402 | A missing directory reports not existing, incomplete, zero pages; otherwise completeness is the marker and the count is the image files. |
| `Store.MarkerNotCounted` | ripraven/async_downloader.py:392-396 | Writing the marker does not change the page count. |
| `NaturalSort.Split` | ripraven/web_reader.py:29 | Splitting at digit runs alternates non-digit and digit parts and concatenates back to the input. |
| `NaturalSort.SplitUnique` | ripraven/web_reader.py:29 | An alternating part list is the split of its concatenation. |
| `NaturalSort.SplitRuns` | ripraven/web_reader.py:29 | A non-digit run, a digit run and a rest split into those two parts and the rest's split. |
| `NaturalSort.RunFrom` | ripraven/web_reader.py:29 | The length of the maximal run of digits or non-digits from a position. |
| `NaturalSort.AlternatingAt` | ripraven/web_reader.py:29 | An alternating list has odd length, non-digit parts at even and digit parts at odd positions. |
| `NaturalSort.Convert` | ripraven/web_reader.py:27-28 | A part becomes an integer iff it is a non-empty digit string, otherwise its lower-cased text. |
| `NaturalSort.NaturalSortKey` | ripraven/web_reader.py:22-29 | The key has odd length with words at even and integers at odd positions, one per split part. |
| `NaturalSort.KeysAlign` | ripraven/web_reader.py:22-29 | Two keys always hold the same kind of part at the same position, so they compare without mixing types. |
| `NaturalSort.KeyOfParts` | ripraven/web_reader.py:22-29 | The key of a concatenation of alternating parts is the parts converted. |
| `NaturalSort.NumbersCompareAsIntegers` | ripraven/web_reader.py:22-29 | With a common prefix, a smaller number sorts first whatever its digit count. |
| `NaturalSort.KeyOfNumbered` | ripraven/web_reader.py:22-29 | The key of `prefix<digits>` is the prefix, the number and an empty word. |
| `NaturalSort.NaturalOrderDiffers` | ripraven/web_reader.py:22-29 | `chapter_2` sorts before `chapter_10` naturally although after it as plain text. |
| `WebReader.ImageFiles` | ripraven/web_reader.py:478-489 | The listed files are exactly the image files, sorted as plain strings, each once per entry. |
| `WebReader.ImageUrl` | ripraven/web_reader.py:503 | An image URL is `image/<series>/<chapter>/<file>`. |
| `WebReader.ChapterImages` | ripraven/web_reader.py:491-506 | A missing chapter fails with `Chapter not found: <series>/<chapter>`; otherwise one URL per image file, in file order, ending in that file. |
| `WebReader.ImageUrls` | ripraven/web_reader.py:501-506 | One URL per file, in order. |
| `WebReader.ImageFilesCount` | ripraven/web_reader.py:478-489 | The image listing has as many files as the status query counts. |
| `WebReader.ImageNameNonEmpty` | ripraven/web_reader.py:484 | An image file name is never empty. |
| `WebReader.UrlFile` | ripraven/web_reader.py:503 | The file name can be read back from the end of its URL. |
| `WebReader.ImageUrlsDistinct` | ripraven/web_reader.py:491-506 | Distinct files get distinct URLs. |
| `WebReader.PageNameOrder` | ripraven/web_reader.py:488 | Below page 1000, page file names sort in page order. |
| `WebReader.FreshChapterInPageOrder` | ripraven/web_reader.py:478-489 | A freshly downloaded chapter of at most 1000 probed indices lists its pages in page order. |
| `WebReader.ThousandthPageOutOfOrder` | ripraven/web_reader.py:488 | `page_1000.jpg` sorts between `page_100.jpg` and `page_101.jpg`. |
| `WebReader.ThousandAfterHundred` | ripraven/web_reader.py:488 | `page_100.jpg` sorts before `page_1000.jpg`. |
| `WebReader.ThousandBeforeHundredOne` | ripraven/web_reader.py:488 | `page_1000.jpg` sorts before `page_101.jpg`. |
| `WebReader.Pad3Examples` | ripraven/async_downloader.py:102 | Indices 100, 101 and 1000 are rendered `100`, `101` and `1000`. |
| `WebReader.ChapterOutcome` | ripraven/web_reader.py:282-314 | A missing chapter is `not_available` and not included; a present one is included with its images and is `complete` or `incomplete` by marker. |
| `WebReader.StatusMap` | ripraven/web_reader.py:278-314 | The status map has one entry per window chapter, keyed `chapter_<n>`. |
| `WebReader.EmptyStatusMap` | ripraven/web_reader.py:278 | The empty map describes the empty window. |
| `WebReader.WindowStatusStep` | ripraven/web_reader.py:278-314 | Adding the next chapter's word extends the map by one key. |
| `WebReader.FolderKeyInjective` | ripraven/web_reader.py:287-314 | Distinct chapters have distinct status keys. |
| `WebReader.InfiniteChapters` | ripraven/web_reader.py:277-314 | The response covers chapters current and current+1, includes the present ones, sums their page counts, and gives each window chapter its status word. |
| `WebReader.OutcomeWord` | ripraven/web_reader.py:307-314 | A chapter's status word is decided by its directory and marker. |
| `WebReader.TotalPagesAreStatusCounts` | ripraven/web_reader.py:306 | The total is the sum of the two chapters' image counts. |
| `WebReader.WindowIsListed` | ripraven/web_reader.py:278-314 | The included chapters are those of current and current+1 that exist, in that order. |
| `WebReader.PresentPair` | ripraven/web_reader.py:278-314 | A two-chapter window is the two chapters' listings in order. |
| `WebReader.OutcomeListed` | ripraven/web_reader.py:290-314 | A chapter is included iff its directory exists. |
| `Recent.Valid` | ripraven/web_reader.py:518-522 | Malformed items are skipped and every well-formed one kept. |
| `Recent.Take` | ripraven/web_reader.py:534 | Slicing keeps the first n entries. |
| `Recent.NewestFirstSpec` | ripraven/web_reader.py:525 | Sorting by `last_read` descending is a permutation into newest-first order. |
| `Recent.LoadRecent` | ripraven/web_reader.py:508-536 | At most ten entries; a missing or unreadable file gives none. |
| `Recent.LoadSortedDistinct` | ripraven/web_reader.py:525-534 | Loaded entries are newest first with one per series. |
| `Recent.LoadFromFile` | ripraven/web_reader.py:517-534 | Every loaded entry comes from the file. |
| `Recent.LoadNewestPerSeries` | ripraven/web_reader.py:525-534 | Each loaded entry is the newest of its series in the file. |
| `Recent.LoadShortIsComplete` | ripraven/web_reader.py:527-534 | Fewer than ten loaded entries means every series in the file is represented. |
| `Recent.LoadRecentSpec` | ripraven/web_reader.py:508-536 | The load contract in one place: distinct series, newest first, from the file, newest per series, complete when short. |
| `Recent.Others` | ripraven/web_reader.py:544 | Removing a series keeps exactly the other series' entries. |
| `Recent.OthersDistinct` | ripraven/web_reader.py:544 | Removing a series keeps series distinct. |
| `Recent.AsItems` | ripraven/web_reader.py:556 | Storing writes each entry as a well-formed item. |
| `Recent.SaveRecent` | ripraven/web_reader.py:538-557 | A failed open leaves the file as it was; a dump failing after the truncating open leaves a file the next load reads as no recent chapters; a successful write stores at most ten items. |
| `Recent.FrontDistinct` | ripraven/web_reader.py:544-547 | The new entry in front of the other series keeps series distinct. |
| `Recent.CandidatesDistinct` | ripraven/web_reader.py:541-547 | Before sorting, the saved series appears once, at the front. |
| `Recent.SortedCandidates` | ripraven/web_reader.py:550 | Sorting the candidates is a newest-first permutation with distinct series. |
| `Recent.KeptCandidates` | ripraven/web_reader.py:550-551 | The ten kept entries are newest first, distinct by series and all candidates. |
| `Recent.HeadOwnsSeries` | ripraven/web_reader.py:544-547 | The only candidate of the saved series is the new entry. |
| `Recent.SavedListSpec` | ripraven/web_reader.py:538-551 | The stored list is newest first, one per series, the new entry is the only one of its series, and every other entry was loaded before. |
| `Recent.Position` | ripraven/web_reader.py:550 | After sorting, the new entry sits after every strictly newer entry and before the rest. |
| `Recent.RecentPosition` | ripraven/web_reader.py:550 | The same for a save. |
| `Recent.DroppedOnlyWhenFull` | ripraven/web_reader.py:550-551 | The new entry is dropped only when ten strictly newer entries fill the list. |
| `Recent.RecentDroppedOnlyWhenFull` | ripraven/web_reader.py:550-551 | The same for a save. |
| `Recent.RecentKeptWithNewer` | ripraven/web_reader.py:550-551 | If the new entry is kept, so is every strictly newer candidate. |
| `Recent.NewerIsKept` | ripraven/web_reader.py:550-551 | A candidate newer than a kept new entry is kept. |
| `Recent.RecentSurvivesIfAmongNewest` | ripraven/web_reader.py:550-551 | The new entry survives exactly when it ranks among the ten newest. |
| `Recent.ValidItems` | ripraven/web_reader.py:518-556 | Written entries read back unchanged. |
| `Recent.SaveThenLoad` | ripraven/web_reader.py:508-557 | Loading after a successful save returns exactly the stored list. |
| `Prefetch.StatusKey` | ripraven/web_reader.py:575 | A status key is the series, `_`, then the chapter number. |
| `Prefetch.StatusKeyInjective` | ripraven/web_reader.py:575 | Equal keys mean the same series and chapter, since a rendered chapter number holds no `_`. |
| `Prefetch.ScheduledKeys` | ripraven/web_reader.py:575-589 | The keys marked for the scheduled chapters, in order. |
| `Prefetch.ScheduledKeysSnoc` | ripraven/web_reader.py:575-589 | Scheduling one more chapter adds its key. |
| `Prefetch.MarkAhead` | ripraven/web_reader.py:573-589 | Chapters current+1..+3 are scheduled iff their key is absent, in order; afterwards all three keys are present, the scheduled ones as downloading, and every other key is unchanged. |
| `Prefetch.MarkOne` | ripraven/web_reader.py:574-589 | One iteration of the marking loop keeps its invariant. |
| `Prefetch.NotYetScheduled` | ripraven/web_reader.py:574-578 | The chapter being considered has not been marked by this trigger. |
| `Prefetch.MarkSkipped` | ripraven/web_reader.py:578-579 | A present key is skipped without change. |
| `Prefetch.MarkAdded` | ripraven/web_reader.py:581-589 | An absent key is scheduled and marked downloading. |
| `Prefetch.ScheduleAdded` | ripraven/web_reader.py:581 | Scheduling an absent chapter keeps the schedule exactly the absent chapters seen so far. |
| `Prefetch.RegistryAdded` | ripraven/web_reader.py:584-589 | Marking a chapter keeps the status map in step with the schedule. |
| `Prefetch.MarkStep` | ripraven/web_reader.py:584-589 | Marking one key sets it and leaves every other key as before. |
| `Prefetch.SettleUnreported` | ripraven/web_reader.py:597-612 | Keys of chapters with no result are unchanged. |
| `Prefetch.SettleReported` | ripraven/web_reader.py:597-612 | A reported chapter becomes `complete` at 100 on success and `not_available` at 0 on failure. |
| `Prefetch.FailErrors` | ripraven/web_reader.py:616-627 | On an exception every key current+1..+3 becomes `error` with the exception message, including skipped ones. |
| `Prefetch.FailOthers` | ripraven/web_reader.py:616-627 | The error path leaves all other keys unchanged. |
| `Prefetch.KeysDiffer` | ripraven/web_reader.py:575 | Distinct chapters of a series have distinct keys. |
| `Prefetch.Trigger` | ripraven/web_reader.py:560-627 | The trigger schedules exactly the absent look-ahead chapters; on an exception all three keys are errors; otherwise reported chapters are settled, unreported scheduled ones stay downloading and skipped ones keep their status; every other key, of this or any series, is left as it was. |
| `Prefetch.FailFrame` | ripraven/web_reader.py:615-624 | The error path rewrites only the three look-ahead keys; every other key keeps its status from before marking. |
| `Prefetch.SettleFrame` | ripraven/web_reader.py:573-611 | The normal path changes only the look-ahead keys and the keys of reported chapters. |
| `Prefetch.UnscheduledKey` | ripraven/web_reader.py:575-581 | An unscheduled chapter's key was not marked. |
| `Prefetch.Settled` | ripraven/web_reader.py:597-612 | The normal path's status map after settling, key by key. |
| `Prefetch.SettleUnreportedChapter` | ripraven/web_reader.py:597-612 | A chapter with no result keeps its status. |
| `Prefetch.SettleAny` | ripraven/web_reader.py:597-612 | A reported chapter's key is present after settling. |
| `Prefetch.SettleKeeps` | ripraven/web_reader.py:597-612 | Settling keeps every key. |
| `Prefetch.TriggerTwice` | ripraven/web_reader.py:573-589 | An immediate second trigger schedules nothing new, whatever the first download did. |
| `Prefetch.TriggerAsWritten` | ripraven/web_reader.py:592-627 | As written, the downloader call raises, so every look-ahead key ends as `error` and none is ever `complete`. |
| `Prefetch.Report` | ripraven/async_downloader.py:327-339 | A downloader result map has one entry per chapter, in order. |
| `Prefetch.ReportGet` | ripraven/async_downloader.py:327-339 | For increasing chapters the result map has unique keys and reports exactly the requested chapters. |
| `Prefetch.ReportGetAt` | ripraven/web_reader.py:597 | With unique keys, each entry is what a lookup returns. |
| `Prefetch.TriggerCorrected` | ripraven/web_reader.py:573-612 | Calling the downloader that exists, each scheduled chapter is settled by its own result and skipped chapters keep their status. |
| `Prefetch.Select` | ripraven/web_reader.py:357-359 | Filtering the status map keeps exactly the statuses whose entry passes. |
| `Prefetch.SelectAppend` | ripraven/web_reader.py:356-361 | The filter of a concatenated map is the filter of each part, in order: one status per kept entry, in map order. |
| `Prefetch.SelectOne` | ripraven/web_reader.py:357-359 | A single entry is listed iff it passes. |
| `Prefetch.StatusesFor` | ripraven/web_reader.py:352-361 | As written, the endpoint returns exactly the statuses whose key starts with `series_`. |
| `Prefetch.StatusesForAppend` | ripraven/web_reader.py:356-361 | The endpoint's list follows the map's insertion order. |
| `Prefetch.PrefixFilterLeaks` | ripraven/web_reader.py:357-359 | A status of series `series_other` is returned for `series`. |
| `Prefetch.StatusesOf` | ripraven/web_reader.py:352-361 | The corrected endpoint returns exactly the statuses whose key is this series' key for their chapter. |
| `Prefetch.StatusesOfAppend` | ripraven/web_reader.py:356-361 | The corrected endpoint's list follows the map's insertion order too. |
| `Prefetch.ExactFilterKeepsOwnSeries` | ripraven/web_reader.py:357-359 | The corrected filter keeps the series' own statuses and drops every other series'. |
| `Terminal.DropLeading` | ripraven/terminal_reader.py:172 | Stripping on the left removes exactly the leading whitespace. |
| `Terminal.DropTrailing` | ripraven/terminal_reader.py:172 | Stripping on the right removes exactly the trailing whitespace. |
| `Terminal.Strip` | ripraven/terminal_reader.py:172 | A stripped line neither starts nor ends with whitespace. |
| `Terminal.TakeWord` | ripraven/terminal_reader.py:282 | The first word is the longest whitespace-free prefix. |
| `Terminal.Parse` | ripraven/terminal_reader.py:262-293 | A line is a go-to command iff it is no navigation keyword and starts with `g `. |
| `Terminal.Apply` | ripraven/terminal_reader.py:261-300 | Every command keeps the page in range, only a chapter change replaces the images, and the reader exits iff the command is quit, series, or a chapter change that loads nothing. |
| `Terminal.NextThenPrev` | ripraven/terminal_reader.py:264-274 | Away from the last page, next then prev returns to the same page. |
| `Terminal.NextPrevAtEnds` | ripraven/terminal_reader.py:264-274 | Next on the last page and prev on the first stay put; otherwise they move by one. |
| `Terminal.GotoPage` | ripraven/terminal_reader.py:280-290 | `g n` moves to page n iff 1 <= n <= the page count, otherwise stays. |
| `Terminal.NormalizePlain` | ripraven/terminal_reader.py:172 | A trimmed lower-case line is unchanged by input normalisation. |
| `Terminal.NormalizeGoto` | ripraven/terminal_reader.py:172 | `g <n>` survives input normalisation. |
| `Terminal.ParseGoto` | ripraven/terminal_reader.py:280-282 | `g <n>` parses as a go-to of n. |
| `Terminal.NotAKeyword` | ripraven/terminal_reader.py:262-293 | A line starting with `g` is none of the one-word commands. |
| `Terminal.DigitsAreOneWord` | ripraven/terminal_reader.py:282 | A digit string is its own first word. |
| `Terminal.TakeWordAll` | ripraven/terminal_reader.py:282 | A digit string is taken whole as a word. |
| `Terminal.ReadChapter` | ripraven/terminal_reader.py:233-300 | With no images the reader leaves at once; otherwise the page stays in range through every command. |
| `Terminal.Select` | ripraven/terminal_reader.py:187-231 | A choice picks `list[k-1]` iff the list is non-empty, the line is neither quit nor back, and it parses to k with 1 <= k <= the list's length. |
| `Terminal.PickByNumber` | ripraven/terminal_reader.py:192-196 | Typing k picks entry k for every k in range. |
| `Terminal.NumberNotAWord` | ripraven/terminal_reader.py:217-220 | A line starting with a digit is neither quit nor back. |
| `Terminal.ShadeIndex` | ripraven/terminal_reader.py:137-146 | The shade index of a pixel in 0..255 is a valid position in the ten-character ramp. |
| `Terminal.ShadeMonotone` | ripraven/terminal_reader.py:145 | Brighter pixels never get a darker character; black is the first and white the last. |
| `Terminal.ShadeReachesAll` | ripraven/terminal_reader.py:145 | Every ramp character is used, each starting at a computed pixel value. |
| `Scraper.AnyContained` | ripraven/comic_scraper.py:230 | True iff one of the extensions occurs in the text. |
| `Scraper.IsValidImageUrl` | ripraven/comic_scraper.py:221-230 | False for empty and `data:` URLs; otherwise true iff the lower-cased URL contains `.jpg`, `.jpeg`, `.png`, `.gif` or `.webp`. |
| `Scraper.LowerConcat` | ripraven/comic_scraper.py:228 | Lower-casing distributes over concatenation. |
| `Scraper.ValidWhenNamedImage` | ripraven/comic_scraper.py:221-230 | A non-data URL ending in an image extension is valid. |
| `Scraper.DataUrlRefused` | ripraven/comic_scraper.py:223-224 | Every `data:` URL is refused. |
| `Scraper.OrElse` | ripraven/comic_scraper.py:210-211 | The fallback attribute is non-empty iff one of the two is. |
| `Scraper.CheckImageDimensions` | ripraven/comic_scraper.py:207-219 | An image is a page iff both sizes (explicit, else natural) are present and numeric with h > w, h > 300 and w > 200. |
| `Scraper.PageShape` | ripraven/comic_scraper.py:207-219 | For numeric attributes, explicit or natural, the test is exactly h > w, h > 300 and w > 200. |
| `Scraper.NoWidthNoPage` | ripraven/comic_scraper.py:213-219 | A missing width is never a page. |
| `Scraper.UniqueUrls` | ripraven/comic_scraper.py:186-192 | De-duplication keeps every URL once, no other URL, in order of first occurrence. |
| `Scraper.UniqueFacts` | ripraven/comic_scraper.py:186-192 | The de-duplicated list has no repeats, the same URLs, and first-occurrence order. |
| `Scraper.ExtensionPriority` | ripraven/comic_scraper.py:254-258 | `.png` wins whenever present; `.jpg` is chosen iff neither `.png` nor `.webp` occurs. |
| `Scraper.PageFileNamesInOrder` | ripraven/comic_scraper.py:260 | Below page 1000 the page file names sort in page order. |
| `Scraper.DownloadAllImages` | ripraven/comic_scraper.py:248-269 | The returned paths are those of exactly the fetched URLs, numbered from 1 in order, and below 1000 pages they sort in that order. |
| `Scraper.PagePathsInOrder` | ripraven/comic_scraper.py:260-264 | Below page 1000 page paths sort in page order. |
| `Scraper.DownloadOne` | ripraven/comic_scraper.py:252-264 | One iteration of the download loop keeps its invariant. |
| `Scraper.SavedStep` | ripraven/comic_scraper.py:262-264 | A fetched URL appends its path and page number. |
| `Scraper.SavedFetched` | ripraven/comic_scraper.py:262-264 | Recorded pages are fetched ones. |
| `Scraper.SavedPaths` | ripraven/comic_scraper.py:260-264 | Recorded paths match their page numbers. |
| `Scraper.SavedIncreasing` | ripraven/comic_scraper.py:252-264 | Page numbers are recorded in increasing order. |
| `Scraper.SavedRecorded` | ripraven/comic_scraper.py:262-264 | Every fetched page so far is recorded. |
| `Scraper.SkippedStep` | ripraven/comic_scraper.py:262-264 | A failed fetch records nothing. |
| `Scraper.ExtractChapterInfo` | ripraven/comic_scraper.py:49-68 | A `-chapter-N` match gives the title-cased series, chapter N and the combined title; otherwise `Unknown Series`, chapter `1`. |
| `Scraper.ChapterIsInteger` | ripraven/comic_scraper.py:53-57 | The chapter is always an integer, the matched digits when there is a match. |
| `Scraper.Loaded` | ripraven/comic_scraper.py:283-291 | The loaded images are exactly those that opened. |
| `Scraper.MaxWidth` | ripraven/comic_scraper.py:288 | The canvas width is the widest image's width. |
| `Scraper.CombineLayout` | ripraven/comic_scraper.py:271-305 | Empty input and no loadable image raise; otherwise the canvas is max width by total height, each x offset lies in [0, width-w] and each y offset is the sum of the heights above. |
| `Scraper.MeasurePages` | ripraven/comic_scraper.py:279-291 | The first loop loads the openable images and computes total height and maximum width. |
| `Scraper.PlacePages` | ripraven/comic_scraper.py:300-305 | The second loop centres each image horizontally and stacks it below the previous ones. |
| `Scraper.PlacedSnoc` | ripraven/comic_scraper.py:303-305 | Placing one more image keeps the placement invariant. |
| `Scraper.LoadedSnoc` | ripraven/comic_scraper.py:283-291 | One more path adds its image iff it opens. |
| `Scraper.HeightBeforeSnoc` | ripraven/comic_scraper.py:287 | Adding an image adds its height to the total and leaves earlier offsets alone. |
| `Scraper.HeightBeforePrefix` | ripraven/comic_scraper.py:305 | Offsets of earlier images ignore later ones. |
| `Scraper.HeightBeforeGrows` | ripraven/comic_scraper.py:305 | Offsets never decrease down the page. |
| `Scraper.MaxWidthSnoc` | ripraven/comic_scraper.py:288 | Adding an image takes the larger of the old maximum and its width. |
| `Seqs.DedupBy` | ripraven/web_reader.py:527-532 | De-duplication by key keeps distinct keys and exactly the keys of the input. |
| `Seqs.DedupByFirst` | ripraven/pattern_finder.py:293-302 | Each kept element is the first with its key, in first-occurrence order. |
| `Seqs.SortByPermutation` | ripraven/pattern_finder.py:315 | Sorting is a permutation. |
| `Seqs.SortBySorted` | ripraven/pattern_finder.py:315 | For a total preorder the output is sorted. |
| `Seqs.SortByStable` | ripraven/pattern_finder.py:315 | Elements with equal keys keep their relative order, as Python's sort does. |
| `Seqs.SortedDedup` | ripraven/pattern_finder.py:293-315 | De-duplicating then sorting gives distinct, sorted keys, the same key set, and each key's first element. |
| `Dicts.Get` | ripraven/web_reader.py:578 | A lookup misses iff no entry has the key. |
| `Dicts.PutGet` | ripraven/web_reader.py:584-589 | After an assignment the key reads the new value, other keys read as before, and the size grows iff the key was new. |
| `Dicts.PutPosition` | ripraven/web_reader.py:584-589 | A new key goes at the end; an existing key keeps its position. |
| `Text.IndexOf` | ripraven/pattern_finder.py:308-315 | The first occurrence of a character, none iff absent. |
| `Text.NatStr` | ripraven/async_downloader.py:102 | Decimal rendering of a natural number, without leading zeros. |
| `Text.ParseIntStr` | ripraven/terminal_reader.py:193 | Parsing a rendered integer gives it back. |
| `Text.Pad3` | ripraven/async_downloader.py:102 | Three-digit zero padding keeps the value, is exactly three digits below 1000 and plain decimal above. |
| `Text.Pad3Order` | ripraven/async_downloader.py:102 | Below 1000, padded numbers sort as strings in numeric order. |
| `Text.StrLeTotal` | ripraven/web_reader.py:488 | Python string order is total. |

## Left out

- HTTP, file-system and browser I/O: requests and aiohttp calls, the fetch
  semaphore, Selenium scrolling, PIL decoding, resizing and saving, the
  tkinter reader and time delays become oracles or parameters or are
  omitted; the concurrency of `download_specific_range` and the asyncio
  scheduling are not modelled.
- Regular expressions: every match arrives pre-parsed (`Document`,
  `ScrapeMatch`, `ChapterRefMatch`, `LinkMatch`, `UrlParse`).
- Python `.title()` and URL parsing: passed in as functions or parsed
  values.
- Python `int()` is modelled for an optional sign and ASCII digits only;
  underscores and surrounding whitespace are not; lower-casing is ASCII.
- FastAPI routing, static files, templates and HTML: only the status,
  listing and recent-chapter logic behind them is modelled.
- `scan_series`, `download_specific_range`, `download_chapter_range`, the
  downloader's interactive run loop and the web reader's series listing are
  not part of this model; the terminal reader's chapter menu is given to
  `Terminal.Apply` as its result.
- `Downloader.DownloadChapters`: the exception that turns a chapter into
  False is modelled as a failed `mkdir` of the chapter directory, the one
  call in the loop body that can raise (detection, requests and the marker
  write catch their own errors); parent directories `mkdir` may have
  created before failing are not represented, as the library holds chapter
  directories only.
- `Downloader.FindAllImages`: a marker write that fails is caught and
  logged; the model assumes it succeeds whenever pages were saved.
- Timestamps are opaque strings compared as Python compares strings.
- `ChapterCache.GetNextChapters` and `ChapterCache.NeedsRefresh` take their
  `count` and `lookahead` as non-negative counts (`nat`); Python's
  behaviour for a negative slice bound is not modelled.
- `Downloader.DownloadImage`: a 200 whose body fails part-way (a write
  error, a payload error, a timeout while reading) has already opened, and
  may have partly written, `page_NNN.<ext>`; the model treats it as
  leaving no file.
- `Downloader.RunFiles`: lists only the files of saved pages and the
  marker, so the partial file a failed 200 body leaves behind, possibly
  next to the file of the extension tried after it, is not among them.
- `Downloader.FreshListing`: because of that, a real directory can hold
  two files for one page index, or one partial file, where the model lists
  exactly the saved pages.
- `Downloader.FreshRunStatus`: for the same reason the page count the
  status query reports can exceed the saved pages; the model promises it
  equals them.
- `NaturalSort.Split`: splits at ASCII digit runs `0`-`9` only; Python's
  `\d` also matches other Unicode digits such as `٣`.
- `NaturalSort.Convert`: turns only ASCII digit strings into integers;
  Python's `isdigit()` also accepts other Unicode digits such as `٣`, which
  `int()` reads as 3, and characters such as `²`, on which `int()` raises;
  neither case is modelled.
- `NaturalSort.NaturalSortKey`: inherits both restrictions, so names with
  non-ASCII digits are not modelled.
- `Terminal.Strip`: strips the ASCII whitespace Python recognises (space,
  `\t`, `\n`, `\v`, `\f`, `\r` and `\x1c`-`\x1f`) only; Python's `strip()`
  also removes non-ASCII whitespace such as `\x85` or a no-break space.
- `Terminal.DropLeading`: the same whitespace set as `Terminal.Strip`, so
  leading non-ASCII whitespace is kept.
- `Terminal.DropTrailing`: the same whitespace set as `Terminal.Strip`, so
  trailing non-ASCII whitespace is kept.
- `Terminal.TakeWord`: ends a word only at the ASCII whitespace above;
  Python's `split()` also splits at non-ASCII whitespace.
- `Terminal.ReadChapter`: states only that the page stays in range and the
  empty-chapter exit, not the per-command effect, which `Terminal.Apply`
  states.
- `Downloader.DetectSeriesPattern`: the web page fetched for the built URL is
  a parameter; its contract says when detection can succeed, not which
  pattern it finds.
- The chapter sort key parses its parts with Python `float()`; the model
  uses exact integers, so precision loss on huge chapter numbers is not
  modelled.
- The infinite-chapters endpoint's `error` status (an exception while
  reading a chapter) is not modelled, as the modelled listing cannot fail
  for an existing directory.

## Findings

| source | as written | input that shows it | evidently intended | confidence | as-written member | corrected member |
|---|---|---|---|---|---|---|
| ripraven/web_reader.py:592-594 | The background trigger calls `auto_download_next_chapters`, which the downloader does not define, so every call raises and all three look-ahead keys become `error` | any trigger at all, even current chapter 5 with keys 6, 7 and 8 already `complete`: nothing is scheduled, the call still raises and all three become `error` | call `download_chapters` and settle each chapter by its result | high, not executed | `Prefetch.TriggerAsWritten` | `Prefetch.TriggerCorrected` |
| ripraven/web_reader.py:357-359 | The status endpoint keeps every key starting with `series_`, so series `a` also receives the statuses of series `a_b` | series `a` with status key `a_b_3` in the map | keep only keys `series_<chapter>` of this series | high, not executed | `Prefetch.PrefixFilterLeaks` | `Prefetch.ExactFilterKeepsOwnSeries` |
| ripraven/async_downloader.py:363-367 | Pattern detection builds its page URL on `ravenscans.com`, which `find_pattern` routes nowhere, so detection never yields a pattern and every chapter falls back to the manga.pics guess | series `solo` with chapter 1 on disk, asking for chapter 2: the URL `https://ravenscans.com/solo-chapter-2/` is Unsupported | build the URL on `ravenscans.org`, the host the page scraper accepts | medium, not executed | `Downloader.DetectNeverFires` | `Downloader.DetectCorrectedScrapesPage` |
| ripraven/async_downloader.py:299-302 | The skip check looks for the marker under the series name as given, while a run writes under the folder name with spaces and hyphens turned into `_` | series `Solo Leveling`: the run writes `Solo_Leveling/chapter_3/completed`, the check looks in `Solo Leveling/chapter_3` and downloads again | look under the folder name | medium, not executed | `Downloader.MarkerMissedWhenNamesDiffer` | `Downloader.MarkerSeenUnderFolderName` |

=== FILE: chapter_cache.dfy ===
/**
  The chapter-list cache: scraped chapter lists keyed by a normalised
  series name, with the series page URL kept alongside. The JSON file the
  cache is persisted to is not modelled; the cache is the in-memory map.
*/
module ChapterCache {
  import opened Wrappers
  import opened Text
  import opened Seqs
  import opened PatternFinder

  datatype CacheEntry = CacheEntry(chapters: seq<ChapterRef>, seriesUrl: Option<string>, lastUpdated: string)

  type Cache = map<string, CacheEntry>

  /** `_normalize_series_key`: lower-case, then spaces and hyphens become underscores. */
  function NormalizeKey(name: string): (r: string)
    ensures |r| == |name|
    ensures ' ' !in r && '-' !in r
    ensures forall i :: 0 <= i < |r| ==> !IsUpper(r[i])
    ensures forall i :: 0 <= i < |r| ==>
              r[i] == (if name[i] == ' ' || name[i] == '-' then '_' else LowerChar(name[i]))
  {
    ReplaceChar(ReplaceChar(Lower(name), ' ', '_'), '-', '_')
  }

  lemma NormalizeKeyIdempotent(name: string)
    ensures NormalizeKey(NormalizeKey(name)) == NormalizeKey(name)
  {
  }

  /** Names that differ only in case, or in space versus hyphen versus underscore, share an entry. */
  lemma NormalizeKeyMerges()
    ensures NormalizeKey("Solo Leveling") == NormalizeKey("solo-leveling") == "solo_leveling"
  {
  }

  /** `get_chapters`: the cached list, or nothing when the series has no entry. */
  function GetChapters(cache: Cache, name: string): (r: Option<seq<ChapterRef>>)
    ensures r.Some? <==> NormalizeKey(name) in cache
    ensures r.Some? ==> r.value == cache[NormalizeKey(name)].chapters
  {
    var key := NormalizeKey(name);
    if key in cache then Some(cache[key].chapters) else None
  }

  /** `get_series_url`. */
  function GetSeriesUrl(cache: Cache, name: string): (r: Option<string>)
    ensures NormalizeKey(name) !in cache ==> r.None?
    ensures NormalizeKey(name) in cache ==> r == cache[NormalizeKey(name)].seriesUrl
  {
    var key := NormalizeKey(name);
    if key in cache then cache[key].seriesUrl else None
  }

  /** `set_chapters`: replace the whole entry of the series; `now` is the timestamp. */
  function SetChapters(cache: Cache, name: string, chapters: seq<ChapterRef>, url: Option<string>, now: string): (r: Cache)
    ensures forall t :: NormalizeKey(t) == NormalizeKey(name) ==>
              GetChapters(r, t) == Some(chapters) && GetSeriesUrl(r, t) == url
    ensures r.Keys == cache.Keys + {NormalizeKey(name)}
    ensures forall k :: k in cache && k != NormalizeKey(name) ==> r[k] == cache[k]
  {
    cache[NormalizeKey(name) := CacheEntry(chapters, url, now)]
  }

  /** Every other series reads back exactly what it read before. */
  lemma SetChaptersOthers(cache: Cache, name: string, chapters: seq<ChapterRef>, url: Option<string>, now: string, t: string)
    requires NormalizeKey(t) != NormalizeKey(name)
    ensures GetChapters(SetChapters(cache, name, chapters, url, now), t) == GetChapters(cache, t)
    ensures GetSeriesUrl(SetChapters(cache, name, chapters, url, now), t) == GetSeriesUrl(cache, t)
  {
  }

  /** Python truthiness of an optional string: absent and empty are both false. */
  predicate Truthy(s: Option<string>)
  {
    s.Some? && s.value != ""
  }

  /**
    `refresh_chapters`: the given URL if non-empty, else the cached one;
    with neither, nothing happens. A scrape that finds chapters replaces the
    entry; an empty scrape leaves the cache as it was. `fetch` is the series
    page request, `None` when it fails.
  */
  function RefreshChapters(cache: Cache, name: string, seriesUrl: Option<string>,
                           fetch: string -> Option<seq<LinkMatch>>, now: string): (r: (Cache, seq<ChapterRef>))
    ensures var url := if Truthy(seriesUrl) then seriesUrl else GetSeriesUrl(cache, name);
            && (!Truthy(url) ==> r == (cache, []))
            && (Truthy(url) ==> r.1 == ScrapeChapterList(fetch(url.value)))
            && (Truthy(url) && |r.1| > 0 ==>
                  GetChapters(r.0, name) == Some(r.1) && GetSeriesUrl(r.0, name) == url)
    ensures |r.1| == 0 ==> r.0 == cache
    ensures forall t :: NormalizeKey(t) != NormalizeKey(name) ==> GetChapters(r.0, t) == GetChapters(cache, t)
  {
    var url := if Truthy(seriesUrl) then seriesUrl else GetSeriesUrl(cache, name);
    if !Truthy(url) then (cache, [])
    else
      var chapters := ScrapeChapterList(fetch(url.value));
      if |chapters| > 0 then (SetChapters(cache, name, chapters, url, now), chapters)
      else (cache, chapters)
  }

  /** The chapter numbers of a list, in order. */
  function Numbers(chapters: seq<ChapterRef>): (r: seq<string>)
    ensures |r| == |chapters| && forall i :: 0 <= i < |r| ==> r[i] == chapters[i].number
  {
    seq(|chapters|, i requires 0 <= i < |chapters| => chapters[i].number)
  }

  /** Python's `chapter_numbers.index(current)`, or nothing for a ValueError. */
  function IndexOfNumber(chapters: seq<ChapterRef>, current: string): (r: Option<nat>)
    ensures r.None? <==> current !in Numbers(chapters)
    ensures r.Some? ==>
              && r.value < |chapters| && chapters[r.value].number == current
              && current !in Numbers(chapters)[..r.value]
  {
    if HasKey(chapters, RefNumber, current) then
      var i := FirstIndex(chapters, RefNumber, current);
      assert Numbers(chapters)[i] == current;
      Some(i)
    else
      assert current !in Numbers(chapters) by {
        forall i | 0 <= i < |chapters| ensures Numbers(chapters)[i] != current {
          assert RefNumber(chapters[i]) != current;
        }
      }
      None
  }

  /**
    `get_next_chapters`: up to `count` chapter numbers right after the first
    occurrence of `current`; empty when nothing (or an empty list) is
    cached or `current` is not in the list.
  */
  function GetNextChapters(cache: Cache, name: string, current: string, count: nat): (r: seq<string>)
    ensures |r| <= count
    ensures GetChapters(cache, name).None? ==> r == []
    ensures GetChapters(cache, name).Some? ==>
              var ns := Numbers(GetChapters(cache, name).value);
              if current !in ns then r == []
              else
                var i := IndexOfNumber(GetChapters(cache, name).value, current).value;
                && |r| == Min(count, |ns| - i - 1)
                && (forall j :: 0 <= j < |r| ==> r[j] == ns[i + 1 + j])
  {
    match GetChapters(cache, name)
    case None => []
    case Some(chapters) =>
      if |chapters| == 0 then []
      else
        match IndexOfNumber(chapters, current)
        case None => []
        case Some(i) =>
          var ns := Numbers(chapters);
          ns[i + 1..Min(i + 1 + count, |ns|)]
  }

  function Min(a: int, b: int): int { if a <= b then a else b }

  /** `get_chapter_url`: the URL of the first chapter with that number. */
  function GetChapterUrl(cache: Cache, name: string, number: string): (r: Option<string>)
    ensures GetChapters(cache, name).None? ==> r.None?
    ensures GetChapters(cache, name).Some? ==>
              var cs := GetChapters(cache, name).value;
              && (r.Some? <==> number in Numbers(cs))
              && (r.Some? ==> exists i :: 0 <= i < |cs| && cs[i].number == number && cs[i].url == r.value
                                          && number !in Numbers(cs)[..i])
  {
    match GetChapters(cache, name)
    case None => None
    case Some(chapters) =>
      match IndexOfNumber(chapters, number)
      case None => None
      case Some(i) => Some(chapters[i].url)
  }

  /**
    `needs_refresh`: yes when nothing useful is cached or `current` is not
    listed, otherwise when fewer than `lookahead` chapters follow it.
  */
  function NeedsRefresh(cache: Cache, name: string, current: string, lookahead: nat): (r: bool)
    ensures GetChapters(cache, name).None? ==> r
    ensures GetChapters(cache, name).Some? && current !in Numbers(GetChapters(cache, name).value) ==> r
    ensures GetChapters(cache, name).Some? && current in Numbers(GetChapters(cache, name).value) ==>
              var cs := GetChapters(cache, name).value;
              r == (|cs| - IndexOfNumber(cs, current).value - 1 < lookahead)
  {
    match GetChapters(cache, name)
    case None => true
    case Some(chapters) =>
      if |chapters| == 0 then true
      else
        match IndexOfNumber(chapters, current)
        case None => true
        case Some(i) => |chapters| - i - 1 < lookahead
  }

  /** When no refresh is needed, a full look-ahead window of next chapters is available. */
  lemma NoRefreshFullWindow(cache: Cache, name: string, current: string, lookahead: nat)
    requires !NeedsRefresh(cache, name, current, lookahead)
    ensures |GetNextChapters(cache, name, current, lookahead)| == lookahead
  {
  }

  /** And conversely: a refresh is needed exactly when the window comes up short (for a listed chapter). */
  lemma RefreshWhenShort(cache: Cache, name: string, current: string, lookahead: nat)
    requires GetChapters(cache, name).Some? && current in Numbers(GetChapters(cache, name).value)
    ensures NeedsRefresh(cache, name, current, lookahead)
        <==> |GetNextChapters(cache, name, current, lookahead)| < lookahead
  {
  }

  const ExampleList := [ChapterRef("1", "a"), ChapterRef("1.1", "b"), ChapterRef("1.2", "c"), ChapterRef("2", "d")]

  lemma NextExample(cache: Cache)
    requires cache == map["solo_leveling" := CacheEntry(ExampleList, None, "t")]
    ensures GetNextChapters(cache, "Solo Leveling", "1.1", 2) == ["1.2", "2"]
    ensures !NeedsRefresh(cache, "Solo Leveling", "1.1", 2)
    ensures NeedsRefresh(cache, "Solo Leveling", "1.1", 3)
  {
    NormalizeKeyMerges();
    assert Numbers(ExampleList) == ["1", "1.1", "1.2", "2"];
    assert Numbers(ExampleList)[1] == "1.1";
    assert IndexOfNumber(ExampleList, "1.1") == Some(1);
  }
}

=== FILE: dicts.dfy ===
/**
  Python dicts as insertion-ordered sequences of key/value pairs: assigning
  an existing key overwrites its value in place, a new key goes to the end.
*/
module Dicts {
  import opened Wrappers

  type Dict<K, V> = seq<(K, V)>

  /** `d[k]`, or nothing when the key is absent. */
  function Get<K(==), V>(d: Dict<K, V>, k: K): (r: Option<V>)
    ensures r.None? <==> forall i :: 0 <= i < |d| ==> d[i].0 != k
    decreases |d|
  {
    if |d| == 0 then None
    else if d[0].0 == k then Some(d[0].1)
    else Get(d[1..], k)
  }

  predicate HasKey<K(==), V>(d: Dict<K, V>, k: K)
  {
    Get(d, k).Some?
  }

  /** No key occurs twice, as in every real dict. */
  predicate UniqueKeys<K(==), V>(d: Dict<K, V>)
  {
    forall i, j :: 0 <= i < j < |d| ==> d[i].0 != d[j].0
  }

  /** `d[k] = v`. */
  function Put<K(==), V>(d: Dict<K, V>, k: K, v: V): (r: Dict<K, V>)
    ensures |d| <= |r| <= |d| + 1
    decreases |d|
  {
    if |d| == 0 then [(k, v)]
    else if d[0].0 == k then [(k, v)] + d[1..]
    else [d[0]] + Put(d[1..], k, v)
  }

  /** Assigning a key sets it and leaves every other key alone; it grows the dict only for a new key. */
  lemma {:induction false} PutGet<K, V>(d: Dict<K, V>, k: K, v: V, j: K)
    ensures Get(Put(d, k, v), k) == Some(v)
    ensures j != k ==> Get(Put(d, k, v), j) == Get(d, j)
    ensures |Put(d, k, v)| == |d| + (if Get(d, k).None? then 1 else 0)
    decreases |d|
  {
    if |d| > 0 && d[0].0 != k {
      PutGet(d[1..], k, v, j);
      assert Put(d, k, v)[1..] == Put(d[1..], k, v);
    }
  }

  /** Position `i` holds the first occurrence of key `k`. */
  predicate FirstAt<K(==), V>(d: Dict<K, V>, k: K, i: int)
  {
    0 <= i < |d| && d[i].0 == k && forall j :: 0 <= j < i ==> d[j].0 != k
  }

  /** An existing key keeps its position; a new one is appended. */
  lemma {:induction false} PutPosition<K, V>(d: Dict<K, V>, k: K, v: V)
    ensures Get(d, k).None? ==> Put(d, k, v) == d + [(k, v)]
    ensures forall i :: FirstAt(d, k, i) ==> |Put(d, k, v)| == |d| && Put(d, k, v)[i] == (k, v)
    decreases |d|
  {
    if |d| > 0 && d[0].0 != k {
      PutPosition(d[1..], k, v);
      forall i | FirstAt(d, k, i) ensures |Put(d, k, v)| == |d| && Put(d, k, v)[i] == (k, v) {
        assert FirstAt(d[1..], k, i - 1);
      }
    }
  }

  /** The keys, in insertion order. */
  function Keys<K, V>(d: Dict<K, V>): (r: seq<K>)
    ensures |r| == |d| && forall i :: 0 <= i < |d| ==> r[i] == d[i].0
  {
    seq(|d|, i requires 0 <= i < |d| => d[i].0)
  }
}

=== FILE: downloader.dfy ===
/**
  The probe-until-exhausted chapter downloader.

  A page image is `<base><index>.<ext>`. Fetching it is an oracle from URL to
  `Response`; whether a fetch counts as a saved page is decided by
  `DownloadImage`. The probe walks indices upwards from the start, tries the
  four extensions in a fixed order for each, and stops after five indices in
  a row without any image or once it has passed start + 1000.
*/
module Downloader {
  import opened Wrappers
  import opened Text
  import opened Store
  import opened PatternFinder
  import Dicts
  import Seqs

  // ---------------------------------------------------------------------------
  // One request

  /** What one GET can end in: a status (and, for a 200, whether writing the file failed), a timeout, or another error. */
  datatype Response = Status(code: int, writeError: Option<string>) | Timeout | Failure(message: string)

  /**
    The answers that report success: a 200 whose body was written in full.
    A 200 whose body fails part-way reports failure; the partial file it
    may leave behind is not modelled.
  */
  predicate Saves(resp: Response)
  {
    resp.Status? && resp.code == 200 && resp.writeError.None?
  }

  /** `download_image`: success and the error message. */
  function DownloadImage(resp: Response): (r: (bool, string))
    ensures r.0 <==> Saves(resp)
    ensures r.0 ==> r.1 == ""
    ensures resp.Status? && resp.code == 404 ==> r == (false, "404 Not Found")
    ensures resp.Status? && resp.code != 404 && resp.code != 200 ==> r == (false, "HTTP " + IntStr(resp.code))
    ensures resp.Timeout? ==> r == (false, "Timeout")
    ensures resp.Failure? ==> r == (false, resp.message)
  {
    match resp
    case Status(code, writeError) =>
      if code == 404 then (false, "404 Not Found")
      else if code != 200 then (false, "HTTP " + IntStr(code))
      else if writeError.Some? then (false, writeError.value)
      else (true, "")
    case Timeout => (false, "Timeout")
    case Failure(m) => (false, m)
  }

  /** Only a 200 with the file written counts: 404, every other status and a timeout do not. */
  lemma DownloadImageFailures(code: int, e: string)
    ensures code != 200 ==> !DownloadImage(Status(code, None)).0
    ensures !DownloadImage(Status(200, Some(e))).0
    ensures !DownloadImage(Timeout).0 && DownloadImage(Status(200, None)).0
  {
  }

  // ---------------------------------------------------------------------------
  // The probe

  /** The extensions tried for every index, in order. */
  const Extensions: seq<string> := ["jpg", "png", "jpeg", "webp"]

  /** The chapter being probed: its base pattern and the server. */
  datatype Source = Source(base: string, respond: string -> Response)

  function PageUrl(base: string, i: nat, ext: string): string
  {
    base + NatStr(i) + "." + ext
  }

  /** Extension number `e` of index `i` is saved. */
  predicate Hit(src: Source, i: nat, e: nat)
  {
    e < 4 && Saves(src.respond(PageUrl(src.base, i, Extensions[e])))
  }

  function FirstExtFrom(src: Source, i: nat, e: nat): (r: nat)
    requires e <= 4
    ensures e <= r <= 4
    ensures r < 4 ==> Hit(src, i, r)
    ensures forall k :: e <= k < r ==> !Hit(src, i, k)
    decreases 4 - e
  {
    if e == 4 then 4 else if Hit(src, i, e) then e else FirstExtFrom(src, i, e + 1)
  }

  /** The extension saved for index `i` (its position in `Extensions`), or 4 when none is. */
  function FirstExt(src: Source, i: nat): (r: nat)
    ensures r <= 4
    ensures r < 4 ==> Hit(src, i, r)
    ensures forall k :: 0 <= k < r ==> !Hit(src, i, k)
  {
    FirstExtFrom(src, i, 0)
  }

  predicate Missed(src: Source, i: nat) { FirstExt(src, i) == 4 }

  /** Requests sent for index `i`: up to and including the first success, else all four. */
  function Cost(src: Source, i: nat): (r: nat)
    ensures 1 <= r <= 4
  {
    if Missed(src, i) then 4 else FirstExt(src, i) + 1
  }

  /** A page saved by the probe: its index and extension. */
  datatype Page = Page(index: nat, ext: string)

  /** The pages saved while probing the indices `start .. i - 1`, in probe order. */
  function SavedPages(src: Source, start: nat, i: nat): (r: seq<Page>)
    requires start <= i
    ensures |r| <= i - start
    decreases i - start
  {
    if i == start then []
    else
      var p := SavedPages(src, start, i - 1);
      if Missed(src, i - 1) then p else p + [Page(i - 1, Extensions[FirstExt(src, i - 1)])]
  }

  /**
    The saved pages lie in the probed range, in increasing index order, and
    each is an index with an image, saved under its first answering extension.
  */
  lemma SavedPagesShape(src: Source, start: nat, i: nat)
    requires start <= i
    ensures forall k :: 0 <= k < |SavedPages(src, start, i)| ==> start <= SavedPages(src, start, i)[k].index < i
    ensures forall k, m :: 0 <= k < m < |SavedPages(src, start, i)| ==>
              SavedPages(src, start, i)[k].index < SavedPages(src, start, i)[m].index
    ensures forall k :: 0 <= k < |SavedPages(src, start, i)| ==>
              var p := SavedPages(src, start, i)[k];
              !Missed(src, p.index) && p.ext == Extensions[FirstExt(src, p.index)]
  {
    SavedPagesFit(src, start, i);
    SavedPagesIncreasing(src, start, i);
  }

  lemma {:induction false} SavedPagesFit(src: Source, start: nat, i: nat)
    requires start <= i
    ensures forall k :: 0 <= k < |SavedPages(src, start, i)| ==>
              var p := SavedPages(src, start, i)[k];
              start <= p.index < i && !Missed(src, p.index) && p.ext == Extensions[FirstExt(src, p.index)]
    decreases i - start
  {
    if i > start {
      SavedPagesFit(src, start, i - 1);
      var p, r := SavedPages(src, start, i - 1), SavedPages(src, start, i);
      if !Missed(src, i - 1) {
        assert r == p + [Page(i - 1, Extensions[FirstExt(src, i - 1)])];
        forall k | 0 <= k < |r| ensures start <= r[k].index < i
          && !Missed(src, r[k].index) && r[k].ext == Extensions[FirstExt(src, r[k].index)]
        {
          if k < |p| {
            assert r[k] == p[k];
          }
        }
      }
    }
  }

  lemma {:induction false} SavedPagesIncreasing(src: Source, start: nat, i: nat)
    requires start <= i
    ensures forall k, m :: 0 <= k < m < |SavedPages(src, start, i)| ==>
              SavedPages(src, start, i)[k].index < SavedPages(src, start, i)[m].index
    decreases i - start
  {
    if i > start {
      SavedPagesIncreasing(src, start, i - 1);
      SavedPagesFit(src, start, i - 1);
      var p, r := SavedPages(src, start, i - 1), SavedPages(src, start, i);
      if !Missed(src, i - 1) {
        assert r == p + [Page(i - 1, Extensions[FirstExt(src, i - 1)])];
        forall k, m | 0 <= k < m < |r| ensures r[k].index < r[m].index {
          assert r[k] == p[k];
          if m < |p| {
            assert r[m] == p[m];
          }
        }
      }
    }
  }

  /** Conversely, every probed index that has an image is among the saved pages. */
  lemma {:induction false} SavedPagesComplete(src: Source, start: nat, i: nat, j: nat)
    requires start <= j < i && !Missed(src, j)
    ensures Page(j, Extensions[FirstExt(src, j)]) in SavedPages(src, start, i)
    decreases i - start
  {
    if j < i - 1 {
      SavedPagesComplete(src, start, i - 1, j);
    }
  }

  /** How many indices in a row, ending just before `i`, had no image (counting from `start`). */
  function TrailingMisses(src: Source, start: nat, i: nat): (r: nat)
    requires start <= i
    ensures r <= i - start
    decreases i - start
  {
    if i == start then 0
    else if Missed(src, i - 1) then TrailingMisses(src, start, i - 1) + 1
    else 0
  }

  predicate AllMissed(src: Source, lo: nat, hi: nat)
  {
    forall j :: lo <= j < hi ==> Missed(src, j)
  }

  /** The miss counter reaches five exactly when the last five indices all missed. */
  lemma {:induction false} TrailingMissesFive(src: Source, start: nat, i: nat)
    requires start <= i
    ensures TrailingMisses(src, start, i) >= 5 <==> start + 5 <= i && AllMissed(src, i - 5, i)
    decreases i - start
  {
    if i > start {
      TrailingMissesFive(src, start, i - 1);
      if Missed(src, i - 1) && start + 5 <= i {
        TrailingMissesAtLeast(src, start, i, 5);
      }
    }
  }

  lemma {:induction false} TrailingMissesAtLeast(src: Source, start: nat, i: nat, n: nat)
    requires start + n <= i
    ensures TrailingMisses(src, start, i) >= n <==> AllMissed(src, i - n, i)
    decreases n
  {
    if n > 0 {
      TrailingMissesAtLeast(src, start, i - 1, n - 1);
      if Missed(src, i - 1) {
        assert AllMissed(src, i - n, i) <==> AllMissed(src, i - n, i - 1);
      } else {
        assert TrailingMisses(src, start, i) == 0;
      }
    }
  }

  /**
    Where a probe from `start` stops: the first index not probed. It is
    past start, at most start + 1001; unless the safety bound was reached the
    miss counter stood at five; and it never stood at five before.
  */
  predicate Stopped(src: Source, start: nat, last: nat)
  {
    && start < last <= start + 1001
    && (last == start + 1001 || TrailingMisses(src, start, last) >= 5)
    && forall j :: start <= j < last ==> TrailingMisses(src, start, j) < 5
  }

  /** The miss counter stood below five at every index `start .. i - 1`. */
  ghost predicate BelowFive(src: Source, start: nat, i: nat)
  {
    forall j :: start <= j < i ==> TrailingMisses(src, start, j) < 5
  }

  /** The stopping point is determined by the server's answers alone. */
  lemma StoppedUnique(src: Source, start: nat, a: nat, b: nat)
    requires Stopped(src, start, a) && Stopped(src, start, b)
    ensures a == b
  {
  }

  /** Unless the bound was hit, the last five probed indices were all misses. */
  lemma StoppedByMisses(src: Source, start: nat, last: nat)
    requires Stopped(src, start, last) && last < start + 1001
    ensures start + 5 <= last && AllMissed(src, last - 5, last)
  {
    TrailingMissesFive(src, start, last);
  }

  /** Something is saved exactly when one of the first five indices has an image. */
  lemma SavedIffEarlyHit(src: Source, start: nat, last: nat)
    requires Stopped(src, start, last)
    ensures |SavedPages(src, start, last)| > 0 <==> exists k :: start <= k < start + 5 && !Missed(src, k)
  {
    var r := SavedPages(src, start, last);
    TrailingMissesFive(src, start, last);
    TrailingMissesFive(src, start, start + 5);
    if k :| start <= k < start + 5 && !Missed(src, k) {
      assert k < last;
      SavedPagesComplete(src, start, last, k);
    } else {
      assert last <= start + 5;
      NothingSaved(src, start, last);
    }
  }

  /** No page is saved from a stretch of misses. */
  lemma {:induction false} NothingSaved(src: Source, start: nat, i: nat)
    requires start <= i && AllMissed(src, start, i)
    ensures SavedPages(src, start, i) == []
    decreases i - start
  {
    if i > start {
      NothingSaved(src, start, i - 1);
    }
  }

  /** The requests sent while probing the indices `start .. i - 1`. */
  function Requests(src: Source, start: nat, i: nat): (r: nat)
    requires start <= i
    ensures i - start <= r <= 4 * (i - start)
    decreases i - start
  {
    if i == start then 0 else Requests(src, start, i - 1) + Cost(src, i - 1)
  }

  // ---------------------------------------------------------------------------
  // find_all_images

  /** `series.replace(' ', '_').replace('-', '_')`. */
  function FolderName(series: string): (r: string)
    ensures |r| == |series| && ' ' !in r && '-' !in r
    ensures forall i :: 0 <= i < |r| ==> r[i] == (if series[i] == ' ' || series[i] == '-' then '_' else series[i])
  {
    ReplaceChar(ReplaceChar(series, ' ', '_'), '-', '_')
  }

  /** `page_{index:03d}.{ext}`. */
  function PageFileName(i: nat, ext: string): string
  {
    "page_" + Pad3(i) + "." + ext
  }

  /** Different pages never share a file name. */
  lemma PageFileNameInjective(i: nat, j: nat, e: string, f: string)
    requires PageFileName(i, e) == PageFileName(j, f)
    ensures i == j && e == f
  {
    var a, b := Pad3(i), Pad3(j);
    var x, y := a + "." + e, b + "." + f;
    assert x == PageFileName(i, e)[5..] && y == PageFileName(j, f)[5..];
    assert '.' !in a && '.' !in b;
    SplitAtChar(a, e, b, f, '.');
    DigitsValueInjective(a, b);
  }

  /** Different indices of one probe give different file names. */
  lemma PageNamesDistinct(pages: seq<Page>)
    requires forall k, m :: 0 <= k < m < |pages| ==> pages[k].index < pages[m].index
    ensures forall k, m :: 0 <= k < m < |PageNames(pages)| ==> PageNames(pages)[k] != PageNames(pages)[m]
  {
    forall k, m | 0 <= k < m < |pages| ensures PageNames(pages)[k] != PageNames(pages)[m] {
      if PageNames(pages)[k] == PageNames(pages)[m] {
        PageFileNameInjective(pages[k].index, pages[m].index, pages[k].ext, pages[m].ext);
      }
    }
  }

  /** The file names of the pages, in order. */
  function PageNames(pages: seq<Page>): (r: seq<string>)
    ensures |r| == |pages|
    ensures forall k :: 0 <= k < |pages| ==> r[k] == PageFileName(pages[k].index, pages[k].ext)
  {
    seq(|pages|, k requires 0 <= k < |pages| => PageFileName(pages[k].index, pages[k].ext))
  }

  /** Every saved page is an image file for `get_chapter_status`. */
  lemma PageIsImage(i: nat, e: nat)
    requires e < 4
    ensures IsImage(File(PageFileName(i, Extensions[e])))
  {
    var ext := Extensions[e];
    assert "." + ext in ImageExtensions by {
      if e == 0 {
        assert "." + ext == ".jpg";
      } else if e == 1 {
        assert "." + ext == ".png";
      } else if e == 2 {
        assert "." + ext == ".jpeg";
      } else {
        assert "." + ext == ".webp";
      }
    }
    ImageFileName("page_" + Pad3(i), ext);
  }

  /** A run's pages are all images. */
  lemma PageNamesAreImages(src: Source, start: nat, i: nat)
    requires start <= i
    ensures forall n :: n in PageNames(SavedPages(src, start, i)) ==> IsImage(File(n))
  {
    var pages := SavedPages(src, start, i);
    SavedPagesShape(src, start, i);
    forall n | n in PageNames(pages) ensures IsImage(File(n)) {
      var k :| 0 <= k < |pages| && PageNames(pages)[k] == n;
      PageIsImage(pages[k].index, FirstExt(src, pages[k].index));
    }
  }

  function FilePath(root: string, dir: ChapterDir, name: string): string
  {
    root + "/" + dir.series + "/" + dir.folder + "/" + name
  }

  /** The outcome of one probe run; `paths` is the list `find_all_images` returns. */
  datatype Run = Run(
    dir: ChapterDir,
    base: string,
    start: nat,
    pages: seq<Page>,
    paths: seq<string>,
    marker: bool,
    last: nat,
    requests: nat)

  /** The chapter directory of a run; missing chapter information defaults to `Unknown` chapter `1`. */
  function RunDir(info: Option<(string, string)>): (r: ChapterDir)
    ensures info.None? ==> r == ChapterDir("Unknown", "chapter_1")
    ensures info.Some? ==> r == ChapterDir(FolderName(info.value.0), ChapterFolder(info.value.1))
  {
    var (series, chapter) := info.GetOr(("Unknown", "1"));
    ChapterDir(FolderName(series), ChapterFolder(chapter))
  }

  /** One more probed index extends the reference definitions by one step. */
  lemma ProbeStep(src: Source, start: nat, i: nat)
    requires start <= i
    ensures SavedPages(src, start, i + 1)
         == if Missed(src, i) then SavedPages(src, start, i)
            else SavedPages(src, start, i) + [Page(i, Extensions[FirstExt(src, i)])]
    ensures TrailingMisses(src, start, i + 1) == if Missed(src, i) then TrailingMisses(src, start, i) + 1 else 0
    ensures Requests(src, start, i + 1) == Requests(src, start, i) + Cost(src, i)
  {
  }

  /** The inner `for ext in extensions` loop for one index. */
  method ProbeIndex(src: Source, i: nat) returns (e: nat, sent: nat)
    ensures e == FirstExt(src, i) && sent == Cost(src, i)
  {
    e := 0;
    while e < 4
      invariant e <= 4
      invariant forall k :: 0 <= k < e ==> !Hit(src, i, k)
    {
      var ok := DownloadImage(src.respond(PageUrl(src.base, i, Extensions[e]))).0;
      if ok {
        sent := e + 1;
        return;
      }
      e := e + 1;
    }
    sent := 4;
  }

  /**
    The pages and paths gathered while probing the indices `start .. i - 1`,
    the miss counter and request count, and the counter never reached five.
  */
  ghost predicate ProbeState(root: string, dir: ChapterDir, src: Source, start: nat, i: nat,
                             pages: seq<Page>, paths: seq<string>, misses: nat, requests: nat)
  {
    && start <= i
    && pages == SavedPages(src, start, i)
    && Seqs.MapsTo(pages, paths, PagePathIn(root, dir))
    && misses == TrailingMisses(src, start, i)
    && requests == Requests(src, start, i)
    && BelowFive(src, start, i)
  }

  /** Where a saved page is written. */
  function PagePathIn(root: string, dir: ChapterDir): Page -> string
  {
    (p: Page) => FilePath(root, dir, PageFileName(p.index, p.ext))
  }

  lemma ProbeStart(root: string, dir: ChapterDir, src: Source, start: nat)
    ensures ProbeState(root, dir, src, start, start, [], [], 0, 0)
  {
  }

  /** One pass of the outer loop: probe index `i` and record what was saved. */
  method ProbeNext(root: string, dir: ChapterDir, src: Source, start: nat, i: nat,
                   pages: seq<Page>, paths: seq<string>, misses: nat, requests: nat)
    returns (pages': seq<Page>, paths': seq<string>, misses': nat, requests': nat)
    requires ProbeState(root, dir, src, start, i, pages, paths, misses, requests) && misses < 5
    ensures ProbeState(root, dir, src, start, i + 1, pages', paths', misses', requests')
  {
    var e, sent := ProbeIndex(src, i);
    ProbeAdvance(root, dir, src, start, i, pages, paths, misses, requests);
    requests' := requests + sent;
    if e < 4 {
      var page := Page(i, Extensions[e]);
      pages' := pages + [page];
      paths' := paths + [PagePathIn(root, dir)(page)];
      misses' := 0;
    } else {
      pages', paths' := pages, paths;
      misses' := misses + 1;
    }
  }

  /** The state after probing index `i`: a hit is recorded and resets the counter, a miss counts one more. */
  lemma ProbeAdvance(root: string, dir: ChapterDir, src: Source, start: nat, i: nat,
                     pages: seq<Page>, paths: seq<string>, misses: nat, requests: nat)
    requires ProbeState(root, dir, src, start, i, pages, paths, misses, requests) && misses < 5
    ensures var e := FirstExt(src, i);
            var page := Page(i, Extensions[if e < 4 then e else 0]);
            ProbeState(root, dir, src, start, i + 1,
                       if e < 4 then pages + [page] else pages,
                       if e < 4 then paths + [PagePathIn(root, dir)(page)] else paths,
                       if e < 4 then 0 else misses + 1,
                       requests + Cost(src, i))
  {
    var e := FirstExt(src, i);
    ProbeStep(src, start, i);
    if e < 4 {
      Seqs.MapsToSnoc(pages, paths, PagePathIn(root, dir), Page(i, Extensions[e]));
    }
    assert BelowFive(src, start, i + 1) by {
      forall j | start <= j < i + 1 ensures TrailingMisses(src, start, j) < 5 {
        if j < i {
          assert BelowFive(src, start, i);
        }
      }
    }
  }

  /**
    `find_all_images`: probe from `start`, saving the first extension that
    answers for each index, until five indices in a row had none or the
    index passed start + 1000. The directory is created whatever happens;
    the marker is written only when something was saved.
  */
  method FindAllImages(root: string, src: Source, start: nat, info: Option<(string, string)>) returns (run: Run)
    ensures run.dir == RunDir(info) && run.base == src.base && run.start == start
    ensures Stopped(src, start, run.last)
    ensures run.pages == SavedPages(src, start, run.last)
    ensures |run.paths| == |run.pages|
    ensures forall k :: 0 <= k < |run.paths| ==> run.paths[k] == FilePath(root, run.dir, PageNames(run.pages)[k])
    ensures run.marker <==> |run.pages| > 0
    ensures run.requests == Requests(src, start, run.last)
  {
    var dir := RunDir(info);
    var pages: seq<Page> := [];
    var paths: seq<string> := [];
    var i := start;
    var misses := 0;
    var requests := 0;
    ProbeStart(root, dir, src, start);
    while misses < 5
      invariant i <= start + 1000
      invariant ProbeState(root, dir, src, start, i, pages, paths, misses, requests)
      decreases start + 1000 - i
    {
      pages, paths, misses, requests := ProbeNext(root, dir, src, start, i, pages, paths, misses, requests);
      i := i + 1;
      if i > start + 1000 {
        break;
      }
    }
    run := Run(dir, src.base, start, pages, paths, |pages| > 0, i, requests);
    ProbeFinished(root, src, start, info, run, misses);
  }

  /** Where the loop ends, the probe has stopped and the run records what it saved. */
  lemma ProbeFinished(root: string, src: Source, start: nat, info: Option<(string, string)>, run: Run, misses: nat)
    requires run.dir == RunDir(info) && run.base == src.base && run.start == start
    requires run.last <= start + 1001 && (misses >= 5 || run.last == start + 1001)
    requires ProbeState(root, run.dir, src, start, run.last, run.pages, run.paths, misses, run.requests)
    requires run.marker <==> |run.pages| > 0
    ensures Stopped(src, start, run.last)
    ensures run.pages == SavedPages(src, start, run.last)
    ensures |run.paths| == |run.pages|
    ensures forall k :: 0 <= k < |run.paths| ==> run.paths[k] == FilePath(root, run.dir, PageNames(run.pages)[k])
    ensures run.requests == Requests(src, start, run.last)
  {
    assert TrailingMisses(src, start, start) == 0;
  }

  // ---------------------------------------------------------------------------
  // The files a run leaves behind

  /** Writing files one after another into a listing. */
  function WriteFiles(l: Listing, names: seq<string>): (r: Listing)
    ensures forall e :: e in l ==> e in r
    ensures forall n :: n in names ==> HasEntry(r, n)
    decreases |names|
  {
    if |names| == 0 then l
    else
      var p := names[..|names| - 1];
      assert forall n :: n in names ==> n in p || n == names[|names| - 1];
      AddFile(WriteFiles(l, p), names[|names| - 1])
  }

  /** A listing of plain files with the given names. */
  function Files(names: seq<string>): (r: Listing)
    ensures |r| == |names| && forall k :: 0 <= k < |r| ==> r[k] == File(names[k])
  {
    seq(|names|, k requires 0 <= k < |names| => File(names[k]))
  }

  /** Writing distinct names into an empty directory lists exactly those files, in order. */
  lemma {:induction false} WriteFilesFresh(names: seq<string>)
    requires forall k, m :: 0 <= k < m < |names| ==> names[k] != names[m]
    ensures WriteFiles([], names) == Files(names)
    decreases |names|
  {
    if |names| > 0 {
      var p := names[..|names| - 1];
      var x := names[|names| - 1];
      WriteFilesFresh(p);
      assert !HasEntry(Files(p), x) by {
        forall e | e in Files(p) ensures e.name != x {
          var k :| 0 <= k < |p| && Files(p)[k] == e;
        }
      }
      assert Files(p) + [File(x)] == Files(names);
    }
  }

  /** The image names of a listing of image files are its names. */
  lemma {:induction false} ImageNamesOfFiles(names: seq<string>)
    requires forall k :: 0 <= k < |names| ==> IsImage(File(names[k]))
    ensures ImageNames(Files(names)) == names
    decreases |names|
  {
    if |names| > 0 {
      var p, last := names[..|names| - 1], names[|names| - 1];
      forall k | 0 <= k < |p| ensures IsImage(File(p[k])) {
        assert p[k] == names[k];
      }
      ImageNamesOfFiles(p);
      Seqs.SplitLast(names);
      FilesSnoc(p, last);
      ImageNamesSnoc(Files(p), File(last));
    }
  }

  lemma FilesSnoc(names: seq<string>, x: string)
    ensures Files(names + [x]) == Files(names) + [File(x)]
  {
  }

  /** The files a run writes, in order: the pages, then the marker if any. */
  function RunFiles(run: Run): (r: seq<string>)
    ensures |r| == |run.pages| + (if run.marker then 1 else 0)
    ensures forall k :: 0 <= k < |run.pages| ==> r[k] == PageFileName(run.pages[k].index, run.pages[k].ext)
    ensures run.marker ==> r[|r| - 1] == Marker
  {
    PageNames(run.pages) + (if run.marker then [Marker] else [])
  }

  /** The library after a run: the directory exists (it is created up front), with the run's files in it. */
  function AfterRun(lib: Library, run: Run): (r: Library)
    ensures r.Keys == lib.Keys + {run.dir}
    ensures forall d :: d in lib && d != run.dir ==> r[d] == lib[d]
    ensures forall e :: run.dir in lib && e in lib[run.dir] ==> e in r[run.dir]
    ensures forall n :: n in RunFiles(run) ==> HasEntry(r[run.dir], n)
    ensures run.marker ==> HasEntry(r[run.dir], Marker)
  {
    var l := if run.dir in lib then lib[run.dir] else [];
    assert run.marker ==> Marker in RunFiles(run);
    lib[run.dir := WriteFiles(l, RunFiles(run))]
  }

  /** A run writes no file twice, and every file but the marker is an image. */
  lemma RunFilesDistinct(src: Source, run: Run)
    requires run.start <= run.last && run.pages == SavedPages(src, run.start, run.last)
    ensures forall k, m :: 0 <= k < m < |RunFiles(run)| ==> RunFiles(run)[k] != RunFiles(run)[m]
    ensures forall n :: n in PageNames(run.pages) ==> IsImage(File(n))
  {
    var names, files := PageNames(run.pages), RunFiles(run);
    SavedPagesShape(src, run.start, run.last);
    PageNamesDistinct(run.pages);
    PageNamesAreImages(src, run.start, run.last);
    MarkerIsNotImage();
    forall k, m | 0 <= k < m < |files| ensures files[k] != files[m] {
      if m == |names| {
        assert files[k] == names[k] && IsImage(File(names[k]));
      }
    }
  }

  /** A listing of plain files has an entry exactly for its names. */
  lemma FilesHasEntry(names: seq<string>, x: string)
    ensures HasEntry(Files(names), x) <==> x in names
  {
    if x in names {
      var k :| 0 <= k < |names| && names[k] == x;
      assert Files(names)[k] in Files(names);
    }
    if HasEntry(Files(names), x) {
      var e :| e in Files(names) && e.name == x;
      var k :| 0 <= k < |names| && Files(names)[k] == e;
    }
  }

  /** A trailing non-image file does not change the image names. */
  lemma ImageNamesNonImage(names: seq<string>, x: string)
    requires !IsImage(File(x))
    ensures ImageNames(Files(names + [x])) == ImageNames(Files(names))
  {
    assert Files(names + [x])[..|names|] == Files(names);
  }

  /** In a fresh directory a run's listing shows exactly its pages, in order, and holds the marker exactly when written. */
  lemma FreshListing(src: Source, run: Run)
    requires run.start <= run.last && run.pages == SavedPages(src, run.start, run.last)
    ensures ImageNames(WriteFiles([], RunFiles(run))) == PageNames(run.pages)
    ensures HasEntry(WriteFiles([], RunFiles(run)), Marker) == run.marker
  {
    var names, files := PageNames(run.pages), RunFiles(run);
    RunFilesDistinct(src, run);
    WriteFilesFresh(files);
    ImageNamesOfFiles(names);
    MarkerIsNotImage();
    FilesHasEntry(files, Marker);
    assert Marker !in names;
    if run.marker {
      assert files == names + [Marker];
      ImageNamesNonImage(names, Marker);
    } else {
      assert files == names;
    }
  }

  /**
    After a run into a directory that did not exist, `get_chapter_status`
    reports it present, complete exactly when something was saved, and
    exactly the saved pages counted.
  */
  lemma FreshRunStatus(lib: Library, src: Source, series: string, n: int, run: Run)
    requires run.dir == RunDir(Some((series, IntStr(n)))) && run.dir !in lib
    requires run.start <= run.last && run.pages == SavedPages(src, run.start, run.last)
    requires run.marker <==> |run.pages| > 0
    ensures GetChapterStatus(AfterRun(lib, run), FolderName(series), n)
         == ChapterStatus(true, |run.pages| > 0, |run.pages|)
  {
    FreshListing(src, run);
    assert AfterRun(lib, run)[run.dir] == WriteFiles([], RunFiles(run));
  }

  // ---------------------------------------------------------------------------
  // download_chapters

  /**
    Everything the downloader learns from outside, as oracles: the network's
    answers, and which chapter directories `mkdir` fails to create.
  */
  datatype Web = Web(
    respond: string -> Response,
    parse: string -> UrlParse,
    page: string -> Option<Document>,
    head: string -> bool,
    titleCase: string -> string,
    mkdirRaises: ChapterDir -> bool)

  /** `series.lower().replace('_', '-').replace(' ', '-')`. */
  function SeriesSlug(series: string): (r: string)
    ensures |r| == |series| && '_' !in r && ' ' !in r
    ensures '.' in r <==> '.' in series
  {
    var r := ReplaceChar(ReplaceChar(Lower(series), '_', '-'), ' ', '-');
    assert forall i :: 0 <= i < |r| ==> (r[i] == '.' <==> series[i] == '.');
    r
  }

  /** Whether the downloads hold the directory of chapter `n` of `series` (under that exact name). */
  predicate HasChapterDir(lib: Library, series: string, n: int)
  {
    ChapterDir(series, ChapterFolder(IntStr(n))) in lib
  }

  /** The RavenScans page URL guessed for pattern detection. */
  function RavenUrl(series: string, n: int): string
  {
    "https://ravenscans.com/" + SeriesSlug(series) + "-chapter-" + IntStr(n) + "/"
  }

  /**
    `detect_series_pattern`: only once some chapter `1 .. n - 1` exists on
    disk is anything tried, and then only `find_pattern` on the guessed
    RavenScans URL of chapter `n`; an empty base counts as no answer.
  */
  function DetectSeriesPattern(lib: Library, series: string, n: int, web: Web): (r: Option<string>)
    ensures r.Some? ==> r.value != ""
    ensures (forall k :: 1 <= k < n ==> !HasChapterDir(lib, series, k)) ==> r.None?
    ensures r.Some? ==> RouteOf(RavenUrl(series, n)).RavenPage? || RouteOf(RavenUrl(series, n)).DirectCdn?
                        || RouteOf(RavenUrl(series, n)).DirectPics?
  {
    if exists k | 1 <= k < n :: HasChapterDir(lib, series, k) then
      var url := RavenUrl(series, n);
      var found := FindPattern(url, web.parse(url), web.page(url), web.head, web.titleCase);
      if found.Some? && found.value.base != "" then Some(found.value.base) else None
    else None
  }

  /** For a series name without a dot, pattern detection never yields anything. */
  lemma DetectNeverFires(lib: Library, series: string, n: int, web: Web)
    requires '.' !in series
    ensures DetectSeriesPattern(lib, series, n, web).None?
  {
    DotComUnsupported(SeriesSlug(series), n);
  }

  /** The same series-page URL on `ravenscans.org`, the host `find_pattern` routes to the page scraper. */
  function RavenOrgUrl(series: string, n: int): string
  {
    "https://ravenscans.org/" + SeriesSlug(series) + "-chapter-" + IntStr(n) + "/"
  }

  /** `detect_series_pattern` as evidently intended: the guessed page URL names `ravenscans.org`. */
  function DetectSeriesPatternCorrected(lib: Library, series: string, n: int, web: Web): (r: Option<string>)
    ensures r.Some? ==> r.value != ""
    ensures (forall k :: 1 <= k < n ==> !HasChapterDir(lib, series, k)) ==> r.None?
  {
    if exists k | 1 <= k < n :: HasChapterDir(lib, series, k) then
      var url := RavenOrgUrl(series, n);
      var found := FindPattern(url, web.parse(url), web.page(url), web.head, web.titleCase);
      if found.Some? && found.value.base != "" then Some(found.value.base) else None
    else None
  }

  /**
    With the corrected URL and a series name without a dot, detection
    reaches the page scraper: once an earlier chapter is on disk, it
    answers exactly when scraping that page gives a non-empty base.
  */
  lemma DetectCorrectedScrapesPage(lib: Library, series: string, n: int, web: Web)
    requires '.' !in series
    requires exists k :: 1 <= k < n && HasChapterDir(lib, series, k)
    ensures var t := ExtractFromRavenscans(web.page(RavenOrgUrl(series, n)), web.head);
            DetectSeriesPatternCorrected(lib, series, n, web)
              == if t.Some? && t.value.base != "" then Some(t.value.base) else None
  {
    DotOrgRoutesToPage(SeriesSlug(series), n);
  }

  /** The base pattern used for chapter `n`: the detected one, else the manga.pics guess. */
  function BasePattern(lib: Library, series: string, n: int, web: Web): (r: string)
    ensures DetectSeriesPattern(lib, series, n, web).None? ==>
              r == "https://manga.pics/" + SeriesSlug(series) + "/chapter-" + IntStr(n) + "/"
    ensures DetectSeriesPattern(lib, series, n, web).Some? ==> r == DetectSeriesPattern(lib, series, n, web).value
  {
    match DetectSeriesPattern(lib, series, n, web)
    case Some(b) => b
    case None => "https://manga.pics/" + SeriesSlug(series) + "/chapter-" + IntStr(n) + "/"
  }

  /** Whether the completion marker of chapter `n` is present under the series name as given. */
  predicate MarkerPresent(lib: Library, series: string, n: int)
  {
    HasChapterDir(lib, series, n) && HasEntry(lib[ChapterDir(series, ChapterFolder(IntStr(n)))], Marker)
  }

  /**
    What happened to one requested chapter: skipped, probed, or stopped by
    an exception before any file was written (a failed `mkdir`; detection
    and every request catch their own errors).
  */
  datatype Outcome = Skipped | Ran(run: Run) | Raised

  /** The result reported for one chapter. */
  function Succeeded(o: Outcome): bool
  {
    o.Skipped? || (o.Ran? && |o.run.pages| > 0)
  }

  /** The library after a sequence of outcomes; a skip or an exception changes nothing. */
  function ApplyOutcomes(lib: Library, os: seq<Outcome>): (r: Library)
    ensures lib.Keys <= r.Keys
    decreases |os|
  {
    if |os| == 0 then lib
    else
      var prev := ApplyOutcomes(lib, os[..|os| - 1]);
      match os[|os| - 1]
      case Skipped => prev
      case Ran(run) => AfterRun(prev, run)
      case Raised => prev
  }

  /** The result dict of a sequence of outcomes for the requested chapters. */
  function Results(chapters: seq<int>, os: seq<Outcome>): (r: Dicts.Dict<int, bool>)
    requires |os| == |chapters|
    decreases |os|
  {
    if |os| == 0 then []
    else Dicts.Put(Results(chapters[..|os| - 1], os[..|os| - 1]), chapters[|os| - 1], Succeeded(os[|os| - 1]))
  }

  /** Every requested chapter gets a result: the one of its last request. */
  lemma {:induction false} ResultsLast(chapters: seq<int>, os: seq<Outcome>, i: nat)
    requires |os| == |chapters| && i < |chapters|
    requires forall j :: i < j < |chapters| ==> chapters[j] != chapters[i]
    ensures Dicts.Get(Results(chapters, os), chapters[i]) == Some(Succeeded(os[i]))
    decreases |os|
  {
    var n := |os|;
    var prev := Results(chapters[..n - 1], os[..n - 1]);
    Dicts.PutGet(prev, chapters[n - 1], Succeeded(os[n - 1]), chapters[i]);
    if i < n - 1 {
      ResultsLast(chapters[..n - 1], os[..n - 1], i);
    }
  }

  /** Chapters never requested get no result. */
  lemma {:induction false} ResultsOnlyRequested(chapters: seq<int>, os: seq<Outcome>, c: int)
    requires |os| == |chapters| && c !in chapters
    ensures Dicts.Get(Results(chapters, os), c).None?
    decreases |os|
  {
    if |os| > 0 {
      var n := |os|;
      ResultsOnlyRequested(chapters[..n - 1], os[..n - 1], c);
      Dicts.PutGet(Results(chapters[..n - 1], os[..n - 1]), chapters[n - 1], Succeeded(os[n - 1]), c);
    }
  }

  /** A run is the probe of `src` from index 0 into the directory of chapter `n`. */
  predicate RunFits(run: Run, src: Source, series: string, n: int)
  {
    && run.dir == RunDir(Some((series, IntStr(n))))
    && run.start == 0 && run.base == src.base
    && Stopped(src, 0, run.last)
    && run.pages == SavedPages(src, 0, run.last)
    && (run.marker <==> |run.pages| > 0)
  }

  /**
    What `download_chapters` does for chapter `n` given the library
    `before` it: skip exactly when the marker is present under the series
    name as given; otherwise raise when the chapter directory cannot be
    created, and probe the base pattern from index 0 when it can.
  */
  predicate OutcomeFits(before: Library, series: string, n: int, web: Web, o: Outcome)
  {
    && (o.Skipped? <==> MarkerPresent(before, series, n))
    && (o.Raised? <==> !MarkerPresent(before, series, n) && web.mkdirRaises(RunDir(Some((series, IntStr(n))))))
    && (o.Ran? ==> RunFits(o.run, Source(BasePattern(before, series, n, web), web.respond), series, n))
  }

  /** Every outcome fits the library left by the ones before it. */
  ghost predicate OutcomesFit(lib: Library, series: string, chapters: seq<int>, web: Web, os: seq<Outcome>)
    requires |os| <= |chapters|
  {
    StepsFit(lib, chapters, os, FitsFor(series, web))
  }

  /** `OutcomeFits` for one series and server, as a function of the library before, the chapter and the outcome. */
  function FitsFor(series: string, web: Web): (Library, int, Outcome) -> bool
  {
    (before: Library, n: int, o: Outcome) => OutcomeFits(before, series, n, web, o)
  }

  /** Each outcome satisfies `fits` against the library the ones before it left. */
  ghost predicate StepsFit(lib: Library, chapters: seq<int>, os: seq<Outcome>, fits: (Library, int, Outcome) -> bool)
    requires |os| <= |chapters|
  {
    forall j :: 0 <= j < |os| ==> fits(ApplyOutcomes(lib, os[..j]), chapters[j], os[j])
  }

  lemma StepsFitSnoc(lib: Library, chapters: seq<int>, os: seq<Outcome>, fits: (Library, int, Outcome) -> bool, o: Outcome)
    requires |os| < |chapters| && StepsFit(lib, chapters, os, fits)
    requires fits(ApplyOutcomes(lib, os), chapters[|os|], o)
    ensures StepsFit(lib, chapters, os + [o], fits)
  {
    var os' := os + [o];
    forall j | 0 <= j < |os'| ensures fits(ApplyOutcomes(lib, os'[..j]), chapters[j], os'[j]) {
      if j < |os| {
        assert os'[..j] == os[..j] && os'[j] == os[j];
      } else {
        assert os'[..j] == os;
      }
    }
  }

  lemma ApplyOutcomesSnoc(lib: Library, os: seq<Outcome>, o: Outcome)
    ensures ApplyOutcomes(lib, os + [o]) == if o.Ran? then AfterRun(ApplyOutcomes(lib, os), o.run) else ApplyOutcomes(lib, os)
  {
    assert (os + [o])[..|os|] == os;
  }

  lemma ResultsSnoc(chapters: seq<int>, os: seq<Outcome>, c: int, o: Outcome)
    requires |chapters| == |os|
    ensures Results(chapters + [c], os + [o]) == Dicts.Put(Results(chapters, os), c, Succeeded(o))
  {
    assert (os + [o])[..|os|] == os;
    assert (chapters + [c])[..|os|] == chapters;
  }

  /** The body of the `download_chapters` loop for one chapter. */
  method DownloadChapter(root: string, lib: Library, series: string, n: int, web: Web) returns (o: Outcome)
    ensures OutcomeFits(lib, series, n, web, o)
  {
    if MarkerPresent(lib, series, n) {
      o := Skipped;
    } else if web.mkdirRaises(RunDir(Some((series, IntStr(n))))) {
      o := Raised;
    } else {
      var src := Source(BasePattern(lib, series, n, web), web.respond);
      var run := FindAllImages(root, src, 0, Some((series, IntStr(n))));
      o := Ran(run);
    }
  }

  /**
    A chapter that is not skipped and whose directory cannot be created
    reports False and leaves the library as it was.
  */
  lemma RaisedReportsFalse(lib: Library, series: string, n: int, web: Web, o: Outcome)
    requires OutcomeFits(lib, series, n, web, o)
    requires !MarkerPresent(lib, series, n) && web.mkdirRaises(RunDir(Some((series, IntStr(n)))))
    ensures !Succeeded(o) && ApplyOutcomes(lib, [o]) == lib
  {
    assert [o][..0] == [];
  }

  /**
    `download_chapters`: for each requested chapter in order, skip it when
    its marker is present under the series name as given, otherwise probe
    it from index 0 into the folder-name directory; a chapter whose
    directory cannot be created reports False and changes nothing.
  */
  method DownloadChapters(root: string, lib: Library, series: string, chapters: seq<int>, web: Web)
    returns (results: Dicts.Dict<int, bool>, outcomes: seq<Outcome>, after: Library)
    ensures |outcomes| == |chapters|
    ensures OutcomesFit(lib, series, chapters, web, outcomes)
    ensures results == Results(chapters, outcomes)
    ensures after == ApplyOutcomes(lib, outcomes)
  {
    results, outcomes, after := [], [], lib;
    for i := 0 to |chapters|
      invariant ChaptersDone(lib, series, chapters, web, i, results, outcomes, after)
    {
      results, outcomes, after := DownloadNext(root, lib, series, chapters, web, i, results, outcomes, after);
    }
    assert chapters[..|chapters|] == chapters;
  }

  /** After the first `i` requested chapters. */
  ghost predicate ChaptersDone(lib: Library, series: string, chapters: seq<int>, web: Web, i: nat,
                               results: Dicts.Dict<int, bool>, outcomes: seq<Outcome>, after: Library)
  {
    && i <= |chapters| && |outcomes| == i
    && OutcomesFit(lib, series, chapters, web, outcomes)
    && results == Results(chapters[..i], outcomes)
    && after == ApplyOutcomes(lib, outcomes)
  }

  /** One turn of the `download_chapters` loop. */
  method DownloadNext(root: string, lib: Library, series: string, chapters: seq<int>, web: Web, i: nat,
                      results: Dicts.Dict<int, bool>, outcomes: seq<Outcome>, after: Library)
    returns (results': Dicts.Dict<int, bool>, outcomes': seq<Outcome>, after': Library)
    requires i < |chapters| && ChaptersDone(lib, series, chapters, web, i, results, outcomes, after)
    ensures ChaptersDone(lib, series, chapters, web, i + 1, results', outcomes', after')
  {
    var n := chapters[i];
    var o := DownloadChapter(root, after, series, n, web);
    NextDone(lib, series, chapters, web, i, results, outcomes, after, o);
    after' := if o.Ran? then AfterRun(after, o.run) else after;
    outcomes' := outcomes + [o];
    results' := Dicts.Put(results, n, Succeeded(o));
  }

  lemma NextDone(lib: Library, series: string, chapters: seq<int>, web: Web, i: nat,
                 results: Dicts.Dict<int, bool>, outcomes: seq<Outcome>, after: Library, o: Outcome)
    requires i < |chapters| && ChaptersDone(lib, series, chapters, web, i, results, outcomes, after)
    requires OutcomeFits(after, series, chapters[i], web, o)
    ensures ChaptersDone(lib, series, chapters, web, i + 1, Dicts.Put(results, chapters[i], Succeeded(o)), outcomes + [o],
                         if o.Ran? then AfterRun(after, o.run) else after)
  {
    StepsFitSnoc(lib, chapters, outcomes, FitsFor(series, web), o);
    ApplyOutcomesSnoc(lib, outcomes, o);
    NextResults(chapters, i, outcomes, o);
  }

  lemma NextResults(chapters: seq<int>, i: nat, outcomes: seq<Outcome>, o: Outcome)
    requires i < |chapters| && |outcomes| == i
    ensures Results(chapters[..i + 1], outcomes + [o]) == Dicts.Put(Results(chapters[..i], outcomes), chapters[i], Succeeded(o))
  {
    ResultsSnoc(chapters[..i], outcomes, chapters[i], o);
    assert chapters[..i + 1] == chapters[..i] + [chapters[i]];
  }

  /**
    When the series name is already a folder name, a chapter whose run
    saved something is skipped by the next call.
  */
  lemma MarkerSeenWhenNamesAgree(lib: Library, series: string, n: int, run: Run)
    requires FolderName(series) == series
    requires run.dir == RunDir(Some((series, IntStr(n)))) && run.marker
    ensures MarkerPresent(AfterRun(lib, run), series, n)
  {
  }

  /**
    With a space or hyphen in the series name, the marker is looked for
    under the name as given while the pages go to the folder name, so a run
    never makes the next call skip the chapter.
  */
  lemma MarkerMissedWhenNamesDiffer(lib: Library, series: string, n: int, run: Run)
    requires ' ' in series || '-' in series
    requires run.dir == RunDir(Some((series, IntStr(n))))
    ensures MarkerPresent(AfterRun(lib, run), series, n) == MarkerPresent(lib, series, n)
  {
    assert run.dir.series != series;
  }

  /** The skip check as evidently intended: the marker is looked for under the series' folder name. */
  predicate MarkerPresentCorrected(lib: Library, series: string, n: int)
  {
    MarkerPresent(lib, FolderName(series), n)
  }

  /**
    Looking under the folder name, a run that wrote its marker makes the
    next call skip the chapter, whatever the series name.
  */
  lemma MarkerSeenUnderFolderName(lib: Library, series: string, n: int, run: Run)
    requires run.dir == RunDir(Some((series, IntStr(n)))) && run.marker
    ensures MarkerPresentCorrected(AfterRun(lib, run), series, n)
  {
  }

  // ---------------------------------------------------------------------------
  // The worked example: images at 0..4 and 6, jpg only

  /** With images 0, 1, 2, 3, 4 and 6 as jpg only, those are the hits. */
  lemma ExampleMisses(src: Source)
    requires forall i: nat, e: nat :: Hit(src, i, e) <==> e == 0 && (i <= 4 || i == 6)
    ensures forall i: nat :: Missed(src, i) <==> !(i <= 4 || i == 6)
    ensures forall i: nat :: i <= 4 || i == 6 ==> FirstExt(src, i) == 0
  {
    forall i: nat ensures Missed(src, i) <==> !(i <= 4 || i == 6) {
      assert !Hit(src, i, 1) && !Hit(src, i, 2) && !Hit(src, i, 3);
      assert Hit(src, i, 0) <==> i <= 4 || i == 6;
    }
  }

  /** The pages saved along the example. */
  lemma ExamplePages(src: Source)
    requires forall i: nat :: Missed(src, i) <==> !(i <= 4 || i == 6)
    requires forall i: nat :: i <= 4 || i == 6 ==> FirstExt(src, i) == 0
    ensures SavedPages(src, 0, 12) == [Page(0, "jpg"), Page(1, "jpg"), Page(2, "jpg"), Page(3, "jpg"), Page(4, "jpg"), Page(6, "jpg")]
  {
    ExamplePagesUpTo(src, 12);
    ExampleSavedValue();
  }

  /** The example's saved pages among the indices below `i`. */
  function ExampleSaved(i: nat): seq<Page>
  {
    if i == 0 then []
    else ExampleSaved(i - 1) + (if i - 1 <= 4 || i - 1 == 6 then [Page(i - 1, "jpg")] else [])
  }

  lemma ExampleSavedValue()
    ensures ExampleSaved(12) == [Page(0, "jpg"), Page(1, "jpg"), Page(2, "jpg"), Page(3, "jpg"), Page(4, "jpg"), Page(6, "jpg")]
  {
    assert ExampleSaved(5) == [Page(0, "jpg"), Page(1, "jpg"), Page(2, "jpg"), Page(3, "jpg"), Page(4, "jpg")];
    assert ExampleSaved(7) == ExampleSaved(5) + [Page(6, "jpg")];
    assert ExampleSaved(12) == ExampleSaved(7);
  }

  lemma {:induction false} ExamplePagesUpTo(src: Source, i: nat)
    requires forall i: nat :: Missed(src, i) <==> !(i <= 4 || i == 6)
    requires forall i: nat :: i <= 4 || i == 6 ==> FirstExt(src, i) == 0
    ensures SavedPages(src, 0, i) == ExampleSaved(i)
  {
    if i > 0 {
      ExamplePagesUpTo(src, i - 1);
      assert Extensions[0] == "jpg";
    }
  }

  /** ... so the probe of the chapter stops after index 11 with six pages. */
  lemma ExampleStops(src: Source)
    requires forall i: nat, e: nat :: Hit(src, i, e) <==> e == 0 && (i <= 4 || i == 6)
    ensures Stopped(src, 0, 12)
    ensures SavedPages(src, 0, 12) == [Page(0, "jpg"), Page(1, "jpg"), Page(2, "jpg"), Page(3, "jpg"), Page(4, "jpg"), Page(6, "jpg")]
  {
    ExampleMisses(src);
    ExamplePages(src);
    TrailingMissesAtLeast(src, 0, 12, 5);
    forall j | 0 <= j < 12 ensures TrailingMisses(src, 0, j) < 5 {
      if j >= 5 {
        TrailingMissesAtLeast(src, 0, j, 5);
        assert !Missed(src, if j <= 6 then 4 else 6);
      }
    }
  }
}

=== FILE: natural_sort.dfy ===
/**
  The reader's natural sort key: the text split into alternating non-digit
  and digit runs (Python's `re.split(r'(\d+)', text)`), digit runs compared
  as integers and the rest compared lower-cased. Only ASCII digits are
  recognised.
*/
module NaturalSort {
  import opened Text
  import Seqs

  /**
    Length of the longest run starting at `a` whose characters are all
    digits (`digits`) or all non-digits (`!digits`).
  */
  function RunFrom(s: string, a: nat, digits: bool): (r: nat)
    requires a <= |s|
    ensures a + r <= |s|
    ensures forall k :: a <= k < a + r ==> IsDigit(s[k]) == digits
    ensures a + r < |s| ==> IsDigit(s[a + r]) != digits
    decreases |s| - a
  {
    if a == |s| || IsDigit(s[a]) != digits then 0 else 1 + RunFrom(s, a + 1, digits)
  }

  /** A maximal run is determined by where it starts: any run of that kind ending at a change of kind is it. */
  lemma {:induction false} RunFromIs(s: string, a: nat, len: nat, digits: bool)
    requires a + len <= |s|
    requires forall k :: a <= k < a + len ==> IsDigit(s[k]) == digits
    requires a + len == |s| || IsDigit(s[a + len]) != digits
    ensures RunFrom(s, a, digits) == len
    decreases len
  {
    if len > 0 {
      RunFromIs(s, a + 1, len - 1, digits);
    }
  }

  /** The parts joined back together. */
  function Concat(parts: seq<string>): string
  {
    if |parts| == 0 then "" else parts[0] + Concat(parts[1..])
  }

  /**
    The shape `re.split` with one capturing group of maximal digit runs
    produces: non-digit text, then pairs of a non-empty digit run and
    non-digit text, where text between two digit runs is non-empty.
  */
  predicate Alternating(parts: seq<string>)
    decreases |parts|
  {
    if |parts| == 1 then NoDigits(parts[0])
    else
      && 3 <= |parts|
      && NoDigits(parts[0]) && |parts[1]| > 0 && AllDigits(parts[1])
      && Alternating(parts[2..])
      && (|parts| > 3 ==> |parts[2]| > 0)
  }

  /** Read by position: odd length, text at even positions, digit runs at odd ones. */
  lemma {:induction false} AlternatingAt(parts: seq<string>, i: nat)
    requires Alternating(parts) && i < |parts|
    ensures |parts| % 2 == 1
    ensures i % 2 == 0 ==> NoDigits(parts[i])
    ensures i % 2 == 1 ==> |parts[i]| > 0 && AllDigits(parts[i])
    decreases |parts|
  {
    if |parts| > 1 {
      if i >= 2 {
        AlternatingAt(parts[2..], i - 2);
      } else {
        AlternatingAt(parts[2..], 0);
      }
    }
  }

  lemma ConcatPrefix(a: string, b: string, rest: seq<string>)
    ensures Concat([a, b] + rest) == a + b + Concat(rest)
  {
    assert ([a, b] + rest)[1..] == [b] + rest;
    assert ([b] + rest)[1..] == rest;
  }

  lemma ConcatOne(a: string)
    ensures Concat([a]) == a
  {
    assert [a][1..] == [];
  }

  /** Text that holds a digit run is not empty, and starts with its first part. */
  lemma ConcatNonEmpty(parts: seq<string>)
    requires Alternating(parts)
    ensures |parts| > 1 ==> |Concat(parts)| > 0
    ensures |parts| == 1 ==> Concat(parts) == parts[0]
    ensures |parts| > 1 ==> Concat(parts) == parts[0] + parts[1] + Concat(parts[2..])
  {
    if |parts| > 1 {
      ConcatPrefix(parts[0], parts[1], parts[2..]);
      assert parts == [parts[0], parts[1]] + parts[2..];
    } else {
      ConcatOne(parts[0]);
      assert parts == [parts[0]];
    }
  }

  lemma AlternatingCons(x: string, y: string, rest: seq<string>)
    requires NoDigits(x) && |y| > 0 && AllDigits(y) && Alternating(rest)
    requires |rest| > 1 ==> |rest[0]| > 0
    ensures Alternating([x, y] + rest)
  {
    assert ([x, y] + rest)[2..] == rest;
  }

  /** `re.split(r'(\d+)', s)`. */
  function Split(s: string): (r: seq<string>)
    ensures Alternating(r) && Concat(r) == s
    ensures 0 < |s| && !IsDigit(s[0]) ==> |r[0]| > 0
    decreases |s|
  {
    var a := RunFrom(s, 0, false);
    if a == |s| then
      SplitWhole(s);
      [s]
    else
      var b := RunFrom(s, a, true);
      SplitPieces(s, a, b);
      var rest := Split(s[a + b..]);
      SplitStep(s[..a], s[a..a + b], s[a + b..], rest);
      [s[..a], s[a..a + b]] + rest
  }

  lemma SplitWhole(s: string)
    requires forall k :: 0 <= k < |s| ==> !IsDigit(s[k])
    ensures Alternating([s]) && Concat([s]) == s
  {
    ConcatOne(s);
  }

  /** The pieces one step of the split cuts off. */
  lemma SplitPieces(s: string, a: nat, b: nat)
    requires a < |s| && IsDigit(s[a]) && forall k :: 0 <= k < a ==> !IsDigit(s[k])
    requires a + b <= |s| && forall k :: a <= k < a + b ==> IsDigit(s[k])
    requires a + b < |s| ==> !IsDigit(s[a + b])
    ensures b > 0
    ensures NoDigits(s[..a]) && AllDigits(s[a..a + b])
    ensures s == s[..a] + s[a..a + b] + s[a + b..]
    ensures !IsDigit(s[0]) ==> a > 0
  {
    assert s[..a + b] == s[..a] + s[a..a + b];
  }

  /** One step of the split: a non-digit run, a digit run, then the split of what is left. */
  lemma SplitStep(x: string, y: string, u: string, rest: seq<string>)
    requires NoDigits(x) && |y| > 0 && AllDigits(y) && (|u| == 0 || !IsDigit(u[0]))
    requires Alternating(rest) && Concat(rest) == u
    requires 0 < |u| ==> |rest[0]| > 0
    ensures Alternating([x, y] + rest)
    ensures Concat([x, y] + rest) == x + y + u
  {
    ConcatNonEmpty(rest);
    AlternatingCons(x, y, rest);
    ConcatPrefix(x, y, rest);
  }

  /** `Split` is the only alternating decomposition of a text: splitting is the inverse of joining. */
  lemma {:induction false} SplitUnique(parts: seq<string>)
    requires Alternating(parts)
    ensures Split(Concat(parts)) == parts
    decreases |parts|
  {
    var s := Concat(parts);
    ConcatNonEmpty(parts);
    if |parts| == 1 {
      RunFromIs(s, 0, |s|, false);
    } else {
      var x, y, rest := parts[0], parts[1], parts[2..];
      Seqs.SplitFirstTwo(parts);
      var tail := Concat(rest);
      ConcatNonEmpty(rest);
      assert |tail| == 0 || !IsDigit(tail[0]) by {
        if |rest| > 1 {
          AlternatingAt(rest, 0);
        }
        if |tail| > 0 {
          assert tail[0] == rest[0][0];
        }
      }
      SplitRuns(x, y, tail);
      SplitUnique(rest);
    }
  }

  /** The runs `Split` finds in `x + y + tail` are `x` and `y`. */
  lemma SplitRuns(x: string, y: string, tail: string)
    requires NoDigits(x) && |y| > 0 && AllDigits(y) && (|tail| == 0 || !IsDigit(tail[0]))
    ensures Split(x + y + tail) == [x, y] + Split(tail)
  {
    var s := x + y + tail;
    RunFromIs(s, 0, |x|, false);
    RunFromIs(s, |x|, |y|, true);
    assert s[..|x|] == x;
    assert s[|x|..|x| + |y|] == y;
    assert s[|x| + |y|..] == tail;
  }

  /** One component of a sort key: lower-cased text or an integer. */
  datatype KeyPart = Word(text: string) | Num(value: nat)

  /** `convert`: an all-digit part becomes its integer, anything else its lower-case form. */
  function Convert(part: string): (r: KeyPart)
    ensures r.Num? <==> |part| > 0 && AllDigits(part)
    ensures r.Num? ==> r.value == DigitsValue(part)
    ensures r.Word? ==> |r.text| == |part|
  {
    if |part| > 0 && AllDigits(part) then Num(DigitsValue(part)) else Word(Lower(part))
  }

  /** `natural_sort_key`. */
  function NaturalSortKey(text: string): (r: seq<KeyPart>)
    ensures |r| == |Split(text)| && |r| % 2 == 1
    ensures forall i :: 0 <= i < |r| ==> r[i] == Convert(Split(text)[i])
    ensures forall i :: 0 <= i < |r| ==> (r[i].Num? <==> i % 2 == 1)
  {
    var parts := Split(text);
    var r := seq(|parts|, i requires 0 <= i < |parts| => Convert(parts[i]));
    forall i | 0 <= i < |r| ensures r[i].Num? <==> i % 2 == 1 {
      ConvertAt(parts, i);
    }
    AlternatingAt(parts, 0);
    r
  }

  /** Converted parts of a split: integers exactly at odd positions. */
  lemma ConvertAt(parts: seq<string>, i: nat)
    requires Alternating(parts) && i < |parts|
    ensures Convert(parts[i]).Num? <==> i % 2 == 1
  {
    AlternatingAt(parts, i);
    if i % 2 == 0 && |parts[i]| > 0 {
      assert !IsDigit(parts[i][0]);
    }
  }

  /** Part order: integers among themselves, text among themselves; integers first otherwise, which never arises between two keys. */
  predicate PartLt(a: KeyPart, b: KeyPart)
  {
    match (a, b)
    case (Num(x), Num(y)) => x < y
    case (Word(x), Word(y)) => StrLt(x, y)
    case (Num(_), Word(_)) => true
    case (Word(_), Num(_)) => false
  }

  /** Python's list order on keys: lexicographic, a proper prefix first. */
  predicate KeyLt(a: seq<KeyPart>, b: seq<KeyPart>)
    decreases |a|
  {
    if |a| == 0 then |b| > 0
    else if |b| == 0 then false
    else if a[0] == b[0] then KeyLt(a[1..], b[1..])
    else PartLt(a[0], b[0])
  }

  /** Two keys always hold the same kind of component at the same position, so comparing them never mixes an integer with text. */
  lemma KeysAlign(s: string, t: string, i: nat)
    requires i < |NaturalSortKey(s)| && i < |NaturalSortKey(t)|
    ensures NaturalSortKey(s)[i].Num? == NaturalSortKey(t)[i].Num?
  {
  }

  /** The key of a text is built from its parts: each part can be read back from the key up to case. */
  lemma KeyOfParts(parts: seq<string>)
    requires Alternating(parts)
    ensures NaturalSortKey(Concat(parts)) == seq(|parts|, i requires 0 <= i < |parts| => Convert(parts[i]))
  {
    SplitUnique(parts);
  }

  /**
    Numbers after a common non-digit prefix compare as integers:
    `chapter_2` comes before `chapter_10`.
  */
  lemma NumbersCompareAsIntegers(prefix: string, m: nat, n: nat)
    requires NoDigits(prefix) && m < n
    ensures KeyLt(NaturalSortKey(prefix + NatStr(m)), NaturalSortKey(prefix + NatStr(n)))
  {
    var ka := KeyOfNumbered(prefix, NatStr(m));
    var kb := KeyOfNumbered(prefix, NatStr(n));
    assert ka[1..][0] == Num(m) && kb[1..][0] == Num(n);
  }

  /** The key of a prefix followed by one digit run. */
  lemma KeyOfNumbered(prefix: string, digits: string) returns (k: seq<KeyPart>)
    requires NoDigits(prefix) && |digits| > 0 && AllDigits(digits)
    ensures k == NaturalSortKey(prefix + digits)
    ensures k == [Convert(prefix), Num(DigitsValue(digits)), Word("")]
  {
    SplitRuns(prefix, digits, "");
    assert prefix + digits + "" == prefix + digits;
    var parts := Split(prefix + digits);
    assert Split("") == [""];
    k := NaturalSortKey(prefix + digits);
    assert k[1] == Convert(digits);
    assert k[2] == Convert("");
  }

  /** The plain string order puts `chapter_10` before `chapter_2`; the natural key reverses that. */
  lemma NaturalOrderDiffers()
    ensures StrLt("chapter_10", "chapter_2")
    ensures KeyLt(NaturalSortKey("chapter_2"), NaturalSortKey("chapter_10"))
  {
    assert NatStr(2) == "2" && NatStr(10) == "10";
    NumbersCompareAsIntegers("chapter_", 2, 10);
    assert "chapter_" + "2" == "chapter_2";
    assert "chapter_" + "10" == "chapter_10";
    StrLtCommonPrefix("chapter_", "10", "2");
  }
}

=== FILE: pattern_finder.dfy ===
/**
  Pattern discovery and chapter-list scraping for RavenScans pages.

  The regular expressions of the source are not modelled as an engine:
  what each fixed URL shape captures arrives pre-parsed (the host label, the
  series and chapter path segments, the image index, the chapter slug), in
  the order the page or URL contains them. HTTP becomes an oracle: the
  fetched page is `Option<Document>` (`None` for a failed request) and a HEAD
  probe is a predicate on the probed URL.
*/
module PatternFinder {
  import opened Wrappers
  import opened Text
  import opened Seqs

  // ---------------------------------------------------------------------------
  // Image URL patterns

  /** Where the page images live: a numbered RavenScans CDN host, or manga.pics. */
  datatype Host = Cdn(name: string) | MangaPics

  /** The series and chapter path segments of an image location. */
  datatype PathRef = PathRef(host: Host, series: string, chapter: string)

  /** A full image URL as matched on a page: the location plus the numbered file. */
  datatype ImageMatch = ImageMatch(path: PathRef, index: nat)

  /**
    What the four page regexes find, in page order: full CDN image URLs,
    full manga.pics image URLs, bare CDN references and bare manga.pics
    references.
  */
  datatype Document = Document(
    cdnImages: seq<ImageMatch>,
    picsImages: seq<ImageMatch>,
    cdnRefs: seq<PathRef>,
    picsRefs: seq<PathRef>)

  /** A page-URL template: image `n` lives at `base + str(n) + ext`. */
  datatype Template = Template(base: string, start: nat)

  /** The base pattern built from one location; it always ends in a slash. */
  function BaseUrl(p: PathRef): (r: string)
    ensures 0 < |r| && r[|r| - 1] == '/'
    ensures p.host.MangaPics? ==> 19 <= |r| && r[..19] == "https://manga.pics/"
    ensures p.host.Cdn? ==> 8 + |p.host.name| <= |r| && r[..8] == "https://" && r[8..8 + |p.host.name|] == p.host.name
  {
    match p.host
    case Cdn(name) => "https://" + name + ".ravenscans.org/" + p.series + "/" + p.chapter + "/"
    case MangaPics => "https://manga.pics/" + p.series + "/" + p.chapter + "/"
  }

  /** Python's `min(int(m[3]) for m in matches)`. */
  function MinIndex(ms: seq<ImageMatch>): (r: nat)
    requires 0 < |ms|
    ensures exists i :: 0 <= i < |ms| && ms[i].index == r
    ensures forall i :: 0 <= i < |ms| ==> r <= ms[i].index
  {
    if |ms| == 1 then ms[0].index
    else
      var m := MinIndex(ms[1..]);
      assert forall i :: 1 <= i < |ms| ==> ms[i] == ms[1..][i - 1];
      if ms[0].index <= m then ms[0].index else m
  }

  // ---------------------------------------------------------------------------
  // Start-number detection

  /** The six HEAD probes, in order: 0, 1, 2 as jpg, then 0, 1, 2 as png. */
  function ProbeNumber(j: nat): (n: nat)
    requires j < 6
    ensures n <= 2
  {
    j % 3
  }

  function ProbeExt(j: nat): string
    requires j < 6
  {
    if j < 3 then ".jpg" else ".png"
  }

  function ProbeUrl(base: string, j: nat): string
    requires j < 6
  {
    base + NatStr(ProbeNumber(j)) + ProbeExt(j)
  }

  /** Probe from position `j` on; the result is the start number and how many probes were sent in total. */
  function ProbeFrom(base: string, head: string -> bool, j: nat): (r: (nat, nat))
    requires j <= 6
    ensures j < r.1 <= 6 || (j == 6 && r.1 == 6)
    ensures forall i :: j <= i < r.1 - 1 ==> !head(ProbeUrl(base, i))
    ensures if r.1 > j && head(ProbeUrl(base, r.1 - 1)) then r.0 == ProbeNumber(r.1 - 1)
            else r.1 == 6 && r.0 == 0 && (j < 6 ==> !head(ProbeUrl(base, 5)))
    decreases 6 - j
  {
    if j == 6 then (0, 6)
    else if head(ProbeUrl(base, j)) then (ProbeNumber(j), j + 1)
    else ProbeFrom(base, head, j + 1)
  }

  /**
    `_detect_start_number`: the first successful probe decides; with no
    success the answer is 0, never "nothing". The result is the start number
    and the number of HEAD requests sent.
  */
  function DetectStartNumber(base: string, head: string -> bool): (r: (nat, nat))
    ensures r.0 <= 2 && 1 <= r.1 <= 6
    ensures forall i :: 0 <= i < r.1 - 1 ==> !head(ProbeUrl(base, i))
    ensures head(ProbeUrl(base, r.1 - 1)) ==> r.0 == ProbeNumber(r.1 - 1)
    ensures !head(ProbeUrl(base, r.1 - 1)) ==> r.1 == 6 && r.0 == 0
  {
    ProbeFrom(base, head, 0)
  }

  /** Every jpg probe is sent before any png probe: a jpg hit means no png was asked for. */
  lemma JpgBeforePng(base: string, head: string -> bool, n: nat)
    requires n <= 2 && head(ProbeUrl(base, n))
    ensures DetectStartNumber(base, head).1 <= 3
    ensures DetectStartNumber(base, head).0 <= n
  {
  }

  /** With no successful probe, six requests go out and the start defaults to 0. */
  lemma DetectStartNumberDefault(base: string, head: string -> bool)
    requires forall j :: 0 <= j < 6 ==> !head(ProbeUrl(base, j))
    ensures DetectStartNumber(base, head) == (0, 6)
  {
  }

  // ---------------------------------------------------------------------------
  // extract_from_ravenscans

  function ExtractFromRavenscans(page: Option<Document>, head: string -> bool): (r: Option<Template>)
    ensures page.None? ==> r.None?
    ensures page.Some? && 0 < |page.value.cdnImages| ==>
              && r.Some?
              && r.value.base == BaseUrl(page.value.cdnImages[0].path)
              && r.value.start <= page.value.cdnImages[0].index
              && (forall i :: 0 <= i < |page.value.cdnImages| ==> r.value.start <= page.value.cdnImages[i].index)
              && (exists i :: 0 <= i < |page.value.cdnImages| && page.value.cdnImages[i].index == r.value.start)
    ensures page.Some? && |page.value.cdnImages| == 0 && 0 < |page.value.picsImages| ==>
              && r.Some?
              && r.value.base == BaseUrl(page.value.picsImages[0].path)
              && (forall i :: 0 <= i < |page.value.picsImages| ==> r.value.start <= page.value.picsImages[i].index)
              && (exists i :: 0 <= i < |page.value.picsImages| && page.value.picsImages[i].index == r.value.start)
    ensures page.Some? && |page.value.cdnImages| == 0 && |page.value.picsImages| == 0 ==>
              if 0 < |page.value.cdnRefs| then
                r.Some? && r.value.base == BaseUrl(page.value.cdnRefs[0]) && r.value.start == DetectStartNumber(r.value.base, head).0
              else if 0 < |page.value.picsRefs| then
                r.Some? && r.value.base == BaseUrl(page.value.picsRefs[0]) && r.value.start == DetectStartNumber(r.value.base, head).0
              else r.None?
  {
    match page
    case None => None
    case Some(doc) =>
      if 0 < |doc.cdnImages| then
        Some(Template(BaseUrl(doc.cdnImages[0].path), MinIndex(doc.cdnImages)))
      else if 0 < |doc.picsImages| then
        Some(Template(BaseUrl(doc.picsImages[0].path), MinIndex(doc.picsImages)))
      else if 0 < |doc.cdnRefs| then
        var base := BaseUrl(doc.cdnRefs[0]);
        Some(Template(base, DetectStartNumber(base, head).0))
      else if 0 < |doc.picsRefs| then
        var base := BaseUrl(doc.picsRefs[0]);
        Some(Template(base, DetectStartNumber(base, head).0))
      else None
  }

  /** Once a CDN image URL is on the page, nothing of the manga.pics kind matters. */
  lemma CdnWins(doc: Document, pics: seq<ImageMatch>, picsRefs: seq<PathRef>, head: string -> bool)
    requires 0 < |doc.cdnImages|
    ensures ExtractFromRavenscans(Some(doc), head)
         == ExtractFromRavenscans(Some(doc.(picsImages := pics, picsRefs := picsRefs)), head)
  {
  }

  /** Start detection never fails, so a bare CDN reference shadows every bare manga.pics reference. */
  lemma CdnRefShadowsPicsRefs(doc: Document, picsRefs: seq<PathRef>, head: string -> bool)
    requires 0 < |doc.cdnRefs|
    ensures ExtractFromRavenscans(Some(doc), head)
         == ExtractFromRavenscans(Some(doc.(picsRefs := picsRefs)), head)
  {
  }

  /**
    `parse_direct_cdn_url` and `parse_direct_manga_pics_url`: the location of
    a direct image URL, with the start number probed; the image index in the
    URL itself plays no part.
  */
  function ParseDirect(m: Option<ImageMatch>, head: string -> bool): (r: Option<Template>)
    ensures r.Some? <==> m.Some?
    ensures r.Some? ==> r.value.base == BaseUrl(m.value.path) && r.value.start <= 2
  {
    match m
    case None => None
    case Some(im) =>
      var base := BaseUrl(im.path);
      Some(Template(base, DetectStartNumber(base, head).0))
  }

  lemma ParseDirectIgnoresIndex(p: PathRef, i: nat, j: nat, head: string -> bool)
    ensures ParseDirect(Some(ImageMatch(p, i)), head) == ParseDirect(Some(ImageMatch(p, j)), head)
  {
  }

  // ---------------------------------------------------------------------------
  // Chapter slugs

  /** A chapter number as it appears in a slug: `N` or `N-M`, digits only. */
  datatype SlugNumber = SlugNumber(major: string, minor: Option<string>)
  {
    predicate Valid()
    {
      0 < |major| && AllDigits(major) && (minor.Some? ==> 0 < |minor.value| && AllDigits(minor.value))
    }

    /** The slug text, `N` or `N-M`. */
    function Raw(): string
    {
      match minor
      case None => major
      case Some(m) => major + "-" + m
    }

    /** The chapter number, `N` or `N.M`. */
    function Dotted(): string
    {
      match minor
      case None => major
      case Some(m) => major + "." + m
    }
  }

  /** `chapter_raw.replace('-', '.')`. */
  function ChapterNumber(raw: string): (r: string)
    ensures |r| == |raw| && '-' !in r
  {
    ReplaceChar(raw, '-', '.')
  }

  /** The inverse of `ChapterNumber` on well-formed slugs; the source has no such step, it serves `ChapterNumberOfSlug`. */
  function ChapterSlug(number: string): (r: string)
    ensures |r| == |number| && '.' !in r
  {
    ReplaceChar(number, '.', '-')
  }

  lemma {:induction false} ChapterNumberOfSlug(n: SlugNumber)
    requires n.Valid()
    ensures ChapterNumber(n.Raw()) == n.Dotted()
    ensures ChapterSlug(n.Dotted()) == n.Raw()
  {
    assert forall i :: 0 <= i < |n.major| ==> n.major[i] != '-' && n.major[i] != '.';
    if n.minor.Some? {
      var m := n.minor.value;
      assert forall i :: 0 <= i < |m| ==> m[i] != '-' && m[i] != '.';
    }
  }

  /** A slug number can be recovered from its dotted chapter number. */
  lemma ChapterNumberInjective(a: SlugNumber, b: SlugNumber)
    requires a.Valid() && b.Valid() && a.Dotted() == b.Dotted()
    ensures a == b
  {
    ChapterNumberOfSlug(a);
    ChapterNumberOfSlug(b);
    DottedParts(a);
    DottedParts(b);
  }

  lemma DottedParts(n: SlugNumber)
    requires n.Valid()
    ensures IndexOf(n.Dotted(), '.') == if n.minor.None? then None else Some(|n.major|)
    ensures n.minor.Some? ==> n.Dotted()[..|n.major|] == n.major && n.Dotted()[|n.major| + 1..] == n.minor.value
  {
    assert '.' !in n.major by {
      assert forall i :: 0 <= i < |n.major| ==> n.major[i] != '.';
    }
    if n.minor.Some? {
      var d := n.Dotted();
      assert d[..|n.major|] == n.major;
      assert d[|n.major| + 1..] == n.minor.value;
    }
  }

  /** A chapter reference matched in a URL: the series slug and the chapter number. */
  datatype ChapterRefMatch = ChapterRefMatch(series: string, number: SlugNumber)

  datatype ChapterInfo = ChapterInfo(series: string, chapter: string, title: string)

  const UnknownInfo := ChapterInfo("Unknown Series", "1", "Comic Chapter")

  function InfoFrom(m: ChapterRefMatch, titleCase: string -> string): ChapterInfo
  {
    var series := titleCase(ReplaceChar(m.series, '-', ' '));
    var chapter := ChapterNumber(m.number.Raw());
    ChapterInfo(series, chapter, series + " - Chapter " + chapter)
  }

  /**
    `extract_chapter_info`: the `<series>-chapter-<slug>` match in the URL
    path first, then the `manga.pics/<series>/chapter-<slug>` match, else
    the fixed fallback. `titleCase` stands for Python's `str.title`.
  */
  function ExtractChapterInfo(pathMatch: Option<ChapterRefMatch>, picsMatch: Option<ChapterRefMatch>,
                              titleCase: string -> string): (r: ChapterInfo)
    ensures pathMatch.Some? && pathMatch.value.number.Valid() ==>
              r.chapter == pathMatch.value.number.Dotted()
              && r.series == titleCase(ReplaceChar(pathMatch.value.series, '-', ' '))
    ensures pathMatch.None? && picsMatch.Some? && picsMatch.value.number.Valid() ==>
              r.chapter == picsMatch.value.number.Dotted()
              && r.series == titleCase(ReplaceChar(picsMatch.value.series, '-', ' '))
    ensures pathMatch.None? && picsMatch.None? ==> r == UnknownInfo
    ensures pathMatch.Some? || picsMatch.Some? ==> r.title == r.series + " - Chapter " + r.chapter
  {
    if pathMatch.Some? then
      ChapterNumberOfValidSlug(pathMatch.value.number);
      InfoFrom(pathMatch.value, titleCase)
    else if picsMatch.Some? then
      ChapterNumberOfValidSlug(picsMatch.value.number);
      InfoFrom(picsMatch.value, titleCase)
    else UnknownInfo
  }

  /** The slug conversion, stated for any slug and applying to the well-formed ones. */
  lemma ChapterNumberOfValidSlug(n: SlugNumber)
    ensures n.Valid() ==> ChapterNumber(n.Raw()) == n.Dotted()
  {
    if n.Valid() {
      ChapterNumberOfSlug(n);
    }
  }

  /**
    `get_series_url_from_chapter_url`: `slug` is what the anchored
    `/<slug>-chapter-<n>/?$` match on the path captured, if it matched.
  */
  function SeriesUrl(slug: Option<string>): (r: Option<string>)
    ensures r.Some? <==> slug.Some?
    ensures r.Some? ==>
              && |r.value| == 30 + |slug.value|
              && r.value[..29] == "https://ravenscans.org/manga/"
              && r.value[29..|r.value| - 1] == slug.value
              && r.value[|r.value| - 1] == '/'
  {
    match slug
    case None => None
    case Some(s) => Some("https://ravenscans.org/manga/" + s + "/")
  }

  // ---------------------------------------------------------------------------
  // Routing in find_pattern

  /** `cdn<digits>.ravenscans.org` occurs in `url` with "cdn" at `i` and the dot at `j`. */
  predicate CdnHostAt(url: string, i: int, j: int)
  {
    0 <= i && i + 3 < j && j + 15 <= |url|
    && OccursAt(url, "cdn", i)
    && AllDigits(url[i + 3..j])
    && OccursAt(url, ".ravenscans.org", j)
  }

  /** `re.search(r'cdn\d+\.ravenscans\.org', url)`. */
  predicate HasCdnHost(url: string)
  {
    exists i, j | 0 <= i < j < |url| :: CdnHostAt(url, i, j)
  }

  datatype Route = DirectCdn | RavenPage | DirectPics | Unsupported

  /** The dispatch at the top of `find_pattern`. */
  function RouteOf(url: string): (r: Route)
    ensures r.DirectCdn? <==> HasCdnHost(url)
    ensures r.RavenPage? <==> !HasCdnHost(url) && Contains(url, "ravenscans.org")
    ensures r.DirectPics? <==> !HasCdnHost(url) && !Contains(url, "ravenscans.org") && Contains(url, "manga.pics")
  {
    if HasCdnHost(url) then DirectCdn
    else if Contains(url, "ravenscans.org") then RavenPage
    else if Contains(url, "manga.pics") then DirectPics
    else Unsupported
  }

  /**
    What the fixed regexes capture from one input URL. `direct` is the
    capture of the image-URL regex of the URL's own route: the CDN pattern
    for a CDN URL, the manga.pics pattern for a manga.pics URL; it is not
    consulted for the other routes.
  */
  datatype UrlParse = UrlParse(
    direct: Option<ImageMatch>,
    pathChapter: Option<ChapterRefMatch>,
    picsChapter: Option<ChapterRefMatch>)

  datatype Payload = Payload(base: string, start: nat, series: string, chapter: string, title: string)

  /**
    `find_pattern`: route the URL, obtain a template from the matching
    parser, then attach the chapter information. `page` is what fetching
    the URL yields; it is consulted only for a RavenScans page.
  */
  function FindPattern(url: string, parsed: UrlParse, page: Option<Document>,
                       head: string -> bool, titleCase: string -> string): (r: Option<Payload>)
    ensures RouteOf(url).Unsupported? ==> r.None?
    ensures RouteOf(url).DirectCdn? || RouteOf(url).DirectPics? ==> (r.Some? <==> parsed.direct.Some?)
    ensures RouteOf(url).RavenPage? ==> (r.Some? <==> ExtractFromRavenscans(page, head).Some?)
    ensures r.Some? ==> r.value.start <= 2 || RouteOf(url).RavenPage?
    ensures r.Some? && (RouteOf(url).DirectCdn? || RouteOf(url).DirectPics?) ==>
              var t := ParseDirect(parsed.direct, head);
              t.Some? && r.value.base == t.value.base && r.value.start == t.value.start
    ensures r.Some? && RouteOf(url).RavenPage? ==>
              var t := ExtractFromRavenscans(page, head);
              t.Some? && r.value.base == t.value.base && r.value.start == t.value.start
    ensures r.Some? ==>
              var info := ExtractChapterInfo(parsed.pathChapter, parsed.picsChapter, titleCase);
              r.value.series == info.series && r.value.chapter == info.chapter && r.value.title == info.title
  {
    var t :=
      match RouteOf(url)
      case DirectCdn => ParseDirect(parsed.direct, head)
      case RavenPage => ExtractFromRavenscans(page, head)
      case DirectPics => ParseDirect(parsed.direct, head)
      case Unsupported => None;
    if t.None? then None
    else
      var info := ExtractChapterInfo(parsed.pathChapter, parsed.picsChapter, titleCase);
      Some(Payload(t.value.base, t.value.start, info.series, info.chapter, info.title))
  }

  /** Every '.' of `url` sits at position `k`. */
  predicate OnlyDotAt(url: string, k: int)
  {
    forall i :: 0 <= i < |url| && url[i] == '.' ==> i == k
  }

  /**
    The series-page URL the downloader builds for pattern detection names
    the host `ravenscans.com`, which no branch of `find_pattern` accepts:
    whenever the slug has no dot, the route is Unsupported.
  */
  lemma DotComUnsupported(slug: string, chapter: int)
    requires '.' !in slug
    ensures RouteOf("https://ravenscans.com/" + slug + "-chapter-" + IntStr(chapter) + "/").Unsupported?
  {
    var url := "https://ravenscans.com/" + slug + "-chapter-" + IntStr(chapter) + "/";
    PageUrlDots("https://ravenscans.com/", slug, chapter);
    assert url[..18] == url[..23][..18];
    NoCdnHost(url);
    NoRavenOrg(url);
    NoMangaPics(url);
  }

  /**
    With the `ravenscans.org` host the downloader evidently meant, the same
    series-page URL is routed to the page scraper.
  */
  lemma DotOrgRoutesToPage(slug: string, chapter: int)
    requires '.' !in slug
    ensures RouteOf("https://ravenscans.org/" + slug + "-chapter-" + IntStr(chapter) + "/").RavenPage?
  {
    var pre := "https://ravenscans.org/";
    var url := pre + slug + "-chapter-" + IntStr(chapter) + "/";
    PageUrlDots(pre, slug, chapter);
    NoCdnHost(url);
    assert OccursAt(url, "ravenscans.org", 8) by {
      assert url[8..22] == url[..23][8..22];
    }
  }

  /** The only dot of a chapter-page URL on either RavenScans host is the one before the top-level domain. */
  lemma PageUrlDots(pre: string, slug: string, chapter: int)
    requires pre == "https://ravenscans.com/" || pre == "https://ravenscans.org/"
    requires '.' !in slug
    ensures var url := pre + slug + "-chapter-" + IntStr(chapter) + "/";
            && url[..23] == pre && OnlyDotAt(url, 18)
  {
    var num := IntStr(chapter);
    var rest := slug + "-chapter-" + num + "/";
    var url := pre + rest;
    assert url == pre + slug + "-chapter-" + num + "/";
    assert url[..23] == pre;
    assert '.' !in num by {
      forall i | 0 <= i < |num| ensures num[i] != '.' {
        assert IsDigit(num[i]) || num[i] == '-';
      }
    }
    assert '.' !in "-chapter-";
    assert '.' !in rest;
    forall i | 23 <= i < |url| ensures url[i] != '.' {
      assert url[i] == rest[i - 23];
    }
    forall i | 0 <= i < 23 && i != 18 ensures url[i] != '.' {
      assert url[i] == pre[i];
    }
  }

  /** A URL on either RavenScans host whose only dot is the one before the top-level domain has no CDN host. */
  lemma NoCdnHost(url: string)
    requires |url| >= 23 && url[..18] == "https://ravenscans" && OnlyDotAt(url, 18)
    ensures !HasCdnHost(url)
  {
    forall i, j ensures !CdnHostAt(url, i, j) {
      if 0 <= i && i + 3 < j && j + 15 <= |url| {
        if j != 18 {
          assert url[j..j + 15][0] == url[j] != '.';
        } else if i != 14 {
          assert url[i..i + 3][0] == url[i] == url[..18][i] != 'c';
        } else {
          assert url[i..i + 3][1] == url[15] == url[..18][15] != 'd';
        }
      }
    }
  }

  lemma NoRavenOrg(url: string)
    requires |url| >= 23 && url[..23] == "https://ravenscans.com/" && OnlyDotAt(url, 18)
    ensures !Contains(url, "ravenscans.org")
  {
    var needle := "ravenscans.org";
    assert needle[13] == 'g' && needle[10] == '.';
    forall i | 0 <= i <= |url| ensures !OccursAt(url, needle, i) {
      if i + 14 <= |url| {
        var w := url[i..i + 14];
        if i == 8 {
          assert w[13] == url[21] == 'm';
        } else {
          assert w[10] == url[i + 10] != '.';
        }
        assert w != needle;
      }
    }
  }

  lemma NoMangaPics(url: string)
    requires |url| >= 23 && url[..23] == "https://ravenscans.com/" && OnlyDotAt(url, 18)
    ensures !Contains(url, "manga.pics")
  {
    var needle := "manga.pics";
    assert needle[0] == 'm' && needle[5] == '.';
    forall i | 0 <= i <= |url| ensures !OccursAt(url, needle, i) {
      if i + 10 <= |url| {
        var w := url[i..i + 10];
        if i == 13 {
          assert w[0] == url[13] == 's';
        } else {
          assert w[5] == url[i + 5] != '.';
        }
        assert w != needle;
      }
    }
  }

  // ---------------------------------------------------------------------------
  // scrape_chapter_list

  /** One chapter link found on a series page: its URL and the slug number in it. */
  datatype LinkMatch = LinkMatch(url: string, number: SlugNumber)

  /** One scraped chapter: the dotted number and its URL. */
  datatype ChapterRef = ChapterRef(number: string, url: string)

  function RefNumber(c: ChapterRef): string { c.number }

  /**
    `chapter_sort_key`: split on '.', read the first one or two parts as
    numbers, and fall back to (0, 0) when a part is not a digit run.
  */
  function SortKey(number: string): (r: (nat, nat))
  {
    match IndexOf(number, '.')
    case None =>
      if 0 < |number| && AllDigits(number) then (DigitsValue(number), 0) else (0, 0)
    case Some(i) =>
      var a := number[..i];
      var rest := number[i + 1..];
      var b := match IndexOf(rest, '.') case None => rest case Some(j) => rest[..j];
      if 0 < |a| && AllDigits(a) && 0 < |b| && AllDigits(b) then (DigitsValue(a), DigitsValue(b)) else (0, 0)
  }

  /** For every number a chapter link can carry, the key is (integer part, fractional part or 0). */
  lemma SortKeyOfSlug(n: SlugNumber)
    requires n.Valid()
    ensures SortKey(n.Dotted()) == (DigitsValue(n.major), if n.minor.Some? then DigitsValue(n.minor.value) else 0)
  {
    DottedParts(n);
    if n.minor.Some? {
      var m := n.minor.value;
      assert '.' !in m by {
        assert forall i :: 0 <= i < |m| ==> m[i] != '.';
      }
    }
  }

  function RefKey(c: ChapterRef): (nat, nat) { SortKey(c.number) }

  /** Python's tuple `<=` on pairs of numbers. */
  predicate PairLe(a: (nat, nat), b: (nat, nat))
  {
    a.0 < b.0 || (a.0 == b.0 && a.1 <= b.1)
  }

  lemma PairLeTotal()
    ensures TotalOrder(PairLe)
  {
  }

  function ToRef(m: LinkMatch): ChapterRef
  {
    ChapterRef(ChapterNumber(m.number.Raw()), m.url)
  }

  function ToRefs(ms: seq<LinkMatch>): (r: seq<ChapterRef>)
    ensures |r| == |ms| && forall i :: 0 <= i < |ms| ==> r[i] == ToRef(ms[i])
  {
    seq(|ms|, i requires 0 <= i < |ms| => ToRef(ms[i]))
  }

  /**
    `scrape_chapter_list`: one entry per chapter number, the URL of its
    first link kept, sorted by (integer part, fractional part) with ties in
    first-seen order. A failed fetch and a page without links both give [].
  */
  function ScrapeChapterList(page: Option<seq<LinkMatch>>): (r: seq<ChapterRef>)
    ensures page.None? ==> r == []
    ensures DistinctKeys(r, RefNumber)
    ensures SortedBy(r, RefKey, PairLe)
    ensures page.Some? ==> forall k :: HasKey(r, RefNumber, k) <==> HasKey(ToRefs(page.value), RefNumber, k)
    ensures page.Some? ==> forall i :: 0 <= i < |r| ==>
              HasKey(ToRefs(page.value), RefNumber, r[i].number) &&
              r[i] == ToRefs(page.value)[FirstIndex(ToRefs(page.value), RefNumber, r[i].number)]
  {
    match page
    case None => []
    case Some(ms) =>
      PairLeTotal();
      SortedDedup(ToRefs(ms), RefNumber, RefKey, PairLe);
      SortBy(DedupBy(ToRefs(ms), RefNumber), RefKey, PairLe)
  }

  /** Among chapters of equal sort key, the order is the order of first appearance. */
  lemma ScrapeStable(ms: seq<LinkMatch>, key: (nat, nat))
    ensures FilterKey(ScrapeChapterList(Some(ms)), RefKey, key)
         == FilterKey(DedupBy(ToRefs(ms), RefNumber), RefKey, key)
  {
    PairLeTotal();
    SortByStable(DedupBy(ToRefs(ms), RefNumber), RefKey, PairLe, key);
  }

  /** Links to chapters 10, 2, 1-1, 1 and 2 again, in page order. */
  const ExampleLinks: seq<LinkMatch> := [
    LinkMatch("u10", SlugNumber("10", None)), LinkMatch("u2", SlugNumber("2", None)),
    LinkMatch("u1-1", SlugNumber("1", Some("1"))), LinkMatch("u1", SlugNumber("1", None)),
    LinkMatch("u2b", SlugNumber("2", None))]

  const C10 := ChapterRef("10", "u10")
  const C2 := ChapterRef("2", "u2")
  const C11 := ChapterRef("1.1", "u1-1")
  const C1 := ChapterRef("1", "u1")

  lemma ExampleRefs()
    ensures ToRefs(ExampleLinks) == [C10, C2, C11, C1, ChapterRef("2", "u2b")]
  {
    assert SlugNumber("1", Some("1")).Raw() == "1-1";
    assert ChapterNumber("1-1") == "1.1" && ChapterNumber("10") == "10";
    assert ChapterNumber("2") == "2" && ChapterNumber("1") == "1";
  }

  lemma ExampleDistinct()
    ensures DistinctKeys([C10, C2, C11, C1], RefNumber)
  {
  }

  lemma DedupRepeat(d: seq<ChapterRef>, x: ChapterRef)
    requires DistinctKeys(d, RefNumber)
    requires 1 < |d| && x.number == d[1].number
    ensures DedupBy(d + [x], RefNumber) == d
  {
    DedupByDistinct(d, RefNumber);
    DedupBySnoc(d, x, RefNumber);
    assert RefNumber(d[1]) == x.number;
  }

  lemma ExampleKeys()
    ensures RefKey(C10) == (10, 0) && RefKey(C2) == (2, 0) && RefKey(C11) == (1, 1) && RefKey(C1) == (1, 0)
  {
    SortKeyOfSlug(SlugNumber("10", None));
    SortKeyOfSlug(SlugNumber("2", None));
    SortKeyOfSlug(SlugNumber("1", Some("1")));
    SortKeyOfSlug(SlugNumber("1", None));
  }

  /** Four distinct chapters in descending key order, then a repeat of the second, list ascending. */
  lemma ScrapeDescending(ms: seq<LinkMatch>, a: ChapterRef, b: ChapterRef, c: ChapterRef, d: ChapterRef, x: ChapterRef)
    requires ToRefs(ms) == [a, b, c, d, x]
    requires DistinctKeys([a, b, c, d], RefNumber) && x.number == b.number
    requires !PairLe(RefKey(a), RefKey(b)) && !PairLe(RefKey(b), RefKey(c)) && !PairLe(RefKey(c), RefKey(d))
    requires !PairLe(RefKey(a), RefKey(c)) && !PairLe(RefKey(a), RefKey(d)) && !PairLe(RefKey(b), RefKey(d))
    ensures ScrapeChapterList(Some(ms)) == [d, c, b, a]
  {
    assert [a, b, c, d, x] == [a, b, c, d] + [x];
    DedupRepeat([a, b, c, d], x);
    SortReversed4(a, b, c, d, RefKey, PairLe);
  }

  /** The worked example lists as 1, 1.1, 2, 10, each with the URL of its first link. */
  lemma ScrapeExample()
    ensures ScrapeChapterList(Some(ExampleLinks)) == [C1, C11, C2, C10]
  {
    ExampleRefs();
    ExampleDistinct();
    ExampleKeys();
    ScrapeDescending(ExampleLinks, C10, C2, C11, C1, ChapterRef("2", "u2b"));
  }
}

=== FILE: prefetch.dfy ===
/**
  The reader's background prefetch bookkeeping: when a chapter is opened,
  the three chapters after it are marked "downloading" in a status map
  keyed `<series>_<chapter>` (only those not already present), handed to
  the downloader, and their entries then settled from the downloader's
  per-chapter results, or all marked "error" if the call raises. A
  separate endpoint lists the statuses belonging to one series.
*/
module Prefetch {
  import opened Wrappers
  import opened Text
  import Dicts

  /** One entry of the status map. */
  datatype DownloadStatus = DownloadStatus(chapterNum: int, status: string, progress: int, message: string)

  /** The status map, in insertion order. */
  type Registry = Dicts.Dict<string, DownloadStatus>

  /** How many chapters past the current one are fetched. */
  const Lookahead := 3

  /** The status map key of chapter `n` of `series`. */
  function StatusKey(series: string, n: int): (r: string)
    ensures |r| == |series| + 1 + |IntStr(n)| && r[|series|] == '_'
  {
    series + "_" + IntStr(n)
  }

  /** Chapter `n` is one of the three after `current`. */
  predicate Ahead(current: int, n: int)
  {
    current < n <= current + Lookahead
  }

  function Starting(n: int): DownloadStatus
  {
    DownloadStatus(n, "downloading", 0, "Starting download...")
  }

  function Done(n: int, ok: bool): DownloadStatus
  {
    if ok then DownloadStatus(n, "complete", 100, "Download complete")
    else DownloadStatus(n, "not_available", 0, "Chapter not available")
  }

  function Errored(n: int, message: string): DownloadStatus
  {
    DownloadStatus(n, "error", 0, message)
  }

  /**
    A key names exactly one series and chapter: the chapter text holds no
    underscore, so the key's last underscore is the one after the series.
  */
  lemma StatusKeyInjective(s: string, a: int, t: string, b: int)
    requires StatusKey(s, a) == StatusKey(t, b)
    ensures s == t && a == b
  {
    var k := StatusKey(s, a);
    assert |s| == |t|;
    assert s == k[..|s|] == t;
    assert IntStr(a) == k[|s| + 1..] == IntStr(b);
    IntStrInjective(a, b);
  }

  /** The keys of the scheduled chapters. */
  function ScheduledKeys(series: string, chapters: seq<int>): (r: seq<string>)
    ensures |r| == |chapters| && forall i :: 0 <= i < |r| ==> r[i] == StatusKey(series, chapters[i])
  {
    seq(|chapters|, i requires 0 <= i < |chapters| => StatusKey(series, chapters[i]))
  }

  lemma ScheduledKeysSnoc(series: string, chapters: seq<int>, n: int)
    ensures ScheduledKeys(series, chapters + [n]) == ScheduledKeys(series, chapters) + [StatusKey(series, n)]
  {
  }

  /**
    The marking loop: chapter current+i (i = 1, 2, 3) is scheduled and
    marked "downloading" exactly when its key is absent; keys already
    present, whatever their status, are left alone and never retried.
  */
  /** Those of the chapters current+1 .. current+i-1 whose key is absent, in order. */
  function AbsentBefore(reg: Registry, series: string, current: int, i: int): seq<int>
    decreases i
  {
    if i <= 1 then []
    else
      var n := current + i - 1;
      AbsentBefore(reg, series, current, i - 1) + (if Dicts.HasKey(reg, StatusKey(series, n)) then [] else [n])
  }

  method MarkAhead(reg: Registry, series: string, current: int) returns (marked: Registry, chapters: seq<int>)
    ensures chapters == AbsentBefore(reg, series, current, Lookahead + 1)
    ensures forall n :: n in chapters <==> Ahead(current, n) && !Dicts.HasKey(reg, StatusKey(series, n))
    ensures forall i, j :: 0 <= i < j < |chapters| ==> chapters[i] < chapters[j]
    ensures forall n :: Ahead(current, n) ==> Dicts.HasKey(marked, StatusKey(series, n))
    ensures forall n :: n in chapters ==> Dicts.Get(marked, StatusKey(series, n)) == Some(Starting(n))
    ensures forall k :: k !in ScheduledKeys(series, chapters) ==> Dicts.Get(marked, k) == Dicts.Get(reg, k)
  {
    marked, chapters := reg, [];
    var i := 1;
    while i <= Lookahead
      invariant 1 <= i <= Lookahead + 1
      invariant MarkState(reg, series, current, i, marked, chapters)
    {
      marked, chapters := MarkOne(reg, series, current, i, marked, chapters);
      i := i + 1;
    }
  }

  /** What holds after chapters current+1 .. current+i-1 have been looked at. */
  ghost predicate MarkState(reg: Registry, series: string, current: int, i: int, marked: Registry, chapters: seq<int>)
  {
    ScheduleState(reg, series, current, i, chapters) && RegistryState(reg, series, current, i, marked, chapters)
  }

  /** The chapters scheduled so far: the absent ones, in increasing order. */
  ghost predicate ScheduleState(reg: Registry, series: string, current: int, i: int, chapters: seq<int>)
  {
    && 1 <= i
    && chapters == AbsentBefore(reg, series, current, i)
    && (forall n :: n in chapters <==> current < n < current + i && !Dicts.HasKey(reg, StatusKey(series, n)))
    && (forall a, b :: 0 <= a < b < |chapters| ==> chapters[a] < chapters[b])
  }

  /** The status map so far: every chapter looked at has a key, the scheduled ones say "downloading", nothing else moved. */
  ghost predicate RegistryState(reg: Registry, series: string, current: int, i: int, marked: Registry, chapters: seq<int>)
  {
    && (forall n :: current < n < current + i ==> Dicts.HasKey(marked, StatusKey(series, n)))
    && (forall n :: n in chapters ==> Dicts.Get(marked, StatusKey(series, n)) == Some(Starting(n)))
    && (forall k :: k !in ScheduledKeys(series, chapters) ==> Dicts.Get(marked, k) == Dicts.Get(reg, k))
  }

  /** One turn of the marking loop: chapter current+i is marked unless its key is already there. */
  method MarkOne(reg: Registry, series: string, current: int, i: int, marked: Registry, chapters: seq<int>)
    returns (marked': Registry, chapters': seq<int>)
    requires MarkState(reg, series, current, i, marked, chapters)
    ensures MarkState(reg, series, current, i + 1, marked', chapters')
  {
    var n := current + i;
    var key := StatusKey(series, n);
    if Dicts.Get(marked, key).None? {
      MarkAdded(reg, series, current, i, marked, chapters);
      marked', chapters' := Dicts.Put(marked, key, Starting(n)), chapters + [n];
    } else {
      MarkSkipped(reg, series, current, i, marked, chapters);
      marked', chapters' := marked, chapters;
    }
  }

  /** The key of chapter current+i is not among those already scheduled. */
  lemma NotYetScheduled(reg: Registry, series: string, current: int, i: int, marked: Registry, chapters: seq<int>)
    requires MarkState(reg, series, current, i, marked, chapters)
    ensures StatusKey(series, current + i) !in ScheduledKeys(series, chapters)
    ensures Dicts.Get(marked, StatusKey(series, current + i)) == Dicts.Get(reg, StatusKey(series, current + i))
    ensures forall m :: m in chapters ==> m < current + i
  {
    var n := current + i;
    forall m | m in chapters ensures m < n {
    }
    if StatusKey(series, n) in ScheduledKeys(series, chapters) {
      var j :| 0 <= j < |chapters| && ScheduledKeys(series, chapters)[j] == StatusKey(series, n);
      KeysDiffer(series, chapters[j], n);
    }
  }

  /** A key already present: nothing is scheduled or written. */
  lemma MarkSkipped(reg: Registry, series: string, current: int, i: int, marked: Registry, chapters: seq<int>)
    requires MarkState(reg, series, current, i, marked, chapters)
    requires Dicts.HasKey(marked, StatusKey(series, current + i))
    ensures MarkState(reg, series, current, i + 1, marked, chapters)
  {
    NotYetScheduled(reg, series, current, i, marked, chapters);
  }

  /** A key absent: the chapter is scheduled and marked "downloading". */
  lemma MarkAdded(reg: Registry, series: string, current: int, i: int, marked: Registry, chapters: seq<int>)
    requires MarkState(reg, series, current, i, marked, chapters)
    requires !Dicts.HasKey(marked, StatusKey(series, current + i))
    ensures MarkState(reg, series, current, i + 1, Dicts.Put(marked, StatusKey(series, current + i), Starting(current + i)), chapters + [current + i])
  {
    NotYetScheduled(reg, series, current, i, marked, chapters);
    ScheduleAdded(reg, series, current, i, chapters);
    RegistryAdded(reg, series, current, i, marked, chapters);
  }

  lemma ScheduleAdded(reg: Registry, series: string, current: int, i: int, chapters: seq<int>)
    requires ScheduleState(reg, series, current, i, chapters)
    requires !Dicts.HasKey(reg, StatusKey(series, current + i))
    ensures ScheduleState(reg, series, current, i + 1, chapters + [current + i])
  {
    var n := current + i;
    var cs := chapters + [n];
    forall m ensures m in cs <==> current < m < current + i + 1 && !Dicts.HasKey(reg, StatusKey(series, m)) {
      assert m in cs <==> m in chapters || m == n;
    }
    forall a, b | 0 <= a < b < |cs| ensures cs[a] < cs[b] {
      if b == |chapters| {
        assert cs[a] in chapters;
      }
    }
  }

  lemma RegistryAdded(reg: Registry, series: string, current: int, i: int, marked: Registry, chapters: seq<int>)
    requires RegistryState(reg, series, current, i, marked, chapters)
    requires forall m :: m in chapters ==> m < current + i
    ensures RegistryState(reg, series, current, i + 1, Dicts.Put(marked, StatusKey(series, current + i), Starting(current + i)), chapters + [current + i])
  {
    var n := current + i;
    var next := Dicts.Put(marked, StatusKey(series, n), Starting(n));
    var cs := chapters + [n];
    MarkStep(reg, marked, series, chapters, n);
    forall m | current < m < current + i + 1 ensures Dicts.HasKey(next, StatusKey(series, m)) {
      if m != n {
        assert Dicts.Get(next, StatusKey(series, m)) == Dicts.Get(marked, StatusKey(series, m));
      }
    }
    forall m | m in cs ensures Dicts.Get(next, StatusKey(series, m)) == Some(Starting(m)) {
      if m != n {
        assert m in chapters;
        assert Dicts.Get(next, StatusKey(series, m)) == Dicts.Get(marked, StatusKey(series, m));
      }
    }
  }

  /** Marking chapter `n`: its key now holds "downloading", every other key is as before. */
  lemma MarkStep(reg: Registry, marked: Registry, series: string, chapters: seq<int>, n: int)
    requires forall k :: k !in ScheduledKeys(series, chapters) ==> Dicts.Get(marked, k) == Dicts.Get(reg, k)
    ensures var next := Dicts.Put(marked, StatusKey(series, n), Starting(n));
            && Dicts.Get(next, StatusKey(series, n)) == Some(Starting(n))
            && (forall m :: m != n ==> Dicts.Get(next, StatusKey(series, m)) == Dicts.Get(marked, StatusKey(series, m)))
            && (forall k :: k !in ScheduledKeys(series, chapters + [n]) ==> Dicts.Get(next, k) == Dicts.Get(reg, k))
  {
    var key := StatusKey(series, n);
    ScheduledKeysSnoc(series, chapters, n);
    forall k {
      Dicts.PutGet(marked, key, Starting(n), k);
    }
    forall m | m != n {
      KeysDiffer(series, m, n);
    }
  }

  /** What the downloader call gives back: its per-chapter result dict, or an exception. */
  datatype Reply = Finished(results: Dicts.Dict<int, bool>) | Raised(message: string)

  /** The loop over the result dict: each reported chapter gets its final status. */
  function Settle(reg: Registry, series: string, results: Dicts.Dict<int, bool>): (r: Registry)
    ensures |reg| <= |r|
    decreases |results|
  {
    if |results| == 0 then reg
    else
      var (n, ok) := results[0];
      Settle(Dicts.Put(reg, StatusKey(series, n), Done(n, ok)), series, results[1..])
  }

  /** Chapters the downloader did not report keep the status they had. */
  lemma {:induction false} SettleUnreported(reg: Registry, series: string, results: Dicts.Dict<int, bool>, k: string)
    requires forall i :: 0 <= i < |results| ==> StatusKey(series, results[i].0) != k
    ensures Dicts.Get(Settle(reg, series, results), k) == Dicts.Get(reg, k)
    decreases |results|
  {
    if |results| > 0 {
      var (n, ok) := results[0];
      var next := Dicts.Put(reg, StatusKey(series, n), Done(n, ok));
      Dicts.PutGet(reg, StatusKey(series, n), Done(n, ok), k);
      SettleUnreported(next, series, results[1..], k);
    }
  }

  /** A reported chapter ends as "complete" or "not_available" according to its result. */
  lemma {:induction false} SettleReported(reg: Registry, series: string, results: Dicts.Dict<int, bool>, c: int)
    requires Dicts.UniqueKeys(results) && Dicts.Get(results, c).Some?
    ensures Dicts.Get(Settle(reg, series, results), StatusKey(series, c)) == Some(Done(c, Dicts.Get(results, c).value))
    decreases |results|
  {
    var (n, ok) := results[0];
    var next := Dicts.Put(reg, StatusKey(series, n), Done(n, ok));
    if n == c {
      Dicts.PutGet(reg, StatusKey(series, n), Done(n, ok), StatusKey(series, c));
      forall i | 0 <= i < |results[1..]| ensures StatusKey(series, results[1..][i].0) != StatusKey(series, c) {
        if StatusKey(series, results[1..][i].0) == StatusKey(series, c) {
          StatusKeyInjective(series, results[1..][i].0, series, c);
        }
      }
      SettleUnreported(next, series, results[1..], StatusKey(series, c));
    } else {
      SettleReported(next, series, results[1..], c);
    }
  }

  /** The exception handler: all three chapters after `current` are overwritten with "error". */
  function Fail(reg: Registry, series: string, current: int, message: string): (r: Registry)
  {
    var a := Dicts.Put(reg, StatusKey(series, current + 1), Errored(current + 1, message));
    var b := Dicts.Put(a, StatusKey(series, current + 2), Errored(current + 2, message));
    Dicts.Put(b, StatusKey(series, current + 3), Errored(current + 3, message))
  }

  /** After the handler each of the three keys holds "error". */
  lemma FailErrors(reg: Registry, series: string, current: int, message: string, n: int)
    requires Ahead(current, n)
    ensures Dicts.Get(Fail(reg, series, current, message), StatusKey(series, n)) == Some(Errored(n, message))
  {
    var a := Dicts.Put(reg, StatusKey(series, current + 1), Errored(current + 1, message));
    var b := Dicts.Put(a, StatusKey(series, current + 2), Errored(current + 2, message));
    var k := StatusKey(series, n);
    if n != current + 3 {
      KeysDiffer(series, n, current + 3);
      if n != current + 2 {
        KeysDiffer(series, n, current + 2);
        Dicts.PutGet(reg, StatusKey(series, current + 1), Errored(current + 1, message), k);
      }
      Dicts.PutGet(a, StatusKey(series, current + 2), Errored(current + 2, message), k);
    }
    Dicts.PutGet(b, StatusKey(series, current + 3), Errored(current + 3, message), k);
  }

  /** The handler touches no key but the three. */
  lemma FailOthers(reg: Registry, series: string, current: int, message: string, k: string)
    requires forall n :: Ahead(current, n) ==> StatusKey(series, n) != k
    ensures Dicts.Get(Fail(reg, series, current, message), k) == Dicts.Get(reg, k)
  {
    var a := Dicts.Put(reg, StatusKey(series, current + 1), Errored(current + 1, message));
    var b := Dicts.Put(a, StatusKey(series, current + 2), Errored(current + 2, message));
    assert Ahead(current, current + 1) && Ahead(current, current + 2) && Ahead(current, current + 3);
    Dicts.PutGet(reg, StatusKey(series, current + 1), Errored(current + 1, message), k);
    Dicts.PutGet(a, StatusKey(series, current + 2), Errored(current + 2, message), k);
    Dicts.PutGet(b, StatusKey(series, current + 3), Errored(current + 3, message), k);
  }

  /** Different chapters of one series have different keys. */
  lemma KeysDiffer(series: string, m: int, n: int)
    requires m != n
    ensures StatusKey(series, m) != StatusKey(series, n)
  {
    if StatusKey(series, m) == StatusKey(series, n) {
      StatusKeyInjective(series, m, series, n);
    }
  }

  /**
    `trigger_background_download`: mark, call the downloader on the
    scheduled chapters (the reply is whatever it returns or raises), then
    settle. Afterwards all three keys exist, so nothing ahead of `current`
    is ever scheduled again.
  */
  method Trigger(reg: Registry, series: string, current: int, download: seq<int> -> Reply) returns (r: Registry, scheduled: seq<int>)
    ensures forall n :: n in scheduled <==> Ahead(current, n) && !Dicts.HasKey(reg, StatusKey(series, n))
    ensures forall i, j :: 0 <= i < j < |scheduled| ==> scheduled[i] < scheduled[j]
    ensures scheduled == AbsentBefore(reg, series, current, Lookahead + 1)
    ensures forall n :: Ahead(current, n) ==> Dicts.HasKey(r, StatusKey(series, n))
    ensures download(scheduled).Raised? ==>
              forall n :: Ahead(current, n) ==> Dicts.Get(r, StatusKey(series, n)) == Some(Errored(n, download(scheduled).message))
    ensures download(scheduled).Finished? && Dicts.UniqueKeys(download(scheduled).results) ==>
              forall c :: Dicts.Get(download(scheduled).results, c).Some? ==>
                Dicts.Get(r, StatusKey(series, c)) == Some(Done(c, Dicts.Get(download(scheduled).results, c).value))
    ensures download(scheduled).Finished? ==>
              forall n :: n in scheduled && Dicts.Get(download(scheduled).results, n).None? ==>
                Dicts.Get(r, StatusKey(series, n)) == Some(Starting(n))
    ensures download(scheduled).Finished? ==>
              forall n :: Ahead(current, n) && n !in scheduled && Dicts.Get(download(scheduled).results, n).None? ==>
                Dicts.Get(r, StatusKey(series, n)) == Dicts.Get(reg, StatusKey(series, n))
    ensures download(scheduled).Raised? ==>
              forall k :: (forall n :: Ahead(current, n) ==> StatusKey(series, n) != k) ==>
                Dicts.Get(r, k) == Dicts.Get(reg, k)
    ensures download(scheduled).Finished? ==>
              forall k :: && (forall n :: Ahead(current, n) ==> StatusKey(series, n) != k)
                          && (forall i :: 0 <= i < |download(scheduled).results| ==> StatusKey(series, download(scheduled).results[i].0) != k)
                          ==> Dicts.Get(r, k) == Dicts.Get(reg, k)
  {
    var marked;
    marked, scheduled := MarkAhead(reg, series, current);
    match download(scheduled)
    case Raised(message) =>
      r := Fail(marked, series, current, message);
      forall n | Ahead(current, n) ensures Dicts.Get(r, StatusKey(series, n)) == Some(Errored(n, message)) {
        FailErrors(marked, series, current, message, n);
      }
      FailFrame(reg, marked, series, current, scheduled, message);
    case Finished(results) =>
      r := Settle(marked, series, results);
      Settled(reg, marked, series, current, scheduled, results);
      SettleFrame(reg, marked, series, current, scheduled, results);
  }

  /** A key outside the window is none of the scheduled chapters' keys. */
  lemma OutsideUnscheduled(series: string, current: int, scheduled: seq<int>, k: string)
    requires forall n :: n in scheduled ==> Ahead(current, n)
    requires forall n :: Ahead(current, n) ==> StatusKey(series, n) != k
    ensures k !in ScheduledKeys(series, scheduled)
  {
    forall i | 0 <= i < |scheduled| ensures ScheduledKeys(series, scheduled)[i] != k {
      assert scheduled[i] in scheduled;
    }
  }

  /** On the error path every key outside the window keeps the status it had before marking. */
  lemma FailFrame(reg: Registry, marked: Registry, series: string, current: int, scheduled: seq<int>, message: string)
    requires forall n :: n in scheduled ==> Ahead(current, n)
    requires forall k :: k !in ScheduledKeys(series, scheduled) ==> Dicts.Get(marked, k) == Dicts.Get(reg, k)
    ensures forall k :: (forall n :: Ahead(current, n) ==> StatusKey(series, n) != k) ==>
              Dicts.Get(Fail(marked, series, current, message), k) == Dicts.Get(reg, k)
  {
    forall k | forall n :: Ahead(current, n) ==> StatusKey(series, n) != k
      ensures Dicts.Get(Fail(marked, series, current, message), k) == Dicts.Get(reg, k)
    {
      FailOthers(marked, series, current, message, k);
      OutsideUnscheduled(series, current, scheduled, k);
    }
  }

  /** On the normal path every key outside the window and the reported chapters keeps its status. */
  lemma SettleFrame(reg: Registry, marked: Registry, series: string, current: int, scheduled: seq<int>,
                    results: Dicts.Dict<int, bool>)
    requires forall n :: n in scheduled ==> Ahead(current, n)
    requires forall k :: k !in ScheduledKeys(series, scheduled) ==> Dicts.Get(marked, k) == Dicts.Get(reg, k)
    ensures forall k :: && (forall n :: Ahead(current, n) ==> StatusKey(series, n) != k)
                        && (forall i :: 0 <= i < |results| ==> StatusKey(series, results[i].0) != k)
                        ==> Dicts.Get(Settle(marked, series, results), k) == Dicts.Get(reg, k)
  {
    forall k | && (forall n :: Ahead(current, n) ==> StatusKey(series, n) != k)
               && (forall i :: 0 <= i < |results| ==> StatusKey(series, results[i].0) != k)
      ensures Dicts.Get(Settle(marked, series, results), k) == Dicts.Get(reg, k)
    {
      SettleUnreported(marked, series, results, k);
      OutsideUnscheduled(series, current, scheduled, k);
    }
  }

  /** A chapter not scheduled has no key among the scheduled ones. */
  lemma UnscheduledKey(series: string, chapters: seq<int>, n: int)
    requires n !in chapters
    ensures StatusKey(series, n) !in ScheduledKeys(series, chapters)
  {
    forall i | 0 <= i < |chapters| ensures ScheduledKeys(series, chapters)[i] != StatusKey(series, n) {
      KeysDiffer(series, chapters[i], n);
    }
  }

  /** Settling the marked map with a result dict: what each chapter ahead ends as. */
  lemma Settled(reg: Registry, marked: Registry, series: string, current: int, scheduled: seq<int>, results: Dicts.Dict<int, bool>)
    requires forall n :: Ahead(current, n) ==> Dicts.HasKey(marked, StatusKey(series, n))
    requires forall n :: n in scheduled ==> Dicts.Get(marked, StatusKey(series, n)) == Some(Starting(n))
    requires forall k :: k !in ScheduledKeys(series, scheduled) ==> Dicts.Get(marked, k) == Dicts.Get(reg, k)
    ensures forall n :: Ahead(current, n) ==> Dicts.HasKey(Settle(marked, series, results), StatusKey(series, n))
    ensures Dicts.UniqueKeys(results) ==>
              forall c :: Dicts.Get(results, c).Some? ==>
                Dicts.Get(Settle(marked, series, results), StatusKey(series, c)) == Some(Done(c, Dicts.Get(results, c).value))
    ensures forall n :: n in scheduled && Dicts.Get(results, n).None? ==>
              Dicts.Get(Settle(marked, series, results), StatusKey(series, n)) == Some(Starting(n))
    ensures forall n :: n !in scheduled && Dicts.Get(results, n).None? ==>
              Dicts.Get(Settle(marked, series, results), StatusKey(series, n)) == Dicts.Get(reg, StatusKey(series, n))
  {
    var r := Settle(marked, series, results);
    forall n | Ahead(current, n) ensures Dicts.HasKey(r, StatusKey(series, n)) {
      if Dicts.Get(results, n).Some? {
        if Dicts.UniqueKeys(results) {
          SettleReported(marked, series, results, n);
        } else {
          SettleAny(marked, series, results, n);
        }
      } else {
        SettleUnreportedChapter(marked, series, results, n);
      }
    }
    forall c | Dicts.UniqueKeys(results) && Dicts.Get(results, c).Some?
      ensures Dicts.Get(r, StatusKey(series, c)) == Some(Done(c, Dicts.Get(results, c).value))
    {
      SettleReported(marked, series, results, c);
    }
    forall n | Dicts.Get(results, n).None? ensures Dicts.Get(r, StatusKey(series, n)) == Dicts.Get(marked, StatusKey(series, n)) {
      SettleUnreportedChapter(marked, series, results, n);
    }
    forall n | n !in scheduled ensures Dicts.Get(marked, StatusKey(series, n)) == Dicts.Get(reg, StatusKey(series, n)) {
      UnscheduledKey(series, scheduled, n);
    }
  }

  /** A chapter absent from the result dict keeps its key's entry. */
  lemma SettleUnreportedChapter(reg: Registry, series: string, results: Dicts.Dict<int, bool>, n: int)
    requires Dicts.Get(results, n).None?
    ensures Dicts.Get(Settle(reg, series, results), StatusKey(series, n)) == Dicts.Get(reg, StatusKey(series, n))
  {
    forall i | 0 <= i < |results| ensures StatusKey(series, results[i].0) != StatusKey(series, n) {
      if StatusKey(series, results[i].0) == StatusKey(series, n) {
        StatusKeyInjective(series, results[i].0, series, n);
      }
    }
    SettleUnreported(reg, series, results, StatusKey(series, n));
  }

  /** Settling never removes a key. */
  lemma {:induction false} SettleAny(reg: Registry, series: string, results: Dicts.Dict<int, bool>, n: int)
    requires Dicts.Get(results, n).Some?
    ensures Dicts.HasKey(Settle(reg, series, results), StatusKey(series, n))
    decreases |results|
  {
    var (m, ok) := results[0];
    var next := Dicts.Put(reg, StatusKey(series, m), Done(m, ok));
    if m == n {
      Dicts.PutGet(reg, StatusKey(series, m), Done(m, ok), StatusKey(series, n));
      SettleKeeps(next, series, results[1..], StatusKey(series, n));
    } else {
      SettleAny(next, series, results[1..], n);
    }
  }

  /** A key present before settling is present after. */
  lemma {:induction false} SettleKeeps(reg: Registry, series: string, results: Dicts.Dict<int, bool>, k: string)
    requires Dicts.HasKey(reg, k)
    ensures Dicts.HasKey(Settle(reg, series, results), k)
    decreases |results|
  {
    if |results| > 0 {
      var (m, ok) := results[0];
      Dicts.PutGet(reg, StatusKey(series, m), Done(m, ok), k);
      SettleKeeps(Dicts.Put(reg, StatusKey(series, m), Done(m, ok)), series, results[1..], k);
    }
  }

  /** Two triggers in a row for the same chapter: the second schedules nothing. */
  method TriggerTwice(reg: Registry, series: string, current: int, first: seq<int> -> Reply, second: seq<int> -> Reply)
    returns (r: Registry, scheduledFirst: seq<int>, scheduledSecond: seq<int>)
    ensures forall n :: n in scheduledFirst <==> Ahead(current, n) && !Dicts.HasKey(reg, StatusKey(series, n))
    ensures scheduledSecond == []
  {
    var mid;
    mid, scheduledFirst := Trigger(reg, series, current, first);
    r, scheduledSecond := Trigger(mid, series, current, second);
  }

  /** The message of the AttributeError raised by calling a method the downloader does not have. */
  const MissingMethod := "'AsyncDownloader' object has no attribute 'auto_download_next_chapters'"

  /**
    The trigger as written: the downloader call names a method the
    downloader does not define, so it always raises and the handler marks
    all three chapters "error"; since present keys are never retried, none
    of them is ever fetched by a later trigger either.
  */
  method TriggerAsWritten(reg: Registry, series: string, current: int) returns (r: Registry, scheduled: seq<int>)
    ensures forall n :: Ahead(current, n) ==> Dicts.Get(r, StatusKey(series, n)) == Some(Errored(n, MissingMethod))
    ensures forall n :: Ahead(current, n) ==> Dicts.Get(r, StatusKey(series, n)).value.status != "complete"
  {
    r, scheduled := Trigger(reg, series, current, cs => Raised(MissingMethod));
  }

  /** The per-chapter result dict of `download_chapters`: one entry per requested chapter, in order. */
  function Report(chapters: seq<int>, ok: int -> bool): (r: Dicts.Dict<int, bool>)
    ensures |r| == |chapters| && forall i :: 0 <= i < |r| ==> r[i] == (chapters[i], ok(chapters[i]))
  {
    seq(|chapters|, i requires 0 <= i < |chapters| => (chapters[i], ok(chapters[i])))
  }

  /** Looking a requested chapter up in its report finds its result; others are absent. */
  lemma ReportGet(chapters: seq<int>, ok: int -> bool, n: int)
    requires forall i, j :: 0 <= i < j < |chapters| ==> chapters[i] < chapters[j]
    ensures Dicts.UniqueKeys(Report(chapters, ok))
    ensures Dicts.Get(Report(chapters, ok), n) == if n in chapters then Some(ok(n)) else None
  {
    var r := Report(chapters, ok);
    if n in chapters {
      var i :| 0 <= i < |chapters| && chapters[i] == n;
      ReportGetAt(r, i);
    }
  }

  lemma {:induction false} ReportGetAt(d: Dicts.Dict<int, bool>, i: nat)
    requires i < |d| && Dicts.UniqueKeys(d)
    ensures Dicts.Get(d, d[i].0) == Some(d[i].1)
    decreases i
  {
    if i > 0 {
      ReportGetAt(d[1..], i - 1);
    }
  }

  /**
    The trigger with the downloader method that exists: `download_chapters`
    reports each scheduled chapter, so each ends "complete" or
    "not_available" by its result and none ends "error".
  */
  method TriggerCorrected(reg: Registry, series: string, current: int, ok: int -> bool) returns (r: Registry, scheduled: seq<int>)
    ensures forall n :: n in scheduled <==> Ahead(current, n) && !Dicts.HasKey(reg, StatusKey(series, n))
    ensures forall n :: n in scheduled ==> Dicts.Get(r, StatusKey(series, n)) == Some(Done(n, ok(n)))
    ensures forall n :: Ahead(current, n) && n !in scheduled ==> Dicts.Get(r, StatusKey(series, n)) == Dicts.Get(reg, StatusKey(series, n))
  {
    r, scheduled := Trigger(reg, series, current, cs => Finished(Report(cs, ok)));
    forall n ensures Dicts.Get(Report(scheduled, ok), n) == if n in scheduled then Some(ok(n)) else None {
      ReportGet(scheduled, ok, n);
    }
    ReportGet(scheduled, ok, 0);
  }

  /** The statuses of the entries `keep` accepts, in map order. */
  function Select(reg: Registry, keep: (string, DownloadStatus) -> bool): (r: seq<DownloadStatus>)
    ensures |r| <= |reg|
    ensures forall i :: 0 <= i < |reg| && keep(reg[i].0, reg[i].1) ==> reg[i].1 in r
    ensures forall v :: v in r ==> exists i :: 0 <= i < |reg| && keep(reg[i].0, reg[i].1) && reg[i].1 == v
    decreases |reg|
  {
    if |reg| == 0 then []
    else
      var rest := Select(reg[1..], keep);
      assert forall i :: 1 <= i < |reg| ==> reg[i] == reg[1..][i - 1];
      (if keep(reg[0].0, reg[0].1) then [reg[0].1] else []) + rest
  }

  /**
    Selecting from a concatenation selects from each part in turn, so the
    result lists one status per kept entry, in map order.
  */
  lemma {:induction false} SelectAppend(a: Registry, b: Registry, keep: (string, DownloadStatus) -> bool)
    ensures Select(a + b, keep) == Select(a, keep) + Select(b, keep)
    decreases |a|
  {
    if |a| == 0 {
      assert a + b == b;
    } else {
      assert (a + b)[1..] == a[1..] + b;
      SelectAppend(a[1..], b, keep);
    }
  }

  /** A single entry is listed exactly when it is kept. */
  lemma SelectOne(k: string, v: DownloadStatus, keep: (string, DownloadStatus) -> bool)
    ensures Select([(k, v)], keep) == if keep(k, v) then [v] else []
  {
  }

  /** The download-status endpoint as written: every entry whose key starts with `<series>_`. */
  function StatusesFor(reg: Registry, series: string): (r: seq<DownloadStatus>)
    ensures forall i :: 0 <= i < |reg| && OccursAt(reg[i].0, series + "_", 0) ==> reg[i].1 in r
    ensures forall v :: v in r ==> exists i :: 0 <= i < |reg| && OccursAt(reg[i].0, series + "_", 0) && reg[i].1 == v
  {
    Select(reg, (k, v) => OccursAt(k, series + "_", 0))
  }

  /** The endpoint's list follows map order: the entries of a prefix of the map come first. */
  lemma StatusesForAppend(a: Registry, b: Registry, series: string)
    ensures StatusesFor(a + b, series) == StatusesFor(a, series) + StatusesFor(b, series)
  {
    SelectAppend(a, b, (k, v) => OccursAt(k, series + "_", 0));
  }

  /**
    The prefix test also accepts every series whose name extends
    `<series>_`: the statuses of "Solo_Leveling" are listed for "Solo".
  */
  lemma PrefixFilterLeaks(series: string, other: string, n: int, v: DownloadStatus)
    ensures series + "_" + other != series
    ensures StatusesFor([(StatusKey(series + "_" + other, n), v)], series) == [v]
  {
    var k := StatusKey(series + "_" + other, n);
    assert k[..|series + "_"|] == series + "_";
  }

  /** The endpoint with an exact key test: the key must be this series' key for the entry's chapter. */
  function StatusesOf(reg: Registry, series: string): (r: seq<DownloadStatus>)
    ensures forall i :: 0 <= i < |reg| && reg[i].0 == StatusKey(series, reg[i].1.chapterNum) ==> reg[i].1 in r
    ensures forall v :: v in r ==> exists i :: 0 <= i < |reg| && reg[i].0 == StatusKey(series, reg[i].1.chapterNum) && reg[i].1 == v
  {
    Select(reg, (k, v: DownloadStatus) => k == StatusKey(series, v.chapterNum))
  }

  /** The corrected endpoint's list follows map order as well. */
  lemma StatusesOfAppend(a: Registry, b: Registry, series: string)
    ensures StatusesOf(a + b, series) == StatusesOf(a, series) + StatusesOf(b, series)
  {
    SelectAppend(a, b, (k, v: DownloadStatus) => k == StatusKey(series, v.chapterNum));
  }

  /**
    Every entry the trigger writes is keyed by its own series and chapter;
    the exact test keeps such an entry for exactly that series.
  */
  lemma ExactFilterKeepsOwnSeries(reg: Registry, series: string, t: string, v: DownloadStatus)
    requires (StatusKey(t, v.chapterNum), v) in reg
    ensures t == series ==> v in StatusesOf(reg, series)
    ensures t != series ==> StatusesOf([(StatusKey(t, v.chapterNum), v)], series) == []
  {
    if t != series && StatusKey(t, v.chapterNum) == StatusKey(series, v.chapterNum) {
      StatusKeyInjective(t, v.chapterNum, series, v.chapterNum);
    }
  }
}

=== FILE: recent.dfy ===
/**
  The recently-read list the reader keeps in a JSON file: newest first, at
  most one entry per series, at most ten entries. `last_read` is an opaque
  timestamp string compared by plain string order; reading and writing the
  file are reduced to what they yield.
*/
module Recent {
  import opened Wrappers
  import opened Text
  import opened Seqs

  datatype RecentChapter = RecentChapter(series: string, chapter: string, lastRead: string, pagePosition: int)

  /** The file as loading finds it: absent, unreadable (not JSON, not a list), or a list of items each valid or not. */
  datatype RecentFile = Missing | Unreadable | Items(items: seq<Option<RecentChapter>>)

  /** How many entries are kept. */
  const Limit := 10

  function SeriesOf(r: RecentChapter): string { r.series }

  function LastRead(r: RecentChapter): string { r.lastRead }

  /** The items that validate, in file order; the others are skipped. */
  function Valid(items: seq<Option<RecentChapter>>): (r: seq<RecentChapter>)
    ensures |r| <= |items|
    ensures forall x :: x in r <==> Some(x) in items
  {
    if |items| == 0 then []
    else
      var p := items[..|items| - 1];
      assert items == p + [items[|items| - 1]];
      Valid(p) + (if items[|items| - 1].Some? then [items[|items| - 1].value] else [])
  }

  /** `xs[:n]`. */
  function Take<T>(xs: seq<T>, n: nat): (r: seq<T>)
    ensures |r| == if |xs| <= n then |xs| else n
    ensures r == xs[..|r|]
  {
    if |xs| <= n then xs else xs[..n]
  }

  /** `sort(key=last_read, reverse=True)`: stable, newest first, ties in their old order. */
  function NewestFirst(xs: seq<RecentChapter>): (r: seq<RecentChapter>)
    ensures |r| == |xs|
  {
    SortBy(xs, LastRead, StrGe)
  }

  /**
    `load_recent_chapters`: nothing for a missing or unreadable file;
    otherwise the valid items, newest first, the first of each series
    kept, cut to ten.
  */
  function LoadRecent(f: RecentFile): (r: seq<RecentChapter>)
    ensures |r| <= Limit
    ensures !f.Items? ==> r == []
  {
    match f
    case Items(items) => Take(DedupBy(NewestFirst(Valid(items)), SeriesOf), Limit)
    case _ => []
  }

  /** Sorting the valid items: sorted newest first, and the same items. */
  lemma NewestFirstSpec(xs: seq<RecentChapter>)
    ensures SortedBy(NewestFirst(xs), LastRead, StrGe)
    ensures multiset(NewestFirst(xs)) == multiset(xs)
  {
    StrGeTotal();
    SortBySorted(xs, LastRead, StrGe);
    SortByPermutation(xs, LastRead, StrGe);
  }

  /** Loading keeps one entry per series, newest first. */
  lemma LoadSortedDistinct(items: seq<Option<RecentChapter>>)
    ensures DistinctKeys(LoadRecent(Items(items)), SeriesOf)
    ensures SortedBy(LoadRecent(Items(items)), LastRead, StrGe)
  {
    var s := NewestFirst(Valid(items));
    NewestFirstSpec(Valid(items));
    DedupSorted(s, SeriesOf, LastRead, StrGe);
  }

  /** Every loaded entry is a valid item of the file. */
  lemma LoadFromFile(items: seq<Option<RecentChapter>>)
    ensures forall x :: x in LoadRecent(Items(items)) ==> Some(x) in items
  {
    var v := Valid(items);
    var s := NewestFirst(v);
    var d := DedupBy(s, SeriesOf);
    assert LoadRecent(Items(items)) == Take(d, Limit);
    NewestFirstSpec(v);
    forall x | x in LoadRecent(Items(items)) ensures Some(x) in items {
      DedupBySubset(s, SeriesOf, x);
      assert x in multiset(s);
    }
  }

  /** Every loaded entry is at least as new as any valid item of its series. */
  lemma LoadNewestPerSeries(items: seq<Option<RecentChapter>>)
    ensures var r := LoadRecent(Items(items));
            forall i, x :: 0 <= i < |r| && Some(x) in items && x.series == r[i].series ==> StrGe(r[i].lastRead, x.lastRead)
  {
    var v := Valid(items);
    var s := NewestFirst(v);
    var d := DedupBy(s, SeriesOf);
    var r := LoadRecent(Items(items));
    assert r == Take(d, Limit);
    NewestFirstSpec(v);
    StrGeTotal();
    forall i, x | 0 <= i < |r| && Some(x) in items && x.series == r[i].series
      ensures StrGe(r[i].lastRead, x.lastRead)
    {
      assert x in multiset(v);
      var j :| 0 <= j < |s| && s[j] == x;
      DedupKeepsLeast(s, SeriesOf, LastRead, StrGe, i, j);
    }
  }

  /** A short list has left no series of the file out. */
  lemma LoadShortIsComplete(items: seq<Option<RecentChapter>>)
    ensures var r := LoadRecent(Items(items));
            |r| < Limit ==> forall x :: Some(x) in items ==> HasKey(r, SeriesOf, x.series)
  {
    var v := Valid(items);
    var s := NewestFirst(v);
    var r := LoadRecent(Items(items));
    NewestFirstSpec(v);
    if |r| < Limit {
      forall x | Some(x) in items ensures HasKey(r, SeriesOf, x.series) {
        assert x in multiset(v);
        var j :| 0 <= j < |s| && s[j] == x;
        assert HasKey(s, SeriesOf, SeriesOf(s[j]));
      }
    }
  }

  /**
    What loading promises: one entry per series, newest first, each the
    newest valid item of its series, and, when fewer than ten come back,
    every series of the file is among them.
  */
  lemma LoadRecentSpec(items: seq<Option<RecentChapter>>)
    ensures var r := LoadRecent(Items(items));
            && DistinctKeys(r, SeriesOf)
            && SortedBy(r, LastRead, StrGe)
            && (forall x :: x in r ==> Some(x) in items)
            && (forall i, x :: 0 <= i < |r| && Some(x) in items && x.series == r[i].series ==>
                  StrGe(r[i].lastRead, x.lastRead))
            && (|r| < Limit ==> forall x :: Some(x) in items ==> HasKey(r, SeriesOf, x.series))
  {
    LoadSortedDistinct(items);
    LoadFromFile(items);
    LoadNewestPerSeries(items);
    LoadShortIsComplete(items);
  }

  /** The entries of series other than `series`, in order. */
  function Others(xs: seq<RecentChapter>, series: string): (r: seq<RecentChapter>)
    ensures forall x :: x in r <==> x in xs && x.series != series
  {
    if |xs| == 0 then []
    else
      var p := xs[..|xs| - 1];
      assert xs == p + [xs[|xs| - 1]];
      Others(p, series) + (if xs[|xs| - 1].series != series then [xs[|xs| - 1]] else [])
  }

  /** Filtering keeps series distinct. */
  lemma {:induction false} OthersDistinct(xs: seq<RecentChapter>, series: string)
    requires DistinctKeys(xs, SeriesOf)
    ensures DistinctKeys(Others(xs, series), SeriesOf)
    decreases |xs|
  {
    if |xs| > 0 {
      var p := xs[..|xs| - 1];
      var x := xs[|xs| - 1];
      assert xs == p + [x];
      OthersDistinct(p, series);
      var q := Others(p, series);
      forall i | 0 <= i < |q| ensures q[i].series != x.series {
        assert q[i] in p;
        var j :| 0 <= j < |p| && p[j] == q[i];
        assert xs[j] == q[i];
      }
    }
  }

  /** The candidates of a save: the new entry first, then the loaded entries of other series. */
  function Candidates(f: RecentFile, recent: RecentChapter): (r: seq<RecentChapter>)
    ensures |r| > 0 && r[0] == recent
  {
    [recent] + Others(LoadRecent(f), recent.series)
  }

  /**
    `save_recent_chapter`'s list: the loaded list without the series' old
    entries, the new entry in front, re-sorted newest first, cut to ten.
  */
  function SavedList(f: RecentFile, recent: RecentChapter): (r: seq<RecentChapter>)
    ensures |r| <= Limit
  {
    Take(NewestFirst(Candidates(f, recent)), Limit)
  }

  /** Every entry of the saved list as JSON items. */
  function AsItems(xs: seq<RecentChapter>): (r: seq<Option<RecentChapter>>)
    ensures |r| == |xs| && forall i :: 0 <= i < |xs| ==> r[i] == Some(xs[i])
  {
    seq(|xs|, i requires 0 <= i < |xs| => Some(xs[i]))
  }

  /**
    How writing the file ends: opening it for writing fails (the file is
    untouched), the JSON dump fails after the open has truncated it, or
    the list is written.
  */
  datatype WriteOutcome = OpenFailed | DumpFailed | Written

  /**
    `save_recent_chapter`: the file afterwards. A failed open leaves it as
    it was; a failed dump leaves an empty or cut-off file, which no longer
    parses, so the next load finds no recent chapters at all.
  */
  function SaveRecent(f: RecentFile, recent: RecentChapter, w: WriteOutcome): (r: RecentFile)
    ensures w.OpenFailed? ==> r == f
    ensures w.DumpFailed? ==> r.Unreadable? && LoadRecent(r) == []
    ensures w.Written? ==> r.Items? && |r.items| <= Limit
  {
    match w
    case OpenFailed => f
    case DumpFailed => Unreadable
    case Written => Items(AsItems(SavedList(f, recent)))
  }

  /**
    A candidate list as saving builds it: the new entry first, one entry
    per series. The lemmas below are stated for any such list.
  */
  ghost predicate Headed(c: seq<RecentChapter>, recent: RecentChapter)
  {
    |c| > 0 && c[0] == recent && DistinctKeys(c, SeriesOf)
  }

  /** Putting an entry in front of entries of other series keeps series distinct. */
  lemma FrontDistinct(recent: RecentChapter, o: seq<RecentChapter>)
    requires DistinctKeys(o, SeriesOf)
    requires forall x :: x in o ==> x.series != recent.series
    ensures Headed([recent] + o, recent)
  {
    var c := [recent] + o;
    forall i, j | 0 <= i < j < |c| ensures c[i].series != c[j].series {
      if i == 0 {
        assert c[j] == o[j - 1];
      } else {
        assert c[i] == o[i - 1] && c[j] == o[j - 1];
      }
    }
  }

  /** The candidates hold one entry per series, the new one first. */
  lemma CandidatesDistinct(f: RecentFile, recent: RecentChapter)
    ensures Headed(Candidates(f, recent), recent)
  {
    var loaded := LoadRecent(f);
    if f.Items? {
      LoadSortedDistinct(f.items);
    }
    OthersDistinct(loaded, recent.series);
    FrontDistinct(recent, Others(loaded, recent.series));
  }

  /** The sorted candidates: newest first, one per series, the same entries. */
  lemma SortedCandidates(c: seq<RecentChapter>)
    requires DistinctKeys(c, SeriesOf)
    ensures SortedBy(NewestFirst(c), LastRead, StrGe)
    ensures DistinctKeys(NewestFirst(c), SeriesOf)
    ensures multiset(NewestFirst(c)) == multiset(c)
  {
    NewestFirstSpec(c);
    SortByDistinct(c, SeriesOf, LastRead, StrGe);
  }

  /** Cutting the sorted candidates to ten keeps order, distinct series, and only candidates. */
  lemma KeptCandidates(c: seq<RecentChapter>)
    requires DistinctKeys(c, SeriesOf)
    ensures DistinctKeys(Take(NewestFirst(c), Limit), SeriesOf)
    ensures SortedBy(Take(NewestFirst(c), Limit), LastRead, StrGe)
    ensures forall x :: x in Take(NewestFirst(c), Limit) ==> x in c
  {
    var y := NewestFirst(c);
    SortedCandidates(c);
    forall x | x in Take(y, Limit) ensures x in c {
      assert x in y;
      assert x in multiset(y);
    }
  }

  /** In a headed list the new entry is the only one of its series. */
  lemma HeadOwnsSeries(c: seq<RecentChapter>, recent: RecentChapter, x: RecentChapter)
    requires Headed(c, recent)
    requires x in c && x.series == recent.series
    ensures x == recent
  {
    var i :| 0 <= i < |c| && c[i] == x;
    assert SeriesOf(c[i]) == SeriesOf(c[0]);
  }

  /**
    What saving promises: at most ten entries, one per series, newest
    first; the series' only entry is the new one; the others come from the
    loaded list.
  */
  lemma SavedListSpec(f: RecentFile, recent: RecentChapter)
    ensures DistinctKeys(SavedList(f, recent), SeriesOf)
    ensures SortedBy(SavedList(f, recent), LastRead, StrGe)
    ensures forall x :: x in SavedList(f, recent) && x.series == recent.series ==> x == recent
    ensures forall x :: x in SavedList(f, recent) && x != recent ==> x in LoadRecent(f) && x.series != recent.series
  {
    var c := Candidates(f, recent);
    CandidatesDistinct(f, recent);
    KeptCandidates(c);
    forall x | x in SavedList(f, recent) && x.series == recent.series ensures x == recent {
      HeadOwnsSeries(c, recent, x);
    }
  }

  /**
    Where the new entry lands among the sorted candidates: every candidate
    before it is strictly newer, none after it is newer.
  */
  lemma Position(c: seq<RecentChapter>, recent: RecentChapter) returns (q: nat)
    requires |c| > 0 && c[0] == recent
    ensures q < |NewestFirst(c)| && NewestFirst(c)[q] == recent
    ensures forall i :: 0 <= i < q ==> StrLt(recent.lastRead, NewestFirst(c)[i].lastRead)
    ensures forall i :: q < i < |NewestFirst(c)| ==> StrGe(recent.lastRead, NewestFirst(c)[i].lastRead)
  {
    var y := NewestFirst(c);
    assert TotalOrder(StrGe) by {
      StrGeTotal();
    }
    StableFirst(c, LastRead, StrGe);
    NewestFirstSpec(c);
    q := FirstIndex(y, LastRead, recent.lastRead);
    forall i | 0 <= i < q ensures StrLt(recent.lastRead, y[i].lastRead) {
      assert y[i].lastRead != recent.lastRead;
      assert StrGe(y[i].lastRead, recent.lastRead);
      StrLtTrichotomy(recent.lastRead, y[i].lastRead);
    }
  }

  /** `Position` for the candidates of a save. */
  lemma RecentPosition(f: RecentFile, recent: RecentChapter) returns (q: nat)
    ensures var y := NewestFirst(Candidates(f, recent));
            && q < |y| && y[q] == recent
            && (forall i :: 0 <= i < q ==> StrLt(recent.lastRead, y[i].lastRead))
            && (forall i :: q < i < |y| ==> StrGe(recent.lastRead, y[i].lastRead))
  {
    q := Position(Candidates(f, recent), recent);
  }

  /** A dropped new entry means a full list of strictly newer entries. */
  lemma DroppedOnlyWhenFull(c: seq<RecentChapter>, recent: RecentChapter)
    requires |c| > 0 && c[0] == recent
    ensures var r := Take(NewestFirst(c), Limit);
            recent !in r ==> |r| == Limit && forall x :: x in r ==> StrLt(recent.lastRead, x.lastRead)
  {
    var y := NewestFirst(c);
    var r := Take(y, Limit);
    var q := Position(c, recent);
    if recent !in r {
      assert q >= |r| && |r| == Limit;
      forall x | x in r ensures StrLt(recent.lastRead, x.lastRead) {
        var i :| 0 <= i < |r| && r[i] == x;
        assert y[i] == x;
      }
    }
  }

  /** `DroppedOnlyWhenFull` for a save. */
  lemma RecentDroppedOnlyWhenFull(f: RecentFile, recent: RecentChapter)
    ensures var r := SavedList(f, recent);
            recent !in r ==> |r| == Limit && forall x :: x in r ==> StrLt(recent.lastRead, x.lastRead)
  {
    DroppedOnlyWhenFull(Candidates(f, recent), recent);
  }

  /** A kept new entry means every strictly newer candidate is kept too. */
  lemma RecentKeptWithNewer(f: RecentFile, recent: RecentChapter)
    ensures var r := SavedList(f, recent);
            recent in r ==> forall x :: x in Candidates(f, recent) && StrLt(recent.lastRead, x.lastRead) ==> x in r
  {
    var c := Candidates(f, recent);
    if recent in Take(NewestFirst(c), Limit) {
      forall x | x in c && StrLt(recent.lastRead, x.lastRead)
        ensures x in Take(NewestFirst(c), Limit)
      {
        NewerIsKept(c, recent, x);
      }
    }
  }

  /** One strictly newer candidate ranks before the kept new entry, so it is kept. */
  lemma NewerIsKept(c: seq<RecentChapter>, recent: RecentChapter, x: RecentChapter)
    requires |c| > 0 && c[0] == recent
    requires recent in Take(NewestFirst(c), Limit)
    requires x in c && StrLt(recent.lastRead, x.lastRead)
    ensures x in Take(NewestFirst(c), Limit)
  {
    var y := NewestFirst(c);
    var r := Take(y, Limit);
    var q := Position(c, recent);
    var p :| 0 <= p < |r| && r[p] == recent;
    assert y[p] == recent;
    StrLtIrreflexive(recent.lastRead);
    assert q <= p;
    NewestFirstSpec(c);
    assert x in multiset(y);
    var j :| 0 <= j < |y| && y[j] == x;
    StrLtTrichotomy(recent.lastRead, x.lastRead);
    assert j <= q;
    assert r[j] == x;
  }

  /**
    The new entry survives exactly when it ranks among the ten newest: if
    it is dropped, the list is full of strictly newer entries; if it is
    kept, so is every strictly newer candidate.
  */
  lemma RecentSurvivesIfAmongNewest(f: RecentFile, recent: RecentChapter)
    ensures var r := SavedList(f, recent);
            recent !in r ==> |r| == Limit && forall x :: x in r ==> StrLt(recent.lastRead, x.lastRead)
    ensures var r := SavedList(f, recent);
            recent in r ==> forall x :: x in Candidates(f, recent) && StrLt(recent.lastRead, x.lastRead) ==> x in r
  {
    RecentDroppedOnlyWhenFull(f, recent);
    RecentKeptWithNewer(f, recent);
  }

  lemma ValidItems(xs: seq<RecentChapter>)
    ensures Valid(AsItems(xs)) == xs
  {
    if |xs| > 0 {
      var p := xs[..|xs| - 1];
      assert AsItems(xs)[..|xs| - 1] == AsItems(p);
      ValidItems(p);
    }
  }

  /** Saving then loading gives back exactly the saved list. */
  lemma SaveThenLoad(f: RecentFile, recent: RecentChapter)
    ensures LoadRecent(SaveRecent(f, recent, Written)) == SavedList(f, recent)
  {
    var r := SavedList(f, recent);
    SavedListSpec(f, recent);
    ValidItems(r);
    SortBySortedInput(r, LastRead, StrGe);
    DedupByDistinct(r, SeriesOf);
  }
}

=== FILE: scraper.dfy ===
/**
  The page-scraper helpers: which image URLs count as page images, the
  size test for page-shaped images, first-seen de-duplication of the found
  URLs, file naming for downloaded pages, chapter information from the
  page URL, and the layout that stacks the pages into one tall image.
*/
module Scraper {
  import opened Wrappers
  import opened Text
  import Seqs
  import PatternFinder

  // ---------------------------------------------------------------------------
  // Which URLs are page images
  // ---------------------------------------------------------------------------

  /** The extensions `_is_valid_image_url` looks for, anywhere in the URL. */
  const UrlExtensions: seq<string> := [".jpg", ".jpeg", ".png", ".gif", ".webp"]

  /** Python's `s.startswith(p)`. */
  predicate StartsWith(s: string, p: string)
  {
    OccursAt(s, p, 0)
  }

  /** Python's `any(e in s for e in exts)`. */
  function AnyContained(s: string, exts: seq<string>): (r: bool)
    ensures r <==> exists i :: 0 <= i < |exts| && Contains(s, exts[i])
  {
    if |exts| == 0 then false
    else if Contains(s, exts[0]) then true
    else
      assert forall i :: 1 <= i < |exts| ==> exts[i] == exts[1..][i - 1];
      AnyContained(s, exts[1..])
  }

  /** `_is_valid_image_url`: not empty, not a `data:` URL, and mentions an image extension in any case. */
  function IsValidImageUrl(url: string): (r: bool)
    ensures |url| == 0 || StartsWith(url, "data:") ==> !r
    ensures r <==> |url| > 0 && !StartsWith(url, "data:")
                   && exists i :: 0 <= i < |UrlExtensions| && Contains(Lower(url), UrlExtensions[i])
  {
    if |url| == 0 || StartsWith(url, "data:") then false
    else AnyContained(Lower(url), UrlExtensions)
  }

  lemma LowerConcat(a: string, b: string)
    ensures Lower(a + b) == Lower(a) + Lower(b)
  {
  }

  /** Any URL that names a file with one of the extensions, in whatever case, is accepted unless it is a `data:` URL. */
  lemma ValidWhenNamedImage(stem: string, i: nat)
    requires i < |UrlExtensions| && |stem| > 0 && !StartsWith(stem, "data:")
    ensures IsValidImageUrl(stem + UrlExtensions[i])
  {
    var e := UrlExtensions[i];
    var url := stem + e;
    LowerConcat(stem, e);
    LowerNoUpper(e);
    assert OccursAt(Lower(url), e, |stem|);
    assert !StartsWith(url, "data:") by {
      if |stem| < 5 {
        assert e[0] == '.';
        assert stem[..] + e[..5 - |stem|] == url[..5];
      } else {
        assert url[..5] == stem[..5];
      }
    }
  }

  /** A `data:` URL is refused even when it mentions an image extension. */
  lemma DataUrlRefused(rest: string)
    ensures !IsValidImageUrl("data:" + rest)
  {
    assert ("data:" + rest)[..5] == "data:";
  }

  // ---------------------------------------------------------------------------
  // Page-shaped images
  // ---------------------------------------------------------------------------

  /** The size attributes of an image element; each may be missing. */
  datatype ImageAttrs = ImageAttrs(width: Option<string>, naturalWidth: Option<string>,
                                   height: Option<string>, naturalHeight: Option<string>)

  /** Python's `a or b` on attribute values: a missing or empty value falls through. */
  function OrElse(a: Option<string>, b: Option<string>): (r: Option<string>)
    ensures r.Some? && |r.value| > 0 <==> (a.Some? && |a.value| > 0) || (b.Some? && |b.value| > 0)
  {
    if a.Some? && |a.value| > 0 then a else b
  }

  /**
    `_check_image_dimensions`: taller than wide, more than 300 high and
    more than 200 wide. A missing size or one that is not an integer
    gives false, as the bare `except` makes it.
  */
  function CheckImageDimensions(attrs: ImageAttrs): (r: bool)
    ensures r <==> (&& OrElse(attrs.width, attrs.naturalWidth).Some?
                    && OrElse(attrs.height, attrs.naturalHeight).Some?
                    && var w := ParseInt(OrElse(attrs.width, attrs.naturalWidth).value);
                       var h := ParseInt(OrElse(attrs.height, attrs.naturalHeight).value);
                       w.Some? && h.Some? && h.value > w.value && h.value > 300 && w.value > 200)
  {
    var width := OrElse(attrs.width, attrs.naturalWidth);
    var height := OrElse(attrs.height, attrs.naturalHeight);
    if width.Some? && |width.value| > 0 && height.Some? && |height.value| > 0 then
      match (ParseInt(width.value), ParseInt(height.value))
      case (Some(w), Some(h)) => h > w && h > 300 && w > 200
      case _ => false
    else false
  }

  /** With sizes given as numbers, the test is exactly the portrait-page rule; the natural sizes stand in for missing ones. */
  lemma PageShape(w: nat, h: nat, explicit: bool)
    ensures var attrs := if explicit then ImageAttrs(Some(NatStr(w)), None, Some(NatStr(h)), None)
                         else ImageAttrs(None, Some(NatStr(w)), Some(""), Some(NatStr(h)));
            CheckImageDimensions(attrs) <==> h > w && h > 300 && w > 200
  {
    ParseIntStr(w);
    ParseIntStr(h);
  }

  /** Without any width the image is never taken for a page. */
  lemma NoWidthNoPage(attrs: ImageAttrs)
    requires attrs.width.None? && attrs.naturalWidth.None?
    ensures !CheckImageDimensions(attrs)
  {
  }

  // ---------------------------------------------------------------------------
  // De-duplication of found URLs
  // ---------------------------------------------------------------------------

  function Id(s: string): string { s }

  /**
    The `seen` loop of `get_comic_images_selenium`: keeps the first copy of
    every URL, in the order first seen.
  */
  method UniqueUrls(urls: seq<string>) returns (unique: seq<string>)
    ensures forall i, j :: 0 <= i < j < |unique| ==> unique[i] != unique[j]
    ensures forall u :: u in unique <==> u in urls
    ensures forall i, j :: 0 <= i < j < |unique| ==>
              && Seqs.HasKey(urls, Id, unique[i]) && Seqs.HasKey(urls, Id, unique[j])
              && Seqs.FirstIndex(urls, Id, unique[i]) < Seqs.FirstIndex(urls, Id, unique[j])
  {
    var seen: set<string> := {};
    unique := [];
    var i := 0;
    while i < |urls|
      invariant 0 <= i <= |urls|
      invariant unique == Seqs.DedupBy(urls[..i], Id)
      invariant forall u :: u in seen <==> Seqs.HasKey(unique, Id, u)
    {
      var url := urls[i];
      assert urls[..i + 1] == urls[..i] + [url];
      Seqs.DedupBySnoc(urls[..i], url, Id);
      if url !in seen {
        Seqs.HasKeySnoc(unique, url, Id, url);
        forall u ensures Seqs.HasKey(unique + [url], Id, u) <==> Seqs.HasKey(unique, Id, u) || u == url {
          Seqs.HasKeySnoc(unique, url, Id, u);
        }
        seen := seen + {url};
        unique := unique + [url];
      }
      i := i + 1;
    }
    assert urls[..|urls|] == urls;
    UniqueFacts(urls);
  }

  lemma UniqueFacts(urls: seq<string>)
    ensures var r := Seqs.DedupBy(urls, Id);
            && (forall i, j :: 0 <= i < j < |r| ==> r[i] != r[j])
            && (forall u :: u in r <==> u in urls)
            && (forall i, j :: 0 <= i < j < |r| ==>
                  && Seqs.HasKey(urls, Id, r[i]) && Seqs.HasKey(urls, Id, r[j])
                  && Seqs.FirstIndex(urls, Id, r[i]) < Seqs.FirstIndex(urls, Id, r[j]))
  {
    var r := Seqs.DedupBy(urls, Id);
    Seqs.DedupByFirst(urls, Id);
    forall i, j | 0 <= i < j < |r| ensures r[i] != r[j] {
      assert Id(r[i]) != Id(r[j]);
    }
    forall u ensures u in r <==> u in urls {
      assert Seqs.HasKey(r, Id, u) <==> Seqs.HasKey(urls, Id, u);
      if u in r {
        var i :| 0 <= i < |r| && r[i] == u;
        assert Id(r[i]) == u;
      }
      if u in urls {
        var i :| 0 <= i < |urls| && urls[i] == u;
        assert Id(urls[i]) == u;
      }
    }
  }

  // ---------------------------------------------------------------------------
  // Page files
  // ---------------------------------------------------------------------------

  /** The extension for a page: png or webp when the URL mentions them, jpg otherwise. */
  function ExtensionFor(url: string): (r: string)
    ensures r in [".png", ".webp", ".jpg"]
  {
    if Contains(Lower(url), ".png") then ".png"
    else if Contains(Lower(url), ".webp") then ".webp"
    else ".jpg"
  }

  /** `.png` wins over `.webp`, and anything else is saved as `.jpg`. */
  lemma ExtensionPriority(url: string)
    ensures ExtensionFor(url) == ".jpg" <==> !Contains(Lower(url), ".png") && !Contains(Lower(url), ".webp")
    ensures Contains(Lower(url), ".png") ==> ExtensionFor(url) == ".png"
  {
  }

  /** `{series}_Ch{chapter}_Page{i:03d}{ext}`. */
  function PageFileName(info: PatternFinder.ChapterInfo, i: nat, url: string): string
  {
    info.series + "_Ch" + info.chapter + "_Page" + Pad3(i) + ExtensionFor(url)
  }

  /** Below page 1000 the file names sort in page order, whatever the extensions. */
  lemma PageFileNamesInOrder(info: PatternFinder.ChapterInfo, i: nat, j: nat, u: string, v: string)
    requires i < j < 1000
    ensures StrLt(PageFileName(info, i, u), PageFileName(info, j, v))
  {
    var p := info.series + "_Ch" + info.chapter + "_Page";
    Pad3Order(i, j);
    StrLtExtend(Pad3(i), Pad3(j), ExtensionFor(u), ExtensionFor(v));
    StrLtCommonPrefix(p, Pad3(i) + ExtensionFor(u), Pad3(j) + ExtensionFor(v));
    assert PageFileName(info, i, u) == p + (Pad3(i) + ExtensionFor(u));
    assert PageFileName(info, j, v) == p + (Pad3(j) + ExtensionFor(v));
  }

  /**
    `download_all_images`: page numbers count from 1 over all URLs, failed
    downloads included, and the paths of the saved pages come back in
    order. `fetch` tells which downloads succeed.
  */
  method DownloadAllImages(urls: seq<string>, info: PatternFinder.ChapterInfo, root: string, fetch: string -> bool)
    returns (paths: seq<string>, pages: seq<nat>)
    ensures |paths| == |pages|
    ensures forall k :: 0 <= k < |pages| ==> 1 <= pages[k] <= |urls| && fetch(urls[pages[k] - 1])
    ensures forall k :: 0 <= k < |pages| ==> paths[k] == PagePath(root, info, pages[k], urls[pages[k] - 1])
    ensures forall a, b :: 0 <= a < b < |pages| ==> pages[a] < pages[b]
    ensures forall n :: 1 <= n <= |urls| && fetch(urls[n - 1]) ==> n in pages
    ensures |urls| < 1000 ==> forall a, b :: 0 <= a < b < |paths| ==> StrLt(paths[a], paths[b])
  {
    paths, pages := [], [];
    var i := 1;
    while i <= |urls|
      invariant 1 <= i <= |urls| + 1
      invariant Downloaded(urls, info, root, fetch, i, paths, pages)
    {
      paths, pages := DownloadOne(urls, info, root, fetch, i, paths, pages);
      i := i + 1;
    }
    if |urls| < 1000 {
      forall a, b | 0 <= a < b < |paths| ensures StrLt(paths[a], paths[b]) {
        PagePathsInOrder(root, info, pages[a], pages[b], urls[pages[a] - 1], urls[pages[b] - 1]);
      }
    }
  }

  /** Saved pages below 1000 list in page order. */
  lemma PagePathsInOrder(root: string, info: PatternFinder.ChapterInfo, i: nat, j: nat, u: string, v: string)
    requires i < j < 1000
    ensures StrLt(PagePath(root, info, i, u), PagePath(root, info, j, v))
  {
    PageFileNamesInOrder(info, i, j, u, v);
    StrLtCommonPrefix(root + "/", PageFileName(info, i, u), PageFileName(info, j, v));
  }

  /** After pages 1 .. i-1: the saved ones, in order, with their paths. */
  ghost predicate Downloaded(urls: seq<string>, info: PatternFinder.ChapterInfo, root: string, fetch: string -> bool,
                             i: nat, paths: seq<string>, pages: seq<nat>)
  {
    && |paths| == |pages| && i <= |urls| + 1
    && PagesFetched(urls, fetch, i, pages)
    && PathsOfPages(urls, paths, pages, (n: nat, u: string) => PagePath(root, info, n, u))
    && Increasing(pages)
    && FetchedRecorded(urls, fetch, i, pages)
  }

  /** Every recorded page lies before `i` and was fetched. */
  ghost predicate PagesFetched(urls: seq<string>, fetch: string -> bool, i: nat, pages: seq<nat>)
  {
    forall k :: 0 <= k < |pages| ==> 1 <= pages[k] < i && pages[k] <= |urls| && fetch(urls[pages[k] - 1])
  }

  /** Each recorded path is the path of the page recorded beside it. */
  ghost predicate PathsOfPages(urls: seq<string>, paths: seq<string>, pages: seq<nat>, path: (nat, string) -> string)
  {
    && |paths| == |pages|
    && forall k :: 0 <= k < |pages| ==> 1 <= pages[k] <= |urls| && paths[k] == path(pages[k], urls[pages[k] - 1])
  }

  predicate Increasing(xs: seq<nat>)
  {
    forall a, b :: 0 <= a < b < |xs| ==> xs[a] < xs[b]
  }

  /** Every page before `i` that was fetched is recorded. */
  ghost predicate FetchedRecorded(urls: seq<string>, fetch: string -> bool, i: nat, pages: seq<nat>)
  {
    forall n :: 1 <= n < i && n <= |urls| && fetch(urls[n - 1]) ==> n in pages
  }

  /** The path a saved page is written to. */
  function PagePath(root: string, info: PatternFinder.ChapterInfo, n: nat, url: string): string
  {
    root + "/" + PageFileName(info, n, url)
  }

  /** One page of the loop: saved and recorded when the download succeeds. */
  method DownloadOne(urls: seq<string>, info: PatternFinder.ChapterInfo, root: string, fetch: string -> bool,
                     i: nat, paths: seq<string>, pages: seq<nat>) returns (paths': seq<string>, pages': seq<nat>)
    requires 1 <= i <= |urls| && Downloaded(urls, info, root, fetch, i, paths, pages)
    ensures Downloaded(urls, info, root, fetch, i + 1, paths', pages')
  {
    var url := urls[i - 1];
    if fetch(url) {
      paths', pages' := paths + [PagePath(root, info, i, url)], pages + [i];
      SavedStep(urls, info, root, fetch, i, paths, pages);
    } else {
      paths', pages' := paths, pages;
      SkippedStep(urls, info, root, fetch, i, paths, pages);
    }
  }

  lemma SavedStep(urls: seq<string>, info: PatternFinder.ChapterInfo, root: string, fetch: string -> bool,
                  i: nat, paths: seq<string>, pages: seq<nat>)
    requires 1 <= i <= |urls| && Downloaded(urls, info, root, fetch, i, paths, pages) && fetch(urls[i - 1])
    ensures Downloaded(urls, info, root, fetch, i + 1, paths + [PagePath(root, info, i, urls[i - 1])], pages + [i])
  {
    SavedFetched(urls, fetch, i, pages);
    SavedPaths(urls, i, paths, pages, (n: nat, u: string) => PagePath(root, info, n, u));
    SavedIncreasing(urls, fetch, i, pages);
    SavedRecorded(urls, fetch, i, pages);
  }

  lemma SavedFetched(urls: seq<string>, fetch: string -> bool, i: nat, pages: seq<nat>)
    requires 1 <= i <= |urls| && PagesFetched(urls, fetch, i, pages) && fetch(urls[i - 1])
    ensures PagesFetched(urls, fetch, i + 1, pages + [i])
  {
    var pages' := pages + [i];
    forall k | 0 <= k < |pages'| ensures 1 <= pages'[k] < i + 1 && pages'[k] <= |urls| && fetch(urls[pages'[k] - 1]) {
      if k < |pages| {
        assert pages'[k] == pages[k];
      }
    }
  }

  lemma SavedPaths(urls: seq<string>, i: nat, paths: seq<string>, pages: seq<nat>, path: (nat, string) -> string)
    requires 1 <= i <= |urls| && PathsOfPages(urls, paths, pages, path)
    ensures PathsOfPages(urls, paths + [path(i, urls[i - 1])], pages + [i], path)
  {
    var paths' := paths + [path(i, urls[i - 1])];
    var pages' := pages + [i];
    forall k | 0 <= k < |pages'|
      ensures 1 <= pages'[k] <= |urls| && paths'[k] == path(pages'[k], urls[pages'[k] - 1])
    {
      if k < |pages| {
        assert pages'[k] == pages[k] && paths'[k] == paths[k];
      }
    }
  }

  lemma SavedIncreasing(urls: seq<string>, fetch: string -> bool, i: nat, pages: seq<nat>)
    requires PagesFetched(urls, fetch, i, pages) && Increasing(pages)
    ensures Increasing(pages + [i])
  {
    var pages' := pages + [i];
    forall a, b | 0 <= a < b < |pages'| ensures pages'[a] < pages'[b] {
      if b == |pages| {
        assert pages'[a] == pages[a];
      }
    }
  }

  lemma SavedRecorded(urls: seq<string>, fetch: string -> bool, i: nat, pages: seq<nat>)
    requires FetchedRecorded(urls, fetch, i, pages)
    ensures FetchedRecorded(urls, fetch, i + 1, pages + [i])
  {
    forall n | 1 <= n < i + 1 && n <= |urls| && fetch(urls[n - 1]) ensures n in pages + [i] {
      if n < i {
        assert n in pages;
      }
    }
  }

  lemma SkippedStep(urls: seq<string>, info: PatternFinder.ChapterInfo, root: string, fetch: string -> bool,
                    i: nat, paths: seq<string>, pages: seq<nat>)
    requires 1 <= i <= |urls| && Downloaded(urls, info, root, fetch, i, paths, pages) && !fetch(urls[i - 1])
    ensures Downloaded(urls, info, root, fetch, i + 1, paths, pages)
  {
  }

  // ---------------------------------------------------------------------------
  // Chapter information
  // ---------------------------------------------------------------------------

  /** What `([^/]+)-chapter-(\d+)` captures in the URL path: the series slug and the chapter digits. */
  datatype ScrapeMatch = ScrapeMatch(slug: string, digits: string)

  /** The shape the pattern guarantees: a slash-free slug and one or more digits. */
  predicate Matched(m: ScrapeMatch)
  {
    |m.slug| > 0 && '/' !in m.slug && |m.digits| > 0 && AllDigits(m.digits)
  }

  /**
    `extract_chapter_info` of the scraper: from a match, the series is the
    slug with hyphens as spaces in title case and the chapter is the digit
    run; without one, the fixed fallback. `titleCase` stands for Python's
    `str.title`.
  */
  function ExtractChapterInfo(m: Option<ScrapeMatch>, titleCase: string -> string): (r: PatternFinder.ChapterInfo)
    ensures m.None? ==> r == PatternFinder.UnknownInfo
    ensures m.Some? ==> r.series == titleCase(ReplaceChar(m.value.slug, '-', ' '))
                        && r.chapter == m.value.digits
                        && r.title == r.series + " - Chapter " + r.chapter
  {
    match m
    case None => PatternFinder.UnknownInfo
    case Some(x) =>
      var series := titleCase(ReplaceChar(x.slug, '-', ' '));
      PatternFinder.ChapterInfo(series, x.digits, series + " - Chapter " + x.digits)
  }

  /** A matched chapter is always a whole number; the fallback chapter is "1". */
  lemma ChapterIsInteger(m: Option<ScrapeMatch>, titleCase: string -> string)
    requires m.Some? ==> Matched(m.value)
    ensures ParseInt(ExtractChapterInfo(m, titleCase).chapter).Some?
    ensures m.Some? ==> ParseInt(ExtractChapterInfo(m, titleCase).chapter) == Some(DigitsValue(m.value.digits) as int)
  {
    if m.None? {
      assert AllDigits("1");
    }
  }

  // ---------------------------------------------------------------------------
  // Stacking the pages
  // ---------------------------------------------------------------------------

  datatype Size = Size(width: nat, height: nat)

  /** The combined canvas and where each loaded page is pasted. */
  datatype Layout = Layout(width: nat, height: nat, sizes: seq<Size>, xs: seq<int>, ys: seq<int>)

  /** The pages that opened, in order; `None` is a page that failed to load. */
  function Loaded(pages: seq<Option<Size>>): (r: seq<Size>)
    ensures |r| <= |pages|
    ensures forall s :: s in r <==> Some(s) in pages
  {
    if |pages| == 0 then []
    else
      assert forall i :: 1 <= i < |pages| ==> pages[i] == pages[1..][i - 1];
      (if pages[0].Some? then [pages[0].value] else []) + Loaded(pages[1..])
  }

  /** The sum of the first `k` heights. */
  function HeightBefore(sizes: seq<Size>, k: nat): nat
    requires k <= |sizes|
  {
    if k == 0 then 0 else HeightBefore(sizes, k - 1) + sizes[k - 1].height
  }

  /** The greatest width, 0 for no pages. */
  function MaxWidth(sizes: seq<Size>): (r: nat)
    ensures forall i :: 0 <= i < |sizes| ==> sizes[i].width <= r
    ensures |sizes| > 0 ==> exists i :: 0 <= i < |sizes| && sizes[i].width == r
  {
    if |sizes| == 0 then 0
    else
      var m := MaxWidth(sizes[..|sizes| - 1]);
      assert forall i :: 0 <= i < |sizes| - 1 ==> sizes[i] == sizes[..|sizes| - 1][i];
      if sizes[|sizes| - 1].width > m then sizes[|sizes| - 1].width else m
  }

  /**
    `combine_images` up to drawing: no paths is an error, as is no page
    that opens; otherwise the canvas is as wide as the widest page and as
    high as all pages together, each page is centred horizontally within
    it and pasted right below the previous one.
  */
  method CombineLayout(pages: seq<Option<Size>>) returns (r: Result<Layout, string>)
    ensures |pages| == 0 ==> r == Err("No images to combine")
    ensures |pages| > 0 && |Loaded(pages)| == 0 ==> r == Err("No valid images loaded")
    ensures |Loaded(pages)| > 0 ==> r.Ok?
    ensures r.Ok? ==>
      var l := r.value;
      && l.sizes == Loaded(pages)
      && |l.xs| == |l.sizes| && |l.ys| == |l.sizes|
      && l.width == MaxWidth(l.sizes) && l.height == HeightBefore(l.sizes, |l.sizes|)
      && (forall k :: 0 <= k < |l.sizes| ==> 0 <= l.xs[k] && l.xs[k] + l.sizes[k].width <= l.width)
      && (forall k :: 0 <= k < |l.sizes| ==> l.ys[k] == HeightBefore(l.sizes, k))
      && (forall k :: 0 <= k < |l.sizes| ==> l.ys[k] + l.sizes[k].height <= l.height)
  {
    if |pages| == 0 {
      return Err("No images to combine");
    }
    var images, total, widest := MeasurePages(pages);
    if |images| == 0 {
      return Err("No valid images loaded");
    }
    var xs, ys := PlacePages(images, widest);
    forall j | 0 <= j < |images| ensures ys[j] + images[j].height <= total {
      HeightBeforeGrows(images, j + 1, |images|);
    }
    r := Ok(Layout(widest, total, images, xs, ys));
  }

  /** The loading loop: the pages that open, their total height and the greatest width. */
  method MeasurePages(pages: seq<Option<Size>>) returns (images: seq<Size>, total: nat, widest: nat)
    ensures images == Loaded(pages)
    ensures total == HeightBefore(images, |images|)
    ensures widest == MaxWidth(images)
  {
    images, total, widest := [], 0, 0;
    var i := 0;
    while i < |pages|
      invariant 0 <= i <= |pages|
      invariant images == Loaded(pages[..i])
      invariant total == HeightBefore(images, |images|)
      invariant widest == MaxWidth(images)
    {
      assert pages[..i + 1] == pages[..i] + [pages[i]];
      LoadedSnoc(pages[..i], pages[i]);
      if pages[i].Some? {
        var s := pages[i].value;
        HeightBeforeSnoc(images, s);
        MaxWidthSnoc(images, s);
        images := images + [s];
        total := total + s.height;
        widest := if widest > s.width then widest else s.width;
      }
      i := i + 1;
    }
    assert pages[..|pages|] == pages;
  }

  /** The pasting loop: each page centred in the canvas width and placed below the ones before. */
  method PlacePages(images: seq<Size>, widest: nat) returns (xs: seq<int>, ys: seq<int>)
    requires forall j :: 0 <= j < |images| ==> images[j].width <= widest
    ensures |xs| == |images| && |ys| == |images|
    ensures forall j :: 0 <= j < |images| ==> 0 <= xs[j] && xs[j] + images[j].width <= widest
    ensures forall j :: 0 <= j < |images| ==> ys[j] == HeightBefore(images, j)
  {
    xs, ys := [], [];
    var y := 0;
    var k := 0;
    while k < |images|
      invariant k <= |images| && y == HeightBefore(images, k)
      invariant Placed(images, widest, k, xs, ys)
    {
      var x := (widest - images[k].width) / 2;
      PlacedSnoc(images, widest, k, xs, ys, x);
      xs := xs + [x];
      ys := ys + [y];
      y := y + images[k].height;
      k := k + 1;
    }
  }

  /** The first `k` pages are placed: inside the canvas width and stacked in order. */
  ghost predicate Placed(images: seq<Size>, widest: nat, k: nat, xs: seq<int>, ys: seq<int>)
  {
    && k <= |images| && |xs| == k && |ys| == k
    && (forall j :: 0 <= j < k ==> 0 <= xs[j] && xs[j] + images[j].width <= widest)
    && (forall j :: 0 <= j < k ==> ys[j] == HeightBefore(images, j))
  }

  lemma PlacedSnoc(images: seq<Size>, widest: nat, k: nat, xs: seq<int>, ys: seq<int>, x: int)
    requires k < |images| && images[k].width <= widest && x == (widest - images[k].width) / 2
    requires Placed(images, widest, k, xs, ys)
    ensures Placed(images, widest, k + 1, xs + [x], ys + [HeightBefore(images, k)])
  {
    var xs', ys' := xs + [x], ys + [HeightBefore(images, k)];
    forall j | 0 <= j < k + 1 ensures 0 <= xs'[j] && xs'[j] + images[j].width <= widest {
      if j < k {
        assert xs'[j] == xs[j];
      }
    }
    forall j | 0 <= j < k + 1 ensures ys'[j] == HeightBefore(images, j) {
      if j < k {
        assert ys'[j] == ys[j];
      }
    }
  }

  lemma LoadedSnoc(pages: seq<Option<Size>>, p: Option<Size>)
    ensures Loaded(pages + [p]) == Loaded(pages) + (if p.Some? then [p.value] else [])
  {
    if |pages| > 0 {
      assert (pages + [p])[1..] == pages[1..] + [p];
      LoadedSnoc(pages[1..], p);
    } else {
      assert (pages + [p])[1..] == [];
    }
  }

  lemma HeightBeforeSnoc(sizes: seq<Size>, s: Size)
    ensures forall k :: 0 <= k <= |sizes| ==> HeightBefore(sizes + [s], k) == HeightBefore(sizes, k)
    ensures HeightBefore(sizes + [s], |sizes| + 1) == HeightBefore(sizes, |sizes|) + s.height
  {
    forall k | 0 <= k <= |sizes| ensures HeightBefore(sizes + [s], k) == HeightBefore(sizes, k) {
      HeightBeforePrefix(sizes, s, k);
    }
  }

  lemma {:induction false} HeightBeforePrefix(sizes: seq<Size>, s: Size, k: nat)
    requires k <= |sizes|
    ensures HeightBefore(sizes + [s], k) == HeightBefore(sizes, k)
  {
    if k > 0 {
      HeightBeforePrefix(sizes, s, k - 1);
    }
  }

  lemma {:induction false} HeightBeforeGrows(sizes: seq<Size>, a: nat, b: nat)
    requires a <= b <= |sizes|
    ensures HeightBefore(sizes, a) <= HeightBefore(sizes, b)
    decreases b - a
  {
    if a < b {
      HeightBeforeGrows(sizes, a, b - 1);
    }
  }

  lemma MaxWidthSnoc(sizes: seq<Size>, s: Size)
    ensures MaxWidth(sizes + [s]) == if MaxWidth(sizes) > s.width then MaxWidth(sizes) else s.width
  {
    assert (sizes + [s])[..|sizes|] == sizes;
  }
}

=== FILE: seqs.dfy ===
/**
  Generic sequence operations the source performs with Python idioms:
  "keep the first of each key" de-duplication (the `seen = set()` loops) and
  the stable `list.sort(key=...)`, modelled as a stable insertion sort.
*/
module Seqs {

  /** `le` is a total order: total, antisymmetric and transitive. */
  ghost predicate TotalOrder<K(!new)>(le: (K, K) -> bool)
  {
    && (forall a, b :: le(a, b) || le(b, a))
    && (forall a, b :: le(a, b) && le(b, a) ==> a == b)
    && (forall a, b, c :: le(a, b) && le(b, c) ==> le(a, c))
  }

  ghost predicate SortedBy<T, K>(xs: seq<T>, key: T -> K, le: (K, K) -> bool)
  {
    forall i, j :: 0 <= i < j < |xs| ==> le(key(xs[i]), key(xs[j]))
  }

  lemma SplitLast<T>(s: seq<T>)
    requires |s| > 0
    ensures s == s[..|s| - 1] + [s[|s| - 1]]
  {
  }

  lemma SplitFirstTwo<T>(s: seq<T>)
    requires |s| > 1
    ensures s == [s[0], s[1]] + s[2..]
  {
  }

  /** `ys` is `[f(x) for x in xs]`. */
  ghost predicate MapsTo<A, B>(xs: seq<A>, ys: seq<B>, f: A -> B)
  {
    |xs| == |ys| && forall k :: 0 <= k < |xs| ==> ys[k] == f(xs[k])
  }

  lemma MapsToSnoc<A, B>(xs: seq<A>, ys: seq<B>, f: A -> B, x: A)
    requires MapsTo(xs, ys, f)
    ensures MapsTo(xs + [x], ys + [f(x)], f)
  {
    var xs', ys' := xs + [x], ys + [f(x)];
    forall k | 0 <= k < |xs'| ensures ys'[k] == f(xs'[k]) {
      if k < |xs| {
        assert xs'[k] == xs[k] && ys'[k] == ys[k];
      }
    }
  }

  predicate DistinctKeys<T, K(==)>(xs: seq<T>, key: T -> K)
  {
    forall i, j :: 0 <= i < j < |xs| ==> key(xs[i]) != key(xs[j])
  }

  predicate HasKey<T, K(==)>(xs: seq<T>, key: T -> K, k: K)
  {
    exists i :: 0 <= i < |xs| && key(xs[i]) == k
  }

  lemma HasKeySnoc<T, K>(xs: seq<T>, x: T, key: T -> K, k: K)
    ensures HasKey(xs + [x], key, k) <==> HasKey(xs, key, k) || key(x) == k
  {
    if HasKey(xs + [x], key, k) && key(x) != k {
      var i :| 0 <= i < |xs| + 1 && key((xs + [x])[i]) == k;
      assert key(xs[i]) == k;
    }
    if HasKey(xs, key, k) {
      var i :| 0 <= i < |xs| && key(xs[i]) == k;
      assert key((xs + [x])[i]) == k;
    }
    if key(x) == k {
      assert key((xs + [x])[|xs|]) == k;
    }
  }

  /** The position of the first element whose key is `k`. */
  function FirstIndex<T, K(==)>(xs: seq<T>, key: T -> K, k: K): (r: nat)
    requires HasKey(xs, key, k)
    ensures r < |xs| && key(xs[r]) == k
    ensures forall j :: 0 <= j < r ==> key(xs[j]) != k
  {
    var n := |xs|;
    assert xs == xs[..n - 1] + [xs[n - 1]];
    HasKeySnoc(xs[..n - 1], xs[n - 1], key, k);
    if HasKey(xs[..n - 1], key, k) then FirstIndex(xs[..n - 1], key, k) else n - 1
  }

  /**
    Keep the first element of each key, in the order first seen: the
    `if x not in seen: seen.add(x); out.append(x)` loop.
  */
  function DedupBy<T, K(==,!new)>(xs: seq<T>, key: T -> K): (r: seq<T>)
    ensures |r| <= |xs|
    ensures DistinctKeys(r, key)
    ensures forall k :: HasKey(r, key, k) <==> HasKey(xs, key, k)
  {
    if |xs| == 0 then []
    else
      var p := xs[..|xs| - 1];
      var x := xs[|xs| - 1];
      assert xs == p + [x];
      var r := DedupBy(p, key);
      forall k ensures HasKey(xs, key, k) <==> HasKey(p, key, k) || key(x) == k {
        HasKeySnoc(p, x, key, k);
      }
      if HasKey(r, key, key(x)) then r
      else
        forall k ensures HasKey(r + [x], key, k) <==> HasKey(r, key, k) || key(x) == k {
          HasKeySnoc(r, x, key, k);
        }
        r + [x]
  }

  /** One step of `DedupBy`: a new key is appended, a seen one is dropped. */
  lemma DedupBySnoc<T, K(!new)>(xs: seq<T>, x: T, key: T -> K)
    ensures DedupBy(xs + [x], key)
         == if HasKey(DedupBy(xs, key), key, key(x)) then DedupBy(xs, key) else DedupBy(xs, key) + [x]
  {
    assert (xs + [x])[..|xs|] == xs;
  }

  /**
    Each kept element is the first of its key in the input, and the kept
    elements appear in the order of those first occurrences.
  */
  lemma {:induction false} DedupByFirst<T, K(!new)>(xs: seq<T>, key: T -> K)
    ensures var r := DedupBy(xs, key);
            && (forall i :: 0 <= i < |r| ==> HasKey(xs, key, key(r[i])))
            && (forall i :: 0 <= i < |r| ==> r[i] == xs[FirstIndex(xs, key, key(r[i]))])
            && (forall i, j :: 0 <= i < j < |r| ==>
                  FirstIndex(xs, key, key(r[i])) < FirstIndex(xs, key, key(r[j])))
  {
    DedupByFirstOf(xs, key);
  }

  /** `r` holds first occurrences of keys of `xs`, in the order they first occur. */
  ghost predicate FirstOf<T, K>(xs: seq<T>, r: seq<T>, key: T -> K)
  {
    && (forall i :: 0 <= i < |r| ==> HasKey(xs, key, key(r[i])) && r[i] == xs[FirstIndex(xs, key, key(r[i]))])
    && (forall i, j :: 0 <= i < j < |r| ==>
          HasKey(xs, key, key(r[i])) && HasKey(xs, key, key(r[j])) &&
          FirstIndex(xs, key, key(r[i])) < FirstIndex(xs, key, key(r[j])))
  }

  lemma {:induction false} DedupByFirstOf<T, K(!new)>(xs: seq<T>, key: T -> K)
    ensures FirstOf(xs, DedupBy(xs, key), key)
    decreases |xs|
  {
    if |xs| > 0 {
      var p := xs[..|xs| - 1];
      var x := xs[|xs| - 1];
      assert xs == p + [x];
      DedupByFirstOf(p, key);
      DedupByFirstStep(p, x, key);
    }
  }

  lemma DedupByFirstStep<T, K(!new)>(p: seq<T>, x: T, key: T -> K)
    requires FirstOf(p, DedupBy(p, key), key)
    ensures FirstOf(p + [x], DedupBy(p + [x], key), key)
  {
    var rp := DedupBy(p, key);
    DedupBySnoc(p, x, key);
    if HasKey(rp, key, key(x)) {
      FirstOfSnoc(p, x, rp, key);
    } else {
      FirstOfSnocNew(p, x, rp, key);
    }
  }

  /** A later element never changes where a key already present first occurs. */
  lemma FirstOfSnoc<T, K(!new)>(p: seq<T>, x: T, r: seq<T>, key: T -> K)
    requires FirstOf(p, r, key)
    ensures FirstOf(p + [x], r, key)
  {
    var xs := p + [x];
    forall k | HasKey(p, key, k) ensures HasKey(xs, key, k) && FirstIndex(xs, key, k) == FirstIndex(p, key, k) {
      HasKeySnoc(p, x, key, k);
      FirstIndexSnoc(p, x, key, k);
    }
  }

  /** An element of a new key is its key's first occurrence, after all earlier ones. */
  lemma FirstOfSnocNew<T, K(!new)>(p: seq<T>, x: T, r: seq<T>, key: T -> K)
    requires FirstOf(p, r, key) && !HasKey(p, key, key(x))
    ensures FirstOf(p + [x], r + [x], key)
  {
    var xs := p + [x];
    var r' := r + [x];
    FirstOfSnoc(p, x, r, key);
    HasKeySnoc(p, x, key, key(x));
    FirstIndexSnoc(p, x, key, key(x));
    forall i | 0 <= i < |r'| ensures HasKey(xs, key, key(r'[i])) && r'[i] == xs[FirstIndex(xs, key, key(r'[i]))] {
      if i < |r| {
        assert r'[i] == r[i];
      }
    }
    forall i, j | 0 <= i < j < |r'|
      ensures HasKey(xs, key, key(r'[i])) && HasKey(xs, key, key(r'[j]))
      ensures FirstIndex(xs, key, key(r'[i])) < FirstIndex(xs, key, key(r'[j]))
    {
      assert r'[i] == r[i];
      if j < |r| {
        assert r'[j] == r[j];
      }
    }
  }

  lemma FirstIndexSnoc<T, K>(xs: seq<T>, x: T, key: T -> K, k: K)
    requires HasKey(xs + [x], key, k)
    ensures HasKey(xs, key, k) ==> FirstIndex(xs + [x], key, k) == FirstIndex(xs, key, k)
    ensures !HasKey(xs, key, k) ==> FirstIndex(xs + [x], key, k) == |xs|
  {
    assert (xs + [x])[..|xs|] == xs;
  }

  /** Rearranging a sequence keeps the set of keys it has. */
  lemma PermutationHasKey<T, K>(a: seq<T>, b: seq<T>, key: T -> K, k: K)
    requires multiset(a) == multiset(b)
    ensures HasKey(a, key, k) <==> HasKey(b, key, k)
  {
    if HasKey(a, key, k) {
      var i :| 0 <= i < |a| && key(a[i]) == k;
      assert a[i] in multiset(b);
      var j :| 0 <= j < |b| && b[j] == a[i];
    }
    if HasKey(b, key, k) {
      var i :| 0 <= i < |b| && key(b[i]) == k;
      assert b[i] in multiset(a);
      var j :| 0 <= j < |a| && a[j] == b[i];
    }
  }

  /** The subsequence of elements whose key is `k`. */
  function FilterKey<T, K(==)>(xs: seq<T>, key: T -> K, k: K): (r: seq<T>)
    ensures |r| <= |xs|
  {
    if |xs| == 0 then []
    else FilterKey(xs[..|xs| - 1], key, k) + (if key(xs[|xs| - 1]) == k then [xs[|xs| - 1]] else [])
  }

  lemma {:induction false} FilterKeyAppend<T, K>(a: seq<T>, b: seq<T>, key: T -> K, k: K)
    ensures FilterKey(a + b, key, k) == FilterKey(a, key, k) + FilterKey(b, key, k)
    decreases |b|
  {
    if |b| == 0 {
      assert a + b == a;
    } else {
      var b' := b[..|b| - 1];
      assert (a + b)[..|a + b| - 1] == a + b';
      FilterKeyAppend(a, b', key, k);
    }
  }

  /**
    Insert `x` into `s` after every element whose key is at most `x`'s; with
    `s` sorted this places `x` after the elements equal to it, which is what
    makes the sort stable.
  */
  function Insert<T, K>(s: seq<T>, x: T, key: T -> K, le: (K, K) -> bool): (r: seq<T>)
    ensures |r| == |s| + 1
  {
    if |s| == 0 then [x]
    else if le(key(s[|s| - 1]), key(x)) then s + [x]
    else
      var p := s[..|s| - 1];
      assert s == p + [s[|s| - 1]];
      Insert(p, x, key, le) + [s[|s| - 1]]
  }

  /** Python's stable `sorted(xs, key=key)` under the order `le`. */
  function SortBy<T, K>(xs: seq<T>, key: T -> K, le: (K, K) -> bool): (r: seq<T>)
    ensures |r| == |xs|
  {
    if |xs| == 0 then []
    else
      var p := xs[..|xs| - 1];
      Insert(SortBy(p, key, le), xs[|xs| - 1], key, le)
  }

  /** Inserting adds exactly the one element. */
  lemma {:induction false} InsertPermutation<T, K>(s: seq<T>, x: T, key: T -> K, le: (K, K) -> bool)
    ensures multiset(Insert(s, x, key, le)) == multiset(s) + multiset{x}
  {
    if |s| > 0 && !le(key(s[|s| - 1]), key(x)) {
      var p := s[..|s| - 1];
      assert s == p + [s[|s| - 1]];
      InsertPermutation(p, x, key, le);
    }
  }

  /** Sorting is a permutation. */
  lemma {:induction false} SortByPermutation<T, K>(xs: seq<T>, key: T -> K, le: (K, K) -> bool)
    ensures multiset(SortBy(xs, key, le)) == multiset(xs)
  {
    if |xs| > 0 {
      var p := xs[..|xs| - 1];
      assert xs == p + [xs[|xs| - 1]];
      SortByPermutation(p, key, le);
      InsertPermutation(SortBy(p, key, le), xs[|xs| - 1], key, le);
    }
  }

  lemma {:induction false} InsertSorted<T, K(!new)>(s: seq<T>, x: T, key: T -> K, le: (K, K) -> bool)
    requires TotalOrder(le) && SortedBy(s, key, le)
    ensures SortedBy(Insert(s, x, key, le), key, le)
  {
    if |s| > 0 && !le(key(s[|s| - 1]), key(x)) {
      var p := s[..|s| - 1];
      var last := s[|s| - 1];
      InsertSorted(p, x, key, le);
      var q := Insert(p, x, key, le);
      InsertPermutation(p, x, key, le);
      forall y | y in q ensures le(key(y), key(last)) {
        assert y in multiset(q);
        if y != x {
          assert y in multiset(p);
          var i :| 0 <= i < |p| && p[i] == y;
          assert s[i] == y;
        }
      }
      var r := q + [last];
      forall i, j | 0 <= i < j < |r| ensures le(key(r[i]), key(r[j])) {
        if j == |q| {
          assert r[i] in q;
        }
      }
    }
  }

  lemma {:induction false} SortBySorted<T, K(!new)>(xs: seq<T>, key: T -> K, le: (K, K) -> bool)
    requires TotalOrder(le)
    ensures SortedBy(SortBy(xs, key, le), key, le)
  {
    if |xs| > 0 {
      SortBySorted(xs[..|xs| - 1], key, le);
      InsertSorted(SortBy(xs[..|xs| - 1], key, le), xs[|xs| - 1], key, le);
    }
  }

  lemma FilterKeySingle<T, K>(x: T, key: T -> K, k: K)
    ensures FilterKey([x], key, k) == if key(x) == k then [x] else []
  {
    assert [x][..0] == [];
  }

  /** Two neighbours with different keys can swap without changing any key's subsequence. */
  lemma FilterKeySwap<T, K>(p: seq<T>, x: T, y: T, key: T -> K, k: K)
    requires key(x) != key(y)
    ensures FilterKey(p + [x] + [y], key, k) == FilterKey(p + [y] + [x], key, k)
  {
    FilterKeyAppend(p + [x], [y], key, k);
    FilterKeyAppend(p, [x], key, k);
    FilterKeyAppend(p + [y], [x], key, k);
    FilterKeyAppend(p, [y], key, k);
    FilterKeySingle(x, key, k);
    FilterKeySingle(y, key, k);
  }

  /** Inserting `x` keeps every key's subsequence as if `x` had been appended. */
  lemma {:induction false} InsertStable<T, K(!new)>(s: seq<T>, x: T, key: T -> K, le: (K, K) -> bool, k: K)
    requires forall a :: le(a, a)
    ensures FilterKey(Insert(s, x, key, le), key, k) == FilterKey(s + [x], key, k)
  {
    if |s| == 0 {
      assert s + [x] == [x];
    } else if !le(key(s[|s| - 1]), key(x)) {
      var p := s[..|s| - 1];
      var last := s[|s| - 1];
      assert le(key(x), key(x));
      assert s == p + [last];
      var q := Insert(p, x, key, le);
      assert Insert(s, x, key, le) == q + [last];
      InsertStable(p, x, key, le, k);
      FilterKeyAppend(q, [last], key, k);
      FilterKeyAppend(p + [x], [last], key, k);
      FilterKeySwap(p, x, last, key, k);
    }
  }

  /** Sorting keeps the relative order of elements with equal keys. */
  lemma {:induction false} SortByStable<T, K(!new)>(xs: seq<T>, key: T -> K, le: (K, K) -> bool, k: K)
    requires TotalOrder(le)
    ensures FilterKey(SortBy(xs, key, le), key, k) == FilterKey(xs, key, k)
  {
    if |xs| > 0 {
      var p := xs[..|xs| - 1];
      var x := xs[|xs| - 1];
      assert xs == p + [x];
      var sp := SortBy(p, key, le);
      assert forall a :: le(a, a);
      calc {
        FilterKey(SortBy(xs, key, le), key, k);
        FilterKey(Insert(sp, x, key, le), key, k);
        { InsertStable(sp, x, key, le, k); }
        FilterKey(sp + [x], key, k);
        { FilterKeyAppend(sp, [x], key, k); }
        FilterKey(sp, key, k) + FilterKey([x], key, k);
        { SortByStable(p, key, le, k); }
        FilterKey(p, key, k) + FilterKey([x], key, k);
        { FilterKeyAppend(p, [x], key, k); }
        FilterKey(xs, key, k);
      }
    }
  }

  /** An already sorted sequence is left as it is. */
  lemma {:induction false} SortBySortedInput<T, K>(xs: seq<T>, key: T -> K, le: (K, K) -> bool)
    requires SortedBy(xs, key, le)
    ensures SortBy(xs, key, le) == xs
  {
    if |xs| > 0 {
      var p := xs[..|xs| - 1];
      var x := xs[|xs| - 1];
      assert SortedBy(p, key, le) by {
        forall i, j | 0 <= i < j < |p| ensures le(key(p[i]), key(p[j])) {
          assert p[i] == xs[i] && p[j] == xs[j];
        }
      }
      SortBySortedInput(p, key, le);
      assert xs == p + [x];
      if |p| > 0 {
        assert le(key(xs[|p| - 1]), key(xs[|xs| - 1]));
        assert Insert(p, x, key, le) == p + [x];
      }
    }
  }

  lemma {:induction false} InsertDistinct<T, K, S>(s: seq<T>, x: T, key: T -> K, sortKey: T -> S, le: (S, S) -> bool)
    requires DistinctKeys(s, key) && !HasKey(s, key, key(x))
    ensures DistinctKeys(Insert(s, x, sortKey, le), key)
  {
    if |s| > 0 && !le(sortKey(s[|s| - 1]), sortKey(x)) {
      var p := s[..|s| - 1];
      var last := s[|s| - 1];
      forall i | 0 <= i < |p| ensures key(p[i]) != key(x) {
        assert p[i] == s[i];
      }
      InsertDistinct(p, x, key, sortKey, le);
      var q := Insert(p, x, sortKey, le);
      InsertPermutation(p, x, sortKey, le);
      forall y | y in q ensures key(y) != key(last) {
        assert y in multiset(q);
        if y != x {
          assert y in multiset(p);
          var i :| 0 <= i < |p| && p[i] == y;
          assert s[i] == y;
        } else {
          assert !(key(s[|s| - 1]) == key(x));
        }
      }
      var r := q + [last];
      forall i, j | 0 <= i < j < |r| ensures key(r[i]) != key(r[j]) {
        if j == |q| {
          assert r[i] in q;
        }
      }
    } else if |s| > 0 {
      var r := s + [x];
      forall i, j | 0 <= i < j < |r| ensures key(r[i]) != key(r[j]) {
        if j == |s| {
          assert key(s[i]) != key(x);
        }
      }
    }
  }

  /** Sorting keeps keys pairwise distinct. */
  lemma {:induction false} SortByDistinct<T, K, S>(xs: seq<T>, key: T -> K, sortKey: T -> S, le: (S, S) -> bool)
    requires DistinctKeys(xs, key)
    ensures DistinctKeys(SortBy(xs, sortKey, le), key)
  {
    if |xs| > 0 {
      var p := xs[..|xs| - 1];
      var x := xs[|xs| - 1];
      assert DistinctKeys(p, key);
      SortByDistinct(p, key, sortKey, le);
      var sp := SortBy(p, sortKey, le);
      SortByPermutation(p, sortKey, le);
      forall i | 0 <= i < |sp| ensures key(sp[i]) != key(x) {
        assert sp[i] in multiset(p);
        var j :| 0 <= j < |p| && p[j] == sp[i];
        assert xs[j] == p[j];
      }
      InsertDistinct(sp, x, key, sortKey, le);
    }
  }

  /** After de-duplication and sorting, every element is still the first of its key in the input. */
  lemma SortedDedupFirst<T, K(!new), S>(xs: seq<T>, key: T -> K, sortKey: T -> S, le: (S, S) -> bool)
    ensures var r := SortBy(DedupBy(xs, key), sortKey, le);
            forall i :: 0 <= i < |r| ==>
              HasKey(xs, key, key(r[i])) && r[i] == xs[FirstIndex(xs, key, key(r[i]))]
  {
    var d := DedupBy(xs, key);
    var r := SortBy(d, sortKey, le);
    DedupByFirst(xs, key);
    SortByPermutation(d, sortKey, le);
    forall i | 0 <= i < |r| ensures HasKey(xs, key, key(r[i])) && r[i] == xs[FirstIndex(xs, key, key(r[i]))] {
      assert r[i] in multiset(d);
      var j :| 0 <= j < |d| && d[j] == r[i];
    }
  }

  /**
    The combined guarantee of "keep the first of each key, then sort": keys
    are distinct, the result is sorted, the same keys are present, and each
    element is the first of its key in the input.
  */
  lemma SortedDedup<T, K(!new), S(!new)>(xs: seq<T>, key: T -> K, sortKey: T -> S, le: (S, S) -> bool)
    requires TotalOrder(le)
    ensures var r := SortBy(DedupBy(xs, key), sortKey, le);
            && DistinctKeys(r, key)
            && SortedBy(r, sortKey, le)
            && (forall k :: HasKey(r, key, k) <==> HasKey(xs, key, k))
            && (forall i :: 0 <= i < |r| ==>
                  HasKey(xs, key, key(r[i])) && r[i] == xs[FirstIndex(xs, key, key(r[i]))])
  {
    var d := DedupBy(xs, key);
    var r := SortBy(d, sortKey, le);
    SortBySorted(d, sortKey, le);
    SortByDistinct(d, key, sortKey, le);
    SortByPermutation(d, sortKey, le);
    forall k ensures HasKey(r, key, k) <==> HasKey(xs, key, k) {
      PermutationHasKey(r, d, key, k);
    }
    SortedDedupFirst(xs, key, sortKey, le);
  }

  /** One step of `SortBy`: the last element is inserted into the sorted prefix. */
  lemma SortBySnoc<T, K>(xs: seq<T>, x: T, key: T -> K, le: (K, K) -> bool)
    ensures SortBy(xs + [x], key, le) == Insert(SortBy(xs, key, le), x, key, le)
  {
    assert (xs + [x])[..|xs|] == xs;
  }

  /** A sequence whose keys are already distinct is its own de-duplication. */
  lemma {:induction false} DedupByDistinct<T, K(!new)>(xs: seq<T>, key: T -> K)
    requires DistinctKeys(xs, key)
    ensures DedupBy(xs, key) == xs
  {
    if |xs| > 0 {
      var p := xs[..|xs| - 1];
      var x := xs[|xs| - 1];
      assert DistinctKeys(p, key);
      DedupByDistinct(p, key);
      assert xs == p + [x];
      forall i | 0 <= i < |p| ensures key(p[i]) != key(x) {
        assert p[i] == xs[i];
      }
      DedupBySnoc(p, x, key);
    }
  }

  /** An element whose key is below every key in `s` is inserted at the front. */
  lemma {:induction false} InsertFront<T, K>(s: seq<T>, x: T, key: T -> K, le: (K, K) -> bool)
    requires forall i :: 0 <= i < |s| ==> !le(key(s[i]), key(x))
    ensures Insert(s, x, key, le) == [x] + s
  {
    if |s| > 0 {
      var p := s[..|s| - 1];
      InsertFront(p, x, key, le);
      assert [x] + p + [s[|s| - 1]] == [x] + s;
    }
  }

  /** Four elements whose keys strictly descend are sorted into reverse order. */
  lemma SortReversed4<T, K>(a: T, b: T, c: T, d: T, key: T -> K, le: (K, K) -> bool)
    requires !le(key(a), key(b)) && !le(key(b), key(c)) && !le(key(c), key(d))
    requires !le(key(a), key(c)) && !le(key(a), key(d)) && !le(key(b), key(d))
    ensures SortBy([a, b, c, d], key, le) == [d, c, b, a]
  {
    assert [a] == [] + [a];
    SortBySnoc([], a, key, le);
    assert SortBy([a], key, le) == [a];
    assert [a, b] == [a] + [b];
    SortBySnoc([a], b, key, le);
    InsertFront([a], b, key, le);
    assert SortBy([a, b], key, le) == [b, a];
    assert [a, b, c] == [a, b] + [c];
    SortBySnoc([a, b], c, key, le);
    InsertFront([b, a], c, key, le);
    assert SortBy([a, b, c], key, le) == [c, b, a];
    assert [a, b, c, d] == [a, b, c] + [d];
    SortBySnoc([a, b, c], d, key, le);
    InsertFront([c, b, a], d, key, le);
  }

  /** De-duplicating a sorted sequence keeps it sorted. */
  lemma DedupSorted<T, K(!new), S>(xs: seq<T>, key: T -> K, sortKey: T -> S, le: (S, S) -> bool)
    requires SortedBy(xs, sortKey, le)
    ensures SortedBy(DedupBy(xs, key), sortKey, le)
  {
    DedupByFirst(xs, key);
  }

  /**
    In a sorted sequence, the element de-duplication keeps for a key comes
    first in the order among all elements with that key.
  */
  lemma DedupKeepsLeast<T, K(!new), S(!new)>(xs: seq<T>, key: T -> K, sortKey: T -> S, le: (S, S) -> bool, i: nat, j: nat)
    requires TotalOrder(le) && SortedBy(xs, sortKey, le)
    requires i < |DedupBy(xs, key)| && j < |xs| && key(xs[j]) == key(DedupBy(xs, key)[i])
    ensures le(sortKey(DedupBy(xs, key)[i]), sortKey(xs[j]))
  {
    var d := DedupBy(xs, key);
    DedupByFirst(xs, key);
    var f := FirstIndex(xs, key, key(d[i]));
    assert f <= j;
    TotalOrderReflexive(le, sortKey(xs[j]));
  }

  /** De-duplication only drops elements. */
  lemma {:induction false} DedupBySubset<T, K(!new)>(xs: seq<T>, key: T -> K, x: T)
    requires x in DedupBy(xs, key)
    ensures x in xs
    decreases |xs|
  {
    var p := xs[..|xs| - 1];
    assert xs == p + [xs[|xs| - 1]];
    DedupBySnoc(p, xs[|xs| - 1], key);
    if x in DedupBy(p, key) {
      DedupBySubset(p, key, x);
    }
  }

  lemma TotalOrderReflexive<K(!new)>(le: (K, K) -> bool, a: K)
    requires TotalOrder(le)
    ensures le(a, a)
  {
    var b := a;
    assert le(a, b) || le(b, a);
  }

  /** Without an element of key `k` the filter is empty. */
  lemma {:induction false} FilterKeyNone<T, K>(xs: seq<T>, key: T -> K, k: K)
    requires !HasKey(xs, key, k)
    ensures FilterKey(xs, key, k) == []
    decreases |xs|
  {
    if |xs| > 0 {
      var p := xs[..|xs| - 1];
      assert xs == p + [xs[|xs| - 1]];
      HasKeySnoc(p, xs[|xs| - 1], key, k);
      FilterKeyNone(p, key, k);
    }
  }

  /** The filter for key `k` starts with the first element of key `k`. */
  lemma {:induction false} FilterKeyHead<T, K>(xs: seq<T>, key: T -> K, k: K)
    requires HasKey(xs, key, k)
    ensures |FilterKey(xs, key, k)| > 0 && FilterKey(xs, key, k)[0] == xs[FirstIndex(xs, key, k)]
    decreases |xs|
  {
    var p := xs[..|xs| - 1];
    var x := xs[|xs| - 1];
    assert xs == p + [x];
    FirstIndexSnoc(p, x, key, k);
    if HasKey(p, key, k) {
      FilterKeyHead(p, key, k);
    } else {
      FilterKeyNone(p, key, k);
    }
  }

  /**
    A stable sort puts the first element of key `k` in the input ahead of
    every other element whose sort key equals its own.
  */
  lemma StableFirst<T, K(!new)>(xs: seq<T>, key: T -> K, le: (K, K) -> bool)
    requires TotalOrder(le) && |xs| > 0
    ensures var ys := SortBy(xs, key, le);
            && HasKey(ys, key, key(xs[0]))
            && ys[FirstIndex(ys, key, key(xs[0]))] == xs[0]
  {
    var ys := SortBy(xs, key, le);
    var k := key(xs[0]);
    assert HasKey(xs, key, k);
    SortByPermutation(xs, key, le);
    PermutationHasKey(ys, xs, key, k);
    SortByStable(xs, key, le, k);
    var f := FilterKey(xs, key, k);
    FilterKeyHead(xs, key, k);
    assert FirstIndex(xs, key, k) == 0;
    FilterKeyHead(ys, key, k);
    assert ys[FirstIndex(ys, key, k)] == f[0] == xs[0];
  }
}

=== FILE: store.dfy ===
/**
  The downloads directory as the programs see it: one listing per chapter
  directory `<series>/<chapter folder>`, each listing a sequence of files and
  sub-directories in the order the operating system yields them.
*/
module Store {
  import opened Wrappers
  import opened Text

  datatype Entry = File(name: string) | Directory(name: string)

  type Listing = seq<Entry>

  /** A chapter directory, relative to the downloads root. */
  datatype ChapterDir = ChapterDir(series: string, folder: string)

  type Library = map<ChapterDir, Listing>

  /** The name of the completion marker file. */
  const Marker := "completed"

  /** The image extensions recognised when listing or counting pages. */
  const ImageExtensions: set<string> := {".jpg", ".jpeg", ".png", ".gif", ".bmp", ".webp"}

  /** Python's `s.rfind(c)`, with `None` for -1. */
  function LastIndexOf(s: string, c: char): (r: Option<nat>)
    ensures r.None? <==> c !in s
    ensures r.Some? ==> r.value < |s| && s[r.value] == c && c !in s[r.value + 1..]
  {
    if |s| == 0 then None
    else if s[|s| - 1] == c then
      assert s[|s|..] == [];
      Some(|s| - 1)
    else
      var p := s[..|s| - 1];
      assert s == p + [s[|s| - 1]];
      var t := LastIndexOf(p, c);
      if t.Some? then
        assert s[t.value + 1..] == p[t.value + 1..] + [s[|s| - 1]];
        t
      else None
  }

  /**
    `PurePath.suffix`: from the last dot to the end, provided the dot is
    neither the first nor the last character; otherwise empty.
  */
  function Suffix(name: string): (r: string)
    ensures r == "" || (2 <= |r| < |name| && r[0] == '.' && '.' !in r[1..] && r == name[|name| - |r|..])
  {
    match LastIndexOf(name, '.')
    case None => ""
    case Some(i) => if 0 < i < |name| - 1 then name[i..] else ""
  }

  /** A non-empty stem followed by `.ext` (no dot in `ext`) has suffix `.ext`. */
  lemma SuffixOf(stem: string, ext: string)
    requires 0 < |stem| && 0 < |ext| && '.' !in ext
    ensures Suffix(stem + "." + ext) == "." + ext
  {
    var name := stem + "." + ext;
    assert name[|stem| + 1..] == ext;
    assert name[|stem|] == '.';
  }

  /** A name without a dot has no suffix. */
  lemma NoSuffix(name: string)
    requires '.' !in name
    ensures Suffix(name) == ""
  {
  }

  /** `file_path.is_file() and file_path.suffix.lower() in image_extensions`. */
  predicate IsImage(e: Entry)
  {
    e.File? && Lower(Suffix(e.name)) in ImageExtensions
  }

  /** `<stem>.<ext>` is an image file when `.<ext>` is a recognised lower-case extension. */
  lemma ImageFileName(stem: string, ext: string)
    requires 0 < |stem| && 0 < |ext| && '.' !in ext
    requires "." + ext in ImageExtensions
    requires forall k :: 0 <= k < |ext| ==> !IsUpper(ext[k])
    ensures IsImage(File(stem + "." + ext))
  {
    SuffixOf(stem, ext);
    LowerNoUpper("." + ext);
  }

  /** The marker is never counted as a page. */
  lemma MarkerIsNotImage()
    ensures !IsImage(File(Marker))
  {
    NoSuffix(Marker);
  }

  /** The names of the image files of a listing, in listing order. */
  function ImageNames(l: Listing): (r: seq<string>)
    ensures |r| <= |l|
    ensures forall n :: n in r <==> File(n) in l && IsImage(File(n))
  {
    if |l| == 0 then []
    else
      var p := l[..|l| - 1];
      assert l == p + [l[|l| - 1]];
      ImageNames(p) + (if IsImage(l[|l| - 1]) then [l[|l| - 1].name] else [])
  }

  /** Listing one more entry adds its name when it is an image. */
  lemma ImageNamesSnoc(l: Listing, e: Entry)
    ensures ImageNames(l + [e]) == ImageNames(l) + (if IsImage(e) then [e.name] else [])
  {
    assert (l + [e])[..|l|] == l;
  }

  /** Whether an entry of that name exists (`(dir / name).exists()`). */
  predicate HasEntry(l: Listing, name: string)
  {
    exists e :: e in l && e.name == name
  }

  /** Writing a file: a name already present is overwritten in place, a new one is appended. */
  function AddFile(l: Listing, name: string): (r: Listing)
    ensures HasEntry(r, name)
    ensures forall e :: e in l ==> e in r
    ensures forall e :: e in r ==> e in l || e == File(name)
    ensures HasEntry(l, name) ==> r == l
  {
    if HasEntry(l, name) then l
    else
      assert File(name) in l + [File(name)];
      l + [File(name)]
  }

  datatype ChapterStatus = ChapterStatus(exists_: bool, complete: bool, pageCount: nat)

  /** The folder of chapter `n`: `chapter_<n>`. */
  function ChapterFolder(n: string): (r: string)
    ensures |r| == 8 + |n| && r[..8] == "chapter_" && r[8..] == n
  {
    "chapter_" + n
  }

  /**
    `get_chapter_status`: a missing directory reports nothing; otherwise
    the marker decides completeness and the image files are counted.
  */
  function GetChapterStatus(lib: Library, series: string, n: int): (r: ChapterStatus)
    ensures ChapterDir(series, ChapterFolder(IntStr(n))) !in lib <==> !r.exists_
    ensures !r.exists_ ==> r == ChapterStatus(false, false, 0)
    ensures r.exists_ ==>
              var l := lib[ChapterDir(series, ChapterFolder(IntStr(n)))];
              && r.complete == HasEntry(l, Marker)
              && r.pageCount == |ImageNames(l)|
              && r.pageCount <= |l|
  {
    var d := ChapterDir(series, ChapterFolder(IntStr(n)));
    if d !in lib then ChapterStatus(false, false, 0)
    else ChapterStatus(true, HasEntry(lib[d], Marker), |ImageNames(lib[d])|)
  }

  /** Adding the marker to a listing never changes its page count. */
  lemma MarkerNotCounted(l: Listing)
    ensures ImageNames(AddFile(l, Marker)) == ImageNames(l)
  {
    MarkerIsNotImage();
    if !HasEntry(l, Marker) {
      var r := l + [File(Marker)];
      assert r[..|r| - 1] == l;
    }
  }
}

=== FILE: terminal.dfy ===
/**
  The terminal reader's pure parts: reading a command line, the page
  cursor it moves through a chapter's images, the numbered menus for
  picking a series or chapter, and the grey-level-to-character ramp of
  the ASCII preview.
*/
module Terminal {
  import opened Wrappers
  import opened Text

  // ---------------------------------------------------------------------------
  // Command lines
  // ---------------------------------------------------------------------------

  /**
    Python's whitespace for `str.strip()` and `str.split()`, ASCII part:
    space, tab, line feed, vertical tab, form feed, carriage return and
    the four separators `\x1c`-`\x1f`.
  */
  predicate IsSpace(c: char)
  {
    c == ' ' || '\t' <= c <= '\r' || '\U{1C}' <= c <= '\U{1F}'
  }

  function DropLeading(s: string): (r: string)
    ensures |r| <= |s| && r == s[|s| - |r|..]
    ensures |r| > 0 ==> !IsSpace(r[0])
    ensures forall i :: 0 <= i < |s| - |r| ==> IsSpace(s[i])
  {
    if |s| > 0 && IsSpace(s[0]) then DropLeading(s[1..]) else s
  }

  function DropTrailing(s: string): (r: string)
    ensures |r| <= |s| && r == s[..|r|]
    ensures |r| > 0 ==> !IsSpace(r[|r| - 1])
    ensures forall i :: |r| <= i < |s| ==> IsSpace(s[i])
  {
    if |s| > 0 && IsSpace(s[|s| - 1]) then DropTrailing(s[..|s| - 1]) else s
  }

  /** Python's `s.strip()`. */
  function Strip(s: string): (r: string)
    ensures |r| > 0 ==> !IsSpace(r[0]) && !IsSpace(r[|r| - 1])
  {
    DropTrailing(DropLeading(s))
  }

  /** What `get_user_input` returns for a typed line: stripped and lower-cased. */
  function Normalize(line: string): string
  {
    Lower(Strip(line))
  }

  /** The leading run of non-space characters. */
  function TakeWord(s: string): (r: string)
    ensures |r| <= |s| && r == s[..|r|]
    ensures forall i :: 0 <= i < |r| ==> !IsSpace(r[i])
    ensures |r| < |s| ==> IsSpace(s[|r|])
  {
    if |s| == 0 || IsSpace(s[0]) then [] else [s[0]] + TakeWord(s[1..])
  }

  /** The first whitespace-separated word, as `s.split()[0]` gives it. */
  function FirstWord(s: string): string
  {
    TakeWord(DropLeading(s))
  }

  /** The reader's commands, each with its one-letter and its long spelling. */
  datatype Command =
    | Quit | Next | Prev | First | Last
    | Goto(page: Option<int>)
    | Series | Chapter | Info | Ascii | Help | Unknown

  /**
    The dispatch of `read_chapter` on a normalised command line. For `g n`
    the page is `int(command.split()[1])`, or nothing when that is not an
    integer; the line was stripped, so a second word always exists.
  */
  function Parse(command: string): (c: Command)
    ensures c.Goto? <==> command !in ["q", "quit", "n", "next", "p", "prev", "f", "first", "l", "last"]
                         && |command| >= 2 && command[..2] == "g "
  {
    if command in ["q", "quit"] then Quit
    else if command in ["n", "next"] then Next
    else if command in ["p", "prev"] then Prev
    else if command in ["f", "first"] then First
    else if command in ["l", "last"] then Last
    else if |command| >= 2 && command[..2] == "g " then Goto(ParseInt(FirstWord(command[2..])))
    else if command in ["s", "series"] then Series
    else if command in ["c", "chapter"] then Chapter
    else if command in ["i", "info"] then Info
    else if command in ["a", "ascii"] then Ascii
    else if command in ["h", "help"] then Help
    else Unknown
  }

  // ---------------------------------------------------------------------------
  // The page cursor
  // ---------------------------------------------------------------------------

  /** The state of `read_chapter`'s loop: the chapter's images, the page shown, and the preview switch. */
  datatype Reader = Reader(images: seq<string>, page: int, showAscii: bool)

  /** The page is one of the chapter's images. */
  predicate OnPage(r: Reader)
  {
    0 <= r.page < |r.images|
  }

  /** What one command does: the loop goes on with a new state, or ends. */
  datatype Outcome = Continue(reader: Reader) | Exit

  /**
    One command. `picked` is what the chapter menu produced for `c`: the
    images of the chosen chapter, or nothing when the menu was left.
  */
  function Apply(r: Reader, c: Command, picked: Option<seq<string>>): (o: Outcome)
    ensures OnPage(r) && o.Continue? ==> OnPage(o.reader)
    ensures o.Continue? && !c.Chapter? ==> o.reader.images == r.images
    ensures o.Exit? <==> c.Quit? || c.Series? || (c.Chapter? && picked.Some? && |picked.value| == 0)
  {
    match c
    case Quit => Exit
    case Series => Exit
    case Next => Continue(if r.page < |r.images| - 1 then r.(page := r.page + 1) else r)
    case Prev => Continue(if r.page > 0 then r.(page := r.page - 1) else r)
    case First => Continue(r.(page := 0))
    case Last => Continue(r.(page := |r.images| - 1))
    case Goto(n) =>
      if n.Some? && 0 <= n.value - 1 < |r.images| then Continue(r.(page := n.value - 1)) else Continue(r)
    case Chapter =>
      if picked.None? then Continue(r)
      else if |picked.value| == 0 then Exit
      else Continue(Reader(picked.value, 0, r.showAscii))
    case Ascii => Continue(r.(showAscii := !r.showAscii))
    case Info => Continue(r)
    case Help => Continue(r)
    case Unknown => Continue(r)
  }

  /** A typed line, as the loop handles it. */
  function Step(r: Reader, line: string, picked: Option<seq<string>>): Outcome
  {
    Apply(r, Parse(Normalize(line)), picked)
  }

  /** `next` then `prev` away from the last page comes back to where it started. */
  lemma NextThenPrev(r: Reader)
    requires OnPage(r) && r.page < |r.images| - 1
    ensures Apply(Apply(r, Next, None).reader, Prev, None) == Continue(r)
  {
  }

  /** At the ends `next` and `prev` stay put; elsewhere they move by exactly one page. */
  lemma NextPrevAtEnds(r: Reader)
    requires OnPage(r)
    ensures Apply(r, Next, None).reader.page == if r.page == |r.images| - 1 then r.page else r.page + 1
    ensures Apply(r, Prev, None).reader.page == if r.page == 0 then 0 else r.page - 1
  {
  }

  /** Typing `g k` shows page k when 1 <= k <= the page count, and otherwise leaves the page alone. */
  lemma GotoPage(r: Reader, k: nat)
    ensures Step(r, "g " + NatStr(k), None)
         == Continue(if 1 <= k <= |r.images| then r.(page := k - 1) else r)
  {
    NormalizeGoto(k);
    ParseGoto(k);
  }

  /** A line that is already stripped and has no capitals is its own normal form. */
  lemma NormalizePlain(s: string)
    requires |s| > 0 && !IsSpace(s[0]) && !IsSpace(s[|s| - 1])
    requires forall i :: 0 <= i < |s| ==> !IsUpper(s[i])
    ensures Normalize(s) == s
  {
    assert DropLeading(s) == s;
    assert DropTrailing(s) == s;
    LowerNoUpper(s);
  }

  lemma NormalizeGoto(k: nat)
    ensures Normalize("g " + NatStr(k)) == "g " + NatStr(k)
  {
    var d := NatStr(k);
    var line := "g " + d;
    assert line[|line| - 1] == d[|d| - 1];
    forall i | 0 <= i < |line| ensures !IsUpper(line[i]) {
      if i >= 2 {
        assert line[i] == d[i - 2];
      }
    }
    NormalizePlain(line);
  }

  lemma ParseGoto(k: nat)
    ensures Parse("g " + NatStr(k)) == Goto(Some(k))
  {
    var d := NatStr(k);
    var line := "g " + d;
    NotAKeyword(line);
    assert line[..2] == "g " && line[2..] == d;
    DigitsAreOneWord(d);
    ParseIntStr(k);
  }

  /** A line starting with `g` is none of the other commands' spellings. */
  lemma NotAKeyword(line: string)
    requires |line| > 0 && line[0] == 'g'
    ensures line !in ["q", "quit", "n", "next", "p", "prev", "f", "first", "l", "last"]
    ensures line !in ["s", "series", "c", "chapter", "i", "info", "a", "ascii", "h", "help"]
  {
  }

  /** A number has no space in it, so it is its own first word. */
  lemma DigitsAreOneWord(d: string)
    requires AllDigits(d)
    ensures FirstWord(d) == d
  {
    assert |d| > 0 ==> !IsSpace(d[0]);
    assert DropLeading(d) == d;
    TakeWordAll(d);
  }

  lemma {:induction false} TakeWordAll(s: string)
    requires AllDigits(s)
    ensures TakeWord(s) == s
  {
    if |s| > 0 {
      TakeWordAll(s[1..]);
    }
  }

  /**
    `read_chapter` over a sequence of typed lines, each with what the
    chapter menu would answer: returns the state after the last command
    handled and whether the loop was left. The loop does not start on a
    chapter without images.
  */
  method ReadChapter(r: Reader, lines: seq<(string, Option<seq<string>>)>) returns (last: Reader, left: bool)
    requires r.page == 0
    ensures |r.images| > 0 ==> OnPage(last)
    ensures |r.images| == 0 ==> left && last == r
  {
    last, left := r, false;
    if |r.images| == 0 {
      left := true;
      return;
    }
    var i := 0;
    while i < |lines| && !left
      invariant 0 <= i <= |lines|
      invariant OnPage(last)
    {
      var o := Step(last, lines[i].0, lines[i].1);
      if o.Exit? {
        left := true;
      } else {
        last := o.reader;
      }
      i := i + 1;
    }
  }

  // ---------------------------------------------------------------------------
  // Numbered menus
  // ---------------------------------------------------------------------------

  /** What a menu prompt yields. */
  datatype Choice = NothingToPick | QuitMenu | Back | Picked(name: string) | Invalid

  /**
    `select_chapter` (with `backAllowed`) and `select_series` for one typed
    line: an empty list ends the menu before any prompt; `q` quits; for
    chapters `b` goes back; otherwise the number k picks entry k, counted
    from 1, and anything else asks again.
  */
  function Select(names: seq<string>, line: string, backAllowed: bool): (c: Choice)
    ensures c.Picked? <==> |names| > 0 && Normalize(line) !in ["q", "quit"]
                           && !(backAllowed && Normalize(line) in ["b", "back"])
                           && ParseInt(Normalize(line)).Some?
                           && 1 <= ParseInt(Normalize(line)).value <= |names|
    ensures c.Picked? ==> c.name == names[ParseInt(Normalize(line)).value - 1]
  {
    var choice := Normalize(line);
    if |names| == 0 then NothingToPick
    else if choice in ["q", "quit"] then QuitMenu
    else if backAllowed && choice in ["b", "back"] then Back
    else match ParseInt(choice)
      case Some(k) => if 0 <= k - 1 < |names| then Picked(names[k - 1]) else Invalid
      case None => Invalid
  }

  /** Typing the number k picks the k-th entry, for every k in range. */
  lemma PickByNumber(names: seq<string>, k: nat, backAllowed: bool)
    requires 1 <= k <= |names|
    ensures Select(names, NatStr(k), backAllowed) == Picked(names[k - 1])
  {
    var s := NatStr(k);
    forall i | 0 <= i < |s| ensures !IsUpper(s[i]) {
    }
    NormalizePlain(s);
    NumberNotAWord(s);
    ParseIntStr(k);
  }

  /** A number is none of the menus' command words. */
  lemma NumberNotAWord(s: string)
    requires |s| > 0 && IsDigit(s[0])
    ensures s !in ["q", "quit"] && s !in ["b", "back"]
  {
  }

  // ---------------------------------------------------------------------------
  // The ASCII preview
  // ---------------------------------------------------------------------------

  /** The characters from dark to light. */
  const Ramp := " .:-=+*#%@"

  /** `pixel * (len(ascii_chars) - 1) // 255` for a grey level 0..255. */
  function ShadeIndex(pixel: int): (k: int)
    requires 0 <= pixel <= 255
    ensures 0 <= k < |Ramp|
  {
    pixel * (|Ramp| - 1) / 255
  }

  /** Lighter pixels never get a darker character; black and white get the ends of the ramp. */
  lemma ShadeMonotone(a: int, b: int)
    requires 0 <= a <= b <= 255
    ensures ShadeIndex(a) <= ShadeIndex(b)
    ensures ShadeIndex(0) == 0 && ShadeIndex(255) == |Ramp| - 1
  {
    assert a * 9 <= b * 9;
  }

  /** Every character of the ramp is used: level ceil(255k/9) is the darkest that maps to k. */
  lemma ShadeReachesAll(k: int)
    requires 0 <= k < |Ramp|
    ensures ShadeIndex((255 * k + 8) / 9) == k
    ensures (255 * k + 8) / 9 > 0 ==> ShadeIndex((255 * k + 8) / 9 - 1) == k - 1
  {
  }
}

=== FILE: text.dfy ===
/**
  Character and string helpers shared by every part of the model: ASCII
  classification and case folding, single-character replacement (Python's
  `str.replace` with one-character arguments), substring search, decimal
  rendering and parsing of integers, `{n:03d}` padding and Python's string
  order (code-point lexicographic).
*/
module Text {
  import opened Wrappers
  import Seqs

  predicate IsDigit(c: char) { '0' <= c <= '9' }

  predicate AllDigits(s: string) { forall i :: 0 <= i < |s| ==> IsDigit(s[i]) }

  predicate NoDigits(s: string) { forall i :: 0 <= i < |s| ==> !IsDigit(s[i]) }

  predicate IsUpper(c: char) { 'A' <= c <= 'Z' }

  function LowerChar(c: char): char
  {
    if IsUpper(c) then (c as int + 32) as char else c
  }

  /** Python's `str.lower()` restricted to ASCII letters. */
  function Lower(s: string): string
  {
    seq(|s|, i requires 0 <= i < |s| => LowerChar(s[i]))
  }

  /** Python's `s.replace(a, b)` for one-character `a` and `b`. */
  function ReplaceChar(s: string, a: char, b: char): string
  {
    seq(|s|, i requires 0 <= i < |s| => if s[i] == a then b else s[i])
  }

  /** Replacing `a` by `b` and then `b` by `a` restores any text that had no `b`. */
  lemma ReplaceCharRoundTrip(s: string, a: char, b: char)
    requires b !in s
    ensures ReplaceChar(ReplaceChar(s, a, b), b, a) == s
  {
  }

  /** `sub` occurs in `s` starting at position `i`. */
  predicate OccursAt(s: string, sub: string, i: int)
  {
    0 <= i && i + |sub| <= |s| && s[i..i + |sub|] == sub
  }

  /** Python's `sub in s`. */
  predicate Contains(s: string, sub: string)
  {
    exists i :: 0 <= i <= |s| && OccursAt(s, sub, i)
  }

  /** Lower-casing leaves text without capitals unchanged. */
  lemma LowerNoUpper(s: string)
    requires forall i :: 0 <= i < |s| ==> !IsUpper(s[i])
    ensures Lower(s) == s
  {
  }

  /** The first `c` of `x + [c] + y` is right after `x` when `x` has none. */
  lemma IndexOfSplit(x: string, c: char, y: string)
    requires c !in x
    ensures IndexOf(x + [c] + y, c) == Some(|x|)
  {
    var s := x + [c] + y;
    assert s[..|x|] == x;
    assert s[|x|] == c;
  }

  /** Splitting at the first `c`: the parts before and after it are determined. */
  lemma SplitAtChar(x: string, u: string, y: string, v: string, c: char)
    requires c !in x && c !in y && x + [c] + u == y + [c] + v
    ensures x == y && u == v
  {
    var s := x + [c] + u;
    IndexOfSplit(x, c, u);
    IndexOfSplit(y, c, v);
    assert x == s[..|x|] && y == s[..|y|];
    assert u == s[|x| + 1..] && v == s[|y| + 1..];
  }

  /** Python's `s.find(c)` for one character, with `None` for -1. */
  function IndexOf(s: string, c: char): (r: Option<nat>)
    ensures r.None? <==> c !in s
    ensures r.Some? ==> r.value < |s| && s[r.value] == c && c !in s[..r.value]
  {
    if |s| == 0 then None
    else if s[0] == c then Some(0)
    else
      var t := IndexOf(s[1..], c);
      assert s == [s[0]] + s[1..];
      if t.None? then None
      else
        assert s[..t.value + 1] == [s[0]] + s[1..][..t.value];
        Some(t.value + 1)
  }

  function DigitValue(c: char): nat
    requires IsDigit(c)
  {
    c as int - '0' as int
  }

  function Digit(d: nat): (c: char)
    requires d < 10
    ensures IsDigit(c) && DigitValue(c) == d
  {
    ('0' as int + d) as char
  }

  /** The value of a run of decimal digits (leading zeros allowed, as in Python's `int`). */
  function DigitsValue(s: string): nat
    requires AllDigits(s)
  {
    if |s| == 0 then 0 else 10 * DigitsValue(s[..|s| - 1]) + DigitValue(s[|s| - 1])
  }

  /** Python's `str(n)` for a non-negative integer. */
  function NatStr(n: nat): (s: string)
    ensures 0 < |s| && AllDigits(s)
    ensures DigitsValue(s) == n
    ensures s[0] == '0' ==> n == 0
    decreases n
  {
    if n < 10 then [Digit(n)]
    else
      var p := NatStr(n / 10);
      assert (p + [Digit(n % 10)])[..|p|] == p;
      p + [Digit(n % 10)]
  }

  /** Python's `str(n)` for any integer. */
  function IntStr(n: int): (s: string)
    ensures 0 < |s|
    ensures forall i :: 0 <= i < |s| ==> IsDigit(s[i]) || s[i] == '-'
  {
    if n < 0 then "-" + NatStr(-n) else NatStr(n)
  }

  /**
    Python's `int(s)` on text that is already stripped: an optional sign
    followed by one or more ASCII digits; anything else is a ValueError.
  */
  function ParseInt(s: string): Option<int>
  {
    if 0 < |s| && (s[0] == '-' || s[0] == '+') then
      var d := s[1..];
      if 0 < |d| && AllDigits(d) then
        Some(if s[0] == '-' then -(DigitsValue(d) as int) else DigitsValue(d) as int)
      else None
    else if 0 < |s| && AllDigits(s) then Some(DigitsValue(s) as int)
    else None
  }

  lemma ParseIntStr(n: int)
    ensures ParseInt(IntStr(n)) == Some(n)
  {
    if n < 0 {
      assert IntStr(n)[1..] == NatStr(-n);
    }
  }

  lemma IntStrInjective(a: int, b: int)
    requires IntStr(a) == IntStr(b)
    ensures a == b
  {
    ParseIntStr(a);
    ParseIntStr(b);
  }

  function Zeros(k: nat): (z: string)
    ensures |z| == k && AllDigits(z)
  {
    seq(k, i => '0')
  }

  lemma ZerosValue(k: nat)
    ensures DigitsValue(Zeros(k)) == 0
  {
    if k > 0 {
      assert Zeros(k)[..k - 1] == Zeros(k - 1);
      ZerosValue(k - 1);
    }
  }

  /** Leading zeros do not change the value of a digit run. */
  lemma {:induction false} LeadingZerosValue(k: nat, s: string)
    requires AllDigits(s)
    ensures AllDigits(Zeros(k) + s)
    ensures DigitsValue(Zeros(k) + s) == DigitsValue(s)
    decreases |s|
  {
    if |s| == 0 {
      assert Zeros(k) + s == Zeros(k);
      ZerosValue(k);
    } else {
      var t := Zeros(k) + s;
      assert t[..|t| - 1] == Zeros(k) + s[..|s| - 1];
      LeadingZerosValue(k, s[..|s| - 1]);
    }
  }

  lemma NatStrLength(n: nat)
    ensures n < 10 ==> |NatStr(n)| == 1
    ensures n < 100 ==> |NatStr(n)| <= 2
    ensures n < 1000 ==> |NatStr(n)| <= 3
  {
    if n >= 10 {
      NatStrLength(n / 10);
    }
  }

  /** Python's `f"{n:03d}"`: at least three digits, zero-filled on the left. */
  function Pad3(n: nat): (r: string)
    ensures AllDigits(r) && 3 <= |r|
    ensures DigitsValue(r) == n
    ensures n < 1000 ==> |r| == 3
    ensures n >= 1000 ==> r == NatStr(n)
  {
    var s := NatStr(n);
    NatStrLength(n);
    if |s| >= 3 then s
    else
      LeadingZerosValue(3 - |s|, s);
      Zeros(3 - |s|) + s
  }

  // ---------------------------------------------------------------------------
  // Python's string order

  /** Python's `a < b` on `str`: lexicographic by code point, a proper prefix first. */
  predicate StrLt(a: string, b: string)
  {
    if |a| == 0 then 0 < |b|
    else if |b| == 0 then false
    else if a[0] == b[0] then StrLt(a[1..], b[1..])
    else a[0] < b[0]
  }

  /** Python's `a <= b` on `str`. */
  predicate StrLe(a: string, b: string) { !StrLt(b, a) }

  /** The reversed order, used by `sort(..., reverse=True)`. */
  predicate StrGe(a: string, b: string) { StrLe(b, a) }

  lemma {:induction false} StrLtIrreflexive(a: string)
    ensures !StrLt(a, a)
  {
    if |a| > 0 {
      StrLtIrreflexive(a[1..]);
    }
  }

  lemma {:induction false} StrLtTrichotomy(a: string, b: string)
    ensures StrLt(a, b) || StrLt(b, a) || a == b
    ensures !(StrLt(a, b) && StrLt(b, a))
  {
    if |a| > 0 && |b| > 0 && a[0] == b[0] {
      StrLtTrichotomy(a[1..], b[1..]);
      if a[1..] == b[1..] {
        assert a == [a[0]] + a[1..] && b == [b[0]] + b[1..];
      }
    }
  }

  lemma {:induction false} StrLtTransitive(a: string, b: string, c: string)
    requires StrLt(a, b) && StrLt(b, c)
    ensures StrLt(a, c)
  {
    if |a| > 0 && a[0] == b[0] && b[0] == c[0] {
      StrLtTransitive(a[1..], b[1..], c[1..]);
    }
  }

  lemma StrLeTotal()
    ensures Seqs.TotalOrder(StrLe)
  {
    forall a: string, b: string
      ensures StrLe(a, b) || StrLe(b, a)
    {
      StrLtTrichotomy(a, b);
    }
    forall a: string, b: string | StrLe(a, b) && StrLe(b, a)
      ensures a == b
    {
      StrLtTrichotomy(a, b);
    }
    forall a: string, b: string, c: string | StrLe(a, b) && StrLe(b, c)
      ensures StrLe(a, c)
    {
      if StrLt(c, a) {
        StrLtTrichotomy(a, b);
        StrLtTrichotomy(b, c);
        if StrLt(a, b) {
          StrLtTransitive(c, a, b);
        } else if a == b {
        } else {
          assert false;
        }
      }
    }
  }

  lemma StrGeTotal()
    ensures Seqs.TotalOrder(StrGe)
  {
    StrLeTotal();
    assert forall a, b :: StrGe(a, b) == StrLe(b, a);
  }

  /** A common prefix does not change the order. */
  lemma {:induction false} StrLtCommonPrefix(p: string, a: string, b: string)
    ensures StrLt(p + a, p + b) == StrLt(a, b)
  {
    if |p| > 0 {
      assert (p + a)[0] == (p + b)[0];
      assert (p + a)[1..] == p[1..] + a && (p + b)[1..] == p[1..] + b;
      StrLtCommonPrefix(p[1..], a, b);
    } else {
      assert p + a == a && p + b == b;
    }
  }

  /** Between texts of equal length the order is decided inside them, whatever follows. */
  lemma {:induction false} StrLtExtend(a: string, b: string, x: string, y: string)
    requires |a| == |b| && StrLt(a, b)
    ensures StrLt(a + x, b + y)
  {
    assert |a| > 0;
    if a[0] == b[0] {
      assert (a + x)[1..] == a[1..] + x && (b + y)[1..] == b[1..] + y;
      StrLtExtend(a[1..], b[1..], x, y);
    }
  }

  /** Two digit runs of the same length and value are the same text. */
  lemma {:induction false} DigitsValueInjective(s: string, t: string)
    requires AllDigits(s) && AllDigits(t) && |s| == |t|
    requires DigitsValue(s) == DigitsValue(t)
    ensures s == t
  {
    if |s| > 0 {
      var n := |s|;
      DigitsValueInjective(s[..n - 1], t[..n - 1]);
      assert s == s[..n - 1] + [s[n - 1]] && t == t[..n - 1] + [t[n - 1]];
    }
  }

  /** For digit runs of equal length, the text order is the numeric order. */
  lemma {:induction false} DigitsOrder(s: string, t: string)
    requires AllDigits(s) && AllDigits(t) && |s| == |t|
    requires DigitsValue(s) < DigitsValue(t)
    ensures StrLt(s, t)
  {
    var n := |s|;
    var s', t' := s[..n - 1], t[..n - 1];
    assert s == s' + [s[n - 1]] && t == t' + [t[n - 1]];
    if DigitsValue(s') < DigitsValue(t') {
      DigitsOrder(s', t');
      StrLtExtend(s', t', [s[n - 1]], [t[n - 1]]);
    } else if DigitsValue(s') == DigitsValue(t') {
      DigitsValueInjective(s', t');
      assert StrLt([s[n - 1]], [t[n - 1]]);
      StrLtCommonPrefix(s', [s[n - 1]], [t[n - 1]]);
    } else {
      assert false;
    }
  }

  /** Zero padding makes text order agree with numeric order below 1000. */
  lemma Pad3Order(a: nat, b: nat)
    requires a < b < 1000
    ensures StrLt(Pad3(a), Pad3(b))
  {
    DigitsOrder(Pad3(a), Pad3(b));
  }
}

=== FILE: web_reader.dfy ===
/**
  The reader's view of the downloads directory: the image files of a
  chapter in plain string order, their URLs, and the two-chapter window
  the infinite-scroll endpoint returns together with a status per chapter.
*/
module WebReader {
  import opened Wrappers
  import opened Text
  import opened Seqs
  import opened Store
  import Dicts
  import Downloader

  /** A file name sorts by itself. */
  function Name(s: string): string { s }

  /**
    `get_image_files`: the names of the image files of a chapter directory,
    sorted by Python's plain string order.
  */
  function ImageFiles(l: Listing): (r: seq<string>)
    ensures SortedBy(r, Name, StrLe)
    ensures multiset(r) == multiset(ImageNames(l))
    ensures forall n :: n in r <==> File(n) in l && IsImage(File(n))
  {
    var names := ImageNames(l);
    StrLeTotal();
    SortBySorted(names, Name, StrLe);
    SortByPermutation(names, Name, StrLe);
    var r := SortBy(names, Name, StrLe);
    forall n ensures n in r <==> n in names {
      assert n in r <==> n in multiset(r);
      assert n in names <==> n in multiset(names);
    }
    r
  }

  /** The URL the reader fetches one image from. */
  function ImageUrl(series: string, chapter: string, file: string): (r: string)
    ensures |r| == 8 + |series| + |chapter| + |file|
  {
    "image/" + series + "/" + chapter + "/" + file
  }

  /**
    `get_chapter_images`: a missing chapter directory is an error; otherwise
    one URL per image file, in the order of `ImageFiles`.
  */
  function ChapterImages(lib: Library, series: string, chapter: string): (r: Result<seq<string>, string>)
    ensures r.Err? <==> ChapterDir(series, chapter) !in lib
    ensures r.Err? ==> r.error == "Chapter not found: " + series + "/" + chapter
    ensures r.Ok? ==> |r.value| == |ImageNames(lib[ChapterDir(series, chapter)])|
    ensures r.Ok? ==> forall k :: 0 <= k < |r.value| ==>
              |r.value[k]| > 8 + |series| + |chapter|
              && r.value[k][8 + |series| + |chapter|..] == ImageFiles(lib[ChapterDir(series, chapter)])[k]
  {
    var d := ChapterDir(series, chapter);
    if d !in lib then Err("Chapter not found: " + series + "/" + chapter)
    else
      ImageFilesCount(lib[d]);
      Ok(ImageUrls(series, chapter, ImageFiles(lib[d])))
  }

  /** One URL per file, each ending in its file name. */
  function ImageUrls(series: string, chapter: string, files: seq<string>): (r: seq<string>)
    requires forall k :: 0 <= k < |files| ==> |files[k]| > 0
    ensures |r| == |files|
    ensures forall k :: 0 <= k < |r| ==>
              |r[k]| > 8 + |series| + |chapter| && r[k][8 + |series| + |chapter|..] == files[k]
  {
    var urls := seq(|files|, k requires 0 <= k < |files| => ImageUrl(series, chapter, files[k]));
    forall k | 0 <= k < |urls| ensures urls[k][8 + |series| + |chapter|..] == files[k] {
      UrlFile(series, chapter, files[k]);
    }
    urls
  }

  /** The sorted listing has one entry per image name, none of them empty. */
  lemma ImageFilesCount(l: Listing)
    ensures |ImageFiles(l)| == |ImageNames(l)|
    ensures forall k :: 0 <= k < |ImageFiles(l)| ==> |ImageFiles(l)[k]| > 0
  {
    var files := ImageFiles(l);
    assert |multiset(files)| == |multiset(ImageNames(l))|;
    forall k | 0 <= k < |files| ensures |files[k]| > 0 {
      assert files[k] in files;
      ImageNameNonEmpty(files[k]);
    }
  }

  lemma ImageNameNonEmpty(n: string)
    requires IsImage(File(n))
    ensures |n| > 0
  {
    assert Lower("") == "";
    assert "" !in ImageExtensions;
    assert Suffix(n) != "";
  }

  /** The file name is the part of its URL after the fixed prefix. */
  lemma UrlFile(series: string, chapter: string, file: string)
    ensures ImageUrl(series, chapter, file)[8 + |series| + |chapter|..] == file
  {
    var prefix := "image/" + series + "/" + chapter + "/";
    assert ImageUrl(series, chapter, file) == prefix + file;
  }

  /** Different files of one chapter have different URLs. */
  lemma ImageUrlsDistinct(lib: Library, series: string, chapter: string, k: nat, m: nat)
    requires ChapterImages(lib, series, chapter).Ok?
    requires k < m < |ChapterImages(lib, series, chapter).value|
    requires ImageFiles(lib[ChapterDir(series, chapter)])[k] != ImageFiles(lib[ChapterDir(series, chapter)])[m]
    ensures ChapterImages(lib, series, chapter).value[k] != ChapterImages(lib, series, chapter).value[m]
  {
  }

  // ---------------------------------------------------------------------------
  // Order of a downloaded chapter

  /** Below index 1000 the padded page names sort in page order. */
  lemma PageNameOrder(i: nat, j: nat, e: string, f: string)
    requires i < j < 1000
    ensures StrLt(Downloader.PageFileName(i, e), Downloader.PageFileName(j, f))
  {
    Pad3Order(i, j);
    StrLtExtend(Pad3(i), Pad3(j), "." + e, "." + f);
    StrLtCommonPrefix("page_", Pad3(i) + ("." + e), Pad3(j) + ("." + f));
    assert Downloader.PageFileName(i, e) == "page_" + (Pad3(i) + ("." + e));
    assert Downloader.PageFileName(j, f) == "page_" + (Pad3(j) + ("." + f));
  }

  /**
    A chapter downloaded into a fresh directory whose probe stopped before
    index 1000 lists its pages in the order they were probed.
  */
  lemma FreshChapterInPageOrder(src: Downloader.Source, run: Downloader.Run)
    requires run.start <= run.last <= 1000
    requires run.pages == Downloader.SavedPages(src, run.start, run.last)
    ensures ImageFiles(Downloader.WriteFiles([], Downloader.RunFiles(run))) == Downloader.PageNames(run.pages)
  {
    var names := Downloader.PageNames(run.pages);
    Downloader.SavedPagesShape(src, run.start, run.last);
    Downloader.FreshListing(src, run);
    forall a, b | 0 <= a < b < |names| ensures StrLe(Name(names[a]), Name(names[b])) {
      PageNameOrder(run.pages[a].index, run.pages[b].index, run.pages[a].ext, run.pages[b].ext);
      StrLtTrichotomy(names[a], names[b]);
    }
    SortBySortedInput(names, Name, StrLe);
  }

  /** From index 1000 on the plain order breaks: page 1000 sorts between pages 100 and 101. */
  lemma ThousandthPageOutOfOrder()
    ensures StrLt(Downloader.PageFileName(100, "jpg"), Downloader.PageFileName(1000, "jpg"))
    ensures StrLt(Downloader.PageFileName(1000, "jpg"), Downloader.PageFileName(101, "jpg"))
  {
    Pad3Examples();
    ThousandAfterHundred();
    ThousandBeforeHundredOne();
  }

  lemma ThousandAfterHundred()
    requires Pad3(100) == "100" && Pad3(1000) == "1000"
    ensures StrLt(Downloader.PageFileName(100, "jpg"), Downloader.PageFileName(1000, "jpg"))
  {
    StrLtCommonPrefix("page_100", ".jpg", "0.jpg");
    assert Downloader.PageFileName(100, "jpg") == "page_100" + ".jpg";
    assert Downloader.PageFileName(1000, "jpg") == "page_100" + "0.jpg";
  }

  lemma ThousandBeforeHundredOne()
    requires Pad3(101) == "101" && Pad3(1000) == "1000"
    ensures StrLt(Downloader.PageFileName(1000, "jpg"), Downloader.PageFileName(101, "jpg"))
  {
    StrLtCommonPrefix("page_10", "00.jpg", "1.jpg");
    assert Downloader.PageFileName(1000, "jpg") == "page_10" + "00.jpg";
    assert Downloader.PageFileName(101, "jpg") == "page_10" + "1.jpg";
  }

  lemma Pad3Examples()
    ensures Pad3(100) == "100" && Pad3(101) == "101" && Pad3(1000) == "1000"
  {
    assert NatStr(10) == "10";
    assert NatStr(100) == "100";
    assert NatStr(101) == "101";
    assert NatStr(1000) == "1000";
  }

  // ---------------------------------------------------------------------------
  // The infinite-scroll window

  datatype InfiniteChapter = InfiniteChapter(chapterNum: int, chapterName: string, images: seq<string>,
                                             pageCount: nat, isComplete: bool)

  datatype InfiniteResponse = InfiniteResponse(series: string, currentChapter: int, chapters: seq<InfiniteChapter>,
                                               totalPages: nat, downloadStatus: Dicts.Dict<string, string>)

  /** How many chapters the window holds: the current one and the next. */
  const Window := 2

  /** The status word of one chapter of the window: its data (when it exists) and its status. */
  function ChapterOutcome(lib: Library, series: string, n: int): (r: (Option<InfiniteChapter>, string))
    ensures !GetChapterStatus(lib, series, n).exists_ ==> r == (None, "not_available")
    ensures GetChapterStatus(lib, series, n).exists_ ==>
              && r.0.Some?
              && r.1 == (if GetChapterStatus(lib, series, n).complete then "complete" else "incomplete")
    ensures r.0.Some? ==>
              var c := r.0.value;
              && c.chapterNum == n && c.chapterName == ChapterFolder(IntStr(n))
              && c.pageCount == |c.images| == GetChapterStatus(lib, series, n).pageCount
              && c.isComplete == GetChapterStatus(lib, series, n).complete
              && Ok(c.images) == ChapterImages(lib, series, c.chapterName)
  {
    var st := GetChapterStatus(lib, series, n);
    if !st.exists_ then (None, "not_available")
    else
      var name := ChapterFolder(IntStr(n));
      match ChapterImages(lib, series, name)
      case Err(_) => (None, "error")
      case Ok(images) => (Some(InfiniteChapter(n, name, images, |images|, st.complete)),
                          if st.complete then "complete" else "incomplete")
  }

  /** The pages of the listed chapters, added up. */
  function SumPages(cs: seq<InfiniteChapter>): nat
  {
    if |cs| == 0 then 0 else SumPages(cs[..|cs| - 1]) + cs[|cs| - 1].pageCount
  }

  /** The chapters of the window that exist. */
  function Present(lib: Library, series: string, current: int, count: nat): (r: seq<InfiniteChapter>)
    decreases count
  {
    if count == 0 then []
    else
      var c := ChapterOutcome(lib, series, current + count - 1).0;
      Present(lib, series, current, count - 1) + (if c.Some? then [c.value] else [])
  }

  /**
    The status map the loop over the first `count` chapters of the window
    builds: one `chapter_<n>` key per chapter, in order.
  */
  function StatusMap(word: int -> string, current: int, count: nat): (r: Dicts.Dict<string, string>)
    ensures |r| == count
    ensures StatusMapOf(r, word, current, current + count)
    decreases count
  {
    if count == 0 then
      EmptyStatusMap(word, current);
      []
    else
      var prev := StatusMap(word, current, count - 1);
      WindowStatusStep(word, current, count, prev);
      Dicts.Put(prev, ChapterFolder(IntStr(current + count - 1)), word(current + count - 1))
  }

  /** The status word the window gives each chapter number. */
  function WordOf(lib: Library, series: string): int -> string
  {
    (n: int) => ChapterOutcome(lib, series, n).1
  }

  lemma EmptyStatusMap(word: int -> string, current: int)
    ensures StatusMapOf([], word, current, current)
  {
  }

  /** One step of the status map: the new chapter's key is new and set, the earlier ones keep their words. */
  lemma WindowStatusStep(word: int -> string, current: int, count: nat, d: Dicts.Dict<string, string>)
    requires count > 0 && |d| == count - 1
    requires StatusMapOf(d, word, current, current + count - 1)
    ensures var r := Dicts.Put(d, ChapterFolder(IntStr(current + count - 1)), word(current + count - 1));
            |r| == count && StatusMapOf(r, word, current, current + count)
  {
    var n := current + count - 1;
    var key := ChapterFolder(IntStr(n));
    var r := Dicts.Put(d, key, word(n));
    assert Dicts.Get(d, key).None? by {
      if Dicts.Get(d, key).Some? {
        var m :| current <= m < n && key == ChapterFolder(IntStr(m));
        FolderKeyInjective(n, m);
      }
    }
    Dicts.PutGet(d, key, word(n), key);
    forall m | current <= m < n + 1
      ensures Dicts.Get(r, ChapterFolder(IntStr(m))) == Some(word(m))
    {
      Dicts.PutGet(d, key, word(n), ChapterFolder(IntStr(m)));
      if m < n && ChapterFolder(IntStr(m)) == key {
        FolderKeyInjective(n, m);
      }
    }
    forall j | Dicts.Get(r, j).Some? ensures exists m :: current <= m < n + 1 && j == ChapterFolder(IntStr(m)) {
      Dicts.PutGet(d, key, word(n), j);
    }
  }

  /**
    The status map of the chapters `lo .. hi - 1`: each has its word under
    `chapter_<n>`, and no other key is present.
  */
  ghost predicate StatusMapOf(d: Dicts.Dict<string, string>, word: int -> string, lo: int, hi: int)
  {
    && (forall n :: lo <= n < hi ==> Dicts.Get(d, ChapterFolder(IntStr(n))) == Some(word(n)))
    && (forall key :: Dicts.Get(d, key).Some? ==> exists n :: lo <= n < hi && key == ChapterFolder(IntStr(n)))
  }

  /** `chapter_<n>` names one chapter only. */
  lemma FolderKeyInjective(a: int, b: int)
    requires ChapterFolder(IntStr(a)) == ChapterFolder(IntStr(b))
    ensures a == b
  {
    assert IntStr(a) == ChapterFolder(IntStr(a))[8..];
    IntStrInjective(a, b);
  }

  /**
    The infinite-chapters endpoint: the current chapter and the next, each
    with its images when its directory exists, the page total, and a status
    per chapter keyed `chapter_<n>`.
  */
  function InfiniteChapters(lib: Library, series: string, current: int): (r: InfiniteResponse)
    ensures r.series == series && r.currentChapter == current
    ensures r.chapters == Present(lib, series, current, Window)
    ensures r.totalPages == SumPages(r.chapters)
    ensures |r.downloadStatus| == Window
    ensures forall n :: current <= n < current + Window ==>
              Dicts.Get(r.downloadStatus, ChapterFolder(IntStr(n))) == Some(StatusWord(GetChapterStatus(lib, series, n)))
    ensures forall key :: Dicts.Get(r.downloadStatus, key).Some? ==>
              exists n :: current <= n < current + Window && key == ChapterFolder(IntStr(n))
  {
    var chapters := Present(lib, series, current, Window);
    forall n | current <= n < current + Window
      ensures ChapterOutcome(lib, series, n).1 == StatusWord(GetChapterStatus(lib, series, n))
    {
      OutcomeWord(lib, series, n);
    }
    InfiniteResponse(series, current, chapters, SumPages(chapters), StatusMap(WordOf(lib, series), current, Window))
  }

  /** The word the window reports for a chapter is its `get_chapter_status` word: the error case cannot arise. */
  lemma OutcomeWord(lib: Library, series: string, n: int)
    ensures ChapterOutcome(lib, series, n).1 == StatusWord(GetChapterStatus(lib, series, n))
  {
  }

  /** A chapter's status word from `get_chapter_status` alone. */
  function StatusWord(st: ChapterStatus): string
  {
    if !st.exists_ then "not_available" else if st.complete then "complete" else "incomplete"
  }

  /**
    The page total equals the page counts `get_chapter_status` reports for
    the two chapters (a missing chapter counts zero).
  */
  lemma TotalPagesAreStatusCounts(lib: Library, series: string, current: int)
    ensures InfiniteChapters(lib, series, current).totalPages
         == GetChapterStatus(lib, series, current).pageCount + GetChapterStatus(lib, series, current + 1).pageCount
  {
    var cs1 := Present(lib, series, current, 1);
    var cs2 := Present(lib, series, current, 2);
    assert Present(lib, series, current, 0) == [];
    assert SumPages(cs1) == GetChapterStatus(lib, series, current).pageCount by {
      if ChapterOutcome(lib, series, current).0.Some? {
        assert cs1 == [ChapterOutcome(lib, series, current).0.value];
        assert cs1[..0] == [];
      } else {
        assert cs1 == [];
      }
    }
    if ChapterOutcome(lib, series, current + 1).0.Some? {
      assert cs2 == cs1 + [ChapterOutcome(lib, series, current + 1).0.value];
      assert cs2[..|cs2| - 1] == cs1;
    } else {
      assert cs2 == cs1;
    }
  }

  /** Chapter `n` as the window lists it, read off `get_chapter_status` and `get_chapter_images`: nothing when its directory is missing. */
  function Listed(lib: Library, series: string, n: int): seq<InfiniteChapter>
  {
    var st := GetChapterStatus(lib, series, n);
    var name := ChapterFolder(IntStr(n));
    if !st.exists_ then []
    else
      var images := ChapterImages(lib, series, name).value;
      [InfiniteChapter(n, name, images, |images|, st.complete)]
  }

  /** The window lists the current chapter, then the next, each exactly when its directory exists. */
  lemma WindowIsListed(lib: Library, series: string, current: int)
    ensures InfiniteChapters(lib, series, current).chapters == Listed(lib, series, current) + Listed(lib, series, current + 1)
  {
    PresentPair(lib, series, current);
  }

  lemma PresentPair(lib: Library, series: string, current: int)
    ensures Present(lib, series, current, 2) == Listed(lib, series, current) + Listed(lib, series, current + 1)
  {
    OutcomeListed(lib, series, current);
    OutcomeListed(lib, series, current + 1);
    assert Present(lib, series, current, 1) == [] + Listed(lib, series, current);
  }

  /** A chapter's outcome carries data exactly when it is listed, and then the listed data. */
  lemma OutcomeListed(lib: Library, series: string, n: int)
    ensures (var c := ChapterOutcome(lib, series, n).0; if c.Some? then [c.value] else []) == Listed(lib, series, n)
  {
  }
}

=== FILE: wrappers.dfy ===
/** Option and Result: the error-carrying return types used across the model. */
module Wrappers {

  datatype Option<+T> = None | Some(value: T) {

    /** The wrapped value, or `default` when there is none. */
    function GetOr(default: T): T {
      match this
      case Some(v) => v
      case None => default
    }
  }

  datatype Result<+R, +E> = Ok(value: R) | Err(error: E)
}
